=== FILE: README.md ===
# RIFE Video Extender, modelled in Dafny

RIFE Video Extender makes slow-motion videos and extends videos with generated
footage. Its core is made of five parts:

- **Slow motion** (`processor.py`, `rife_wrapper.py`):
  - ffprobe reads the input's metadata, and ffmpeg extracts its frames as PNG files.
  - The rife-ncnn-vulkan binary doubles the frames once per pass. There are `floor(log2 m)` passes for a multiplier `m`. Every pass except the last writes into a scratch directory `temp_pass_<i>`.
  - ffmpeg reassembles the frames at the input's frame rate. The video therefore lasts `m` times longer.
  - Progress goes to a callback: extraction reports 5–30 %, interpolation 30–90 % and encoding 90–100 %.
  - Both per-job scratch directories are removed whichever way the run ends.
- **Continuation** (`continuation_processor.py`, `runpod_client.py`):
  - ffmpeg takes the input's last frame.
  - A CogVideoX job on RunPod generates a clip from that frame. The client validates its credentials, base64-encodes the image, submits the job, polls its status every 2 seconds until the timeout, and saves the answer.
  - The clip is re-encoded to the input's rate and size. It is then either joined to the re-encoded original through ffmpeg's concat demuxer, or copied as the output.
  - The client's progress `p` is reported as `0.10 + 0.70 p`.
- **Command line** (`main.py`):
  - `print_progress` draws a 40-column text bar.
  - `run_cli` checks the binaries, the input and its format, prints the metadata and an output preview, picks a default output name and runs the slow-motion pipeline.
  - `main` parses the arguments and chooses between the graphical interface and `run_cli`.

## How the model is organised

There is one module per source file:

- `RifeWrapper`, `RunPodClient`, `Processor`, `ContinuationProcessor` and `Cli` model the five core files.
- `Config` holds the paths, `ensure_directories` and `check_dependencies` of `config.py`.
- `Common` holds what they share:
  - paths, with pathlib's `parent`, `name`, `stem` and `suffix`;
  - Python's `strip`, `find`, `int()` and `float()` on strings;
  - a JSON value type;
  - `Outcome` (a value, or the exception raised);
  - the two classes below.

The effects are modelled as follows:

- **The filesystem** is a class `FileSystem` with a set of directories and a set of files. Its methods model `mkdir(parents=True)`, `rmtree`, `open(..., "w")` and `unlink`.
- **A progress callback** is a class `Sink`. It records every invocation. An optional `limit` stands for a callback that raises once that many invocations have been accepted: the graphical interface's cancel button, which raises InterruptedError from inside the callback. Every operation that reports states its new events as `old(events) + Admit(limit, |old(events)|, R)`, where `R` is the full report sequence of a run whose callback never raises.
- **The outside world** is a value fixed in advance:
  - the presence of each binary;
  - the probe record ffprobe gives for a path;
  - the lines and exit code of each process;
  - the outcome of each RIFE pass;
  - the status the RunPod job gives at each poll, and its output;
  - the result of each remote call.

Imperative code stays imperative. The following are methods with loop invariants:

- the pass loop;
- the line loops of `run_rife`, `extract_frames` and `reassemble_video`;
- the poll loop;
- the cleanup loops;
- the model listing.

Each method is proved against a function of its inputs. What the source promises is then proved about those functions as lemmas.

## Model

| member | source | states |
|---|---|---|
| RifeWrapper.GetAvailableModels | rife_wrapper.py:13-20 | the result is sorted and is a permutation of the names of the directories starting with "rife"; a name is listed iff such a directory has it; empty when the models directory is missing |
| RifeWrapper.SortStringsCorrect | rife_wrapper.py:20 | `sorted` gives an ordered permutation of its input under Python's string order |
| RifeWrapper.LexLeTotal | rife_wrapper.py:20 | Python's string order is total |
| RifeWrapper.LexLeTransitive | rife_wrapper.py:20 | Python's string order is transitive |
| RifeWrapper.ModelNamesMembers | rife_wrapper.py:16-19 | a name is collected iff some entry is a directory with that name starting with "rife" |
| RifeWrapper.DigitRun | rife_wrapper.py:78 | `\d+` is greedy: the run of digits at `i` is maximal |
| RifeWrapper.MatchAt | rife_wrapper.py:78 | a match of `(\d+)/(\d+)` yields two non-empty digit strings |
| RifeWrapper.MatchAtFraction | rife_wrapper.py:78 | the pattern matches at `i` with exactly the two maximal digit runs around a '/' |
| RifeWrapper.NoMatchAtNonDigit | rife_wrapper.py:78 | no match starts at a non-digit |
| RifeWrapper.FindFractionLeftmost | rife_wrapper.py:78-87 | `search` reads the two groups of the leftmost position where the pattern matches, as ints |
| RifeWrapper.FindFractionNone | rife_wrapper.py:84-85 | `search` finds nothing iff the pattern matches at no position |
| RifeWrapper.FindFractionOfProgress | rife_wrapper.py:78-88 | a line holding printed numbers `a/b`, with no digit anywhere before them and none right after them, reports exactly (a, b) |
| RifeWrapper.RaiseStopsRun | rife_wrapper.py:85-95 | once the callback raises, the later reports of the run never reach it |
| RifeWrapper.RifeCommandShape | rife_wrapper.py:54-64 | the command names the input, output, model and GPU (read back as the int), fixes "%08d.png", and ends with "-x" iff UHD mode |
| RifeWrapper.ForwardLine | rife_wrapper.py:81-88 | a stripped, non-blank line with a match invokes the callback once with its two numbers; others invoke nothing |
| RifeWrapper.ForwardLines | rife_wrapper.py:80-88 | the loop delivers the reports of all lines in order, up to the first callback that raises, and says whether one did |
| RifeWrapper.RunRife | rife_wrapper.py:23-95 | a missing binary raises FileNotFoundError and changes nothing; otherwise the output directory is created, the command built, and the result is True iff the process started, exited with 0 and the callback never raised |
| RifeWrapper.FloorLog2Bounds | rife_wrapper.py:124 | the pass count n satisfies 2^n <= m < 2^(n+1) |
| RifeWrapper.FloorLog2Unique | rife_wrapper.py:124-127 | that n is unique, so recomputing it after the warning gives the same count |
| RifeWrapper.FloorLog2OfPow2 | rife_wrapper.py:124-125 | a power of two 2^n needs exactly n passes |
| RifeWrapper.PassCommandsAt | rife_wrapper.py:129-167 | pass i reads the input directory (i = 0) or what pass i - 1 wrote, writes its own output, and runs without UHD mode |
| RifeWrapper.TempPassDirShape | rife_wrapper.py:139 | a scratch directory is named "temp_pass_<i>" and is a sibling of the output directory |
| RifeWrapper.TempDirsIndependent | rife_wrapper.py:139 | scratch directories of different passes are distinct siblings |
| RifeWrapper.TempPassDirIsOutputIff | rife_wrapper.py:139 | the scratch directory of pass i coincides with the output directory iff the output directory is not the root and is itself named "temp_pass_<i>" |
| RifeWrapper.OnlyLastPassWritesOutput | rife_wrapper.py:133-142 | pass i writes the output directory iff it is the last pass or the output directory is itself named "temp_pass_<i>" |
| RifeWrapper.OutputOutsideTemps | rife_wrapper.py:139-172 | the output directory lies in one of the first c scratch trees, and so is removed by the cleanup, iff it is itself named "temp_pass_<j>" for some j < c |
| RifeWrapper.ForwardedNumbered | rife_wrapper.py:132-149 | the j-th (current, total) pair of the run at index p is reported as (p + 1, current, total), right after the reports of the p passes before it |
| RifeWrapper.ForwardedOnlyPasses | rife_wrapper.py:132-149 | every report of the first k passes is such a pair: it comes from the run at some index p < k, carries p + 1 as its pass number and sits after the reports of the passes before p |
| RifeWrapper.RemoveTemps | rife_wrapper.py:159-172 | the cleanup loop removes exactly the scratch trees; every other directory and file is kept |
| RifeWrapper.PassDirsBounded | rife_wrapper.py:135-142 | a pass creates directories only on the output directory's path or its own scratch directory |
| RifeWrapper.DirsMadeBounded | rife_wrapper.py:132-142 | everything the passes create lies on the output directory's path or in a scratch tree |
| RifeWrapper.TempsMade | rife_wrapper.py:139-141 | every recorded scratch directory was created |
| RifeWrapper.OutputMade | rife_wrapper.py:132-142 | the last pass creates the output directory |
| RifeWrapper.RunPass | rife_wrapper.py:132-167 | one iteration: create and record the scratch directory unless last, run the pass, and re-establish the loop's state over one more pass |
| RifeWrapper.RunPasses | rife_wrapper.py:129-167 | the loop stops at the first failing pass or raising callback; the commands run so far are the first passes' commands, and the scratch directories recorded are theirs |
| RifeWrapper.LaunchedShape | rife_wrapper.py:159-164 | the passes launched all succeed but the last, and the last failed unless all ran |
| RifeWrapper.MultiPassSucceedsIff | rife_wrapper.py:132-174 | without a raising callback the scheduler returns True iff every one of its passes succeeds |
| RifeWrapper.MultiPassReportsUpToFailure | rife_wrapper.py:147-164 | the callback hears from the passes up to and including the first failing one, in order |
| RifeWrapper.MultiPassTrueMeans | rife_wrapper.py:132-174 | True means every pass succeeded and the callback accepted every report |
| RifeWrapper.RemoveTempsOfPasses | rife_wrapper.py:159-172 | after cleanup no directory lies in a scratch tree, everything else is kept, and new directories lie on the output directory's path |
| RifeWrapper.RunPassesAndClean | rife_wrapper.py:132-172 | the pass loop followed by the cleanup, on both exits |
| RifeWrapper.InterpolateMultiPass | rife_wrapper.py:98-174 | floor(log2 m) passes (a warning iff m is not a power of two), chained through the scratch directories; True iff every pass succeeds and the callback never raises; on return every scratch tree is gone, nothing outside them is removed, and the output directory exists after a successful run; a missing binary raises after the first scratch directory was made |
| RunPodClient.JobInput | runpod_client.py:139-148 | the submitted input has exactly the six keys, holding the image and the configuration's fields |
| RunPodClient.RunPodCogVideoClient.constructor | runpod_client.py:66-75 | stores the key, endpoint and timeout, with no endpoint yet |
| RunPodClient.RunPodCogVideoClient.ValidateCredentials | runpod_client.py:77-95 | an empty key fails with "RunPod API key is not set" before an empty endpoint fails with "RunPod endpoint ID is not set"; ok iff both are set and the endpoint connects; only success records the endpoint |
| RunPodClient.PollBudgetAt | runpod_client.py:210-236 | poll k happens iff its elapsed time 2k is below the timeout |
| RunPodClient.PollBudgetValue | runpod_client.py:210-236 | the loop makes at most ceil(timeout / 2) status queries |
| RunPodClient.FirstTerminal | runpod_client.py:214-224 | the first poll with a terminal status, and no earlier poll terminal |
| RunPodClient.Estimate | runpod_client.py:229 | the estimate lies in [0.15, 0.85] |
| RunPodClient.EstimateMonotone | runpod_client.py:229 | the estimate never decreases as time passes |
| RunPodClient.GeneratingStageInjective | runpod_client.py:230 | different statuses give different stage labels |
| RunPodClient.PollResultCases | runpod_client.py:214-236 | the loop raises JobTimeoutError iff no status within the budget is terminal; it returns the output iff the first terminal status is COMPLETED; otherwise it raises JobFailedError |
| RunPodClient.PollCallsShape | runpod_client.py:214-220 | statuses are queried for consecutive polls within the budget; the output is fetched at most once, last |
| RunPodClient.PollReportsProgress | runpod_client.py:227-231 | polling reports never decrease, lie between the estimate at their start and 0.85, and are absent without a callback |
| RunPodClient.PollReportsChangeOnly | runpod_client.py:212-231 | a polling report is made only when the status differs from the one reported before (initially "") |
| RunPodClient.AwaitTerminal | runpod_client.py:210-236 | the while loop: it reports as PollReports says, stops at the first terminal status or the budget, and says whether the callback raised |
| RunPodClient.PollJobStatus | runpod_client.py:204-236 | `_poll_job_status`: its reports, its outcome as PollResult (or the callback's exception), and its remote calls |
| RunPodClient.ClassifyPriority | runpod_client.py:238-270 | a "video_url" is downloaded whatever else the answer holds; otherwise the payload saved is exactly the top-level string, else "video", else the string "output", else "output"'s "video"; the answer is refused iff it carries none of these |
| RunPodClient.ClientStopCases | runpod_client.py:97-197 | validate, encode, submit, poll and save run in order, and the first failing stage decides the message; success iff every stage succeeds, and then the video path is the requested one; a timeout reads "Job timed out after <timeout> seconds" |
| RunPodClient.SaveFinished | runpod_client.py:176-186 | saving succeeds iff the answer has a video and storing it works |
| RunPodClient.ClientReportsProgress | runpod_client.py:127-191 | the client's reports (0.05, 0.10, the estimates, 0.90, 1.0) never decrease and stay in [0.05, 1.0]; 1.0 is reported iff the call succeeds, as the last report |
| RunPodClient.ClientCallsOrder | runpod_client.py:119-186 | nothing remote is called without credentials; a failed encoding submits nothing; a video is stored at most once, last, at the requested path |
| RunPodClient.SaveStage | runpod_client.py:176-197 | report 0.90, save, report 1.0 |
| RunPodClient.PollStage | runpod_client.py:162-175 | poll, mapping a timeout and a failed job to their results |
| RunPodClient.SubmitStage | runpod_client.py:150-160 | report 0.10 and submit, a submission error becoming a result |
| RunPodClient.EncodeStage | runpod_client.py:126-136 | report 0.05 and encode, an encoding error becoming a result |
| RunPodClient.RunPodCogVideoClient.GenerateContinuation | runpod_client.py:97-197 | `generate_continuation`: reports ClientReports, returns ClientResult at the first failing stage (or raises the callback's exception), and makes ClientCalls in order |
| Processor.ResolutionRoundTrip | processor.py:24-26 | the resolution text has one 'x' with the width before it and the height after it, each read back as the number |
| Processor.FirstVideoFromSpec | processor.py:58-65 | the first stream of codec type "video" is chosen; a non-dict item reached first raises; "No video stream found" iff every item is passed over |
| Processor.InfoFromFirstVideo | processor.py:58-62 | the first video stream is described, whatever follows it |
| Processor.Split | processor.py:70 | `split` gives at least one piece, and at least two when the separator occurs |
| Processor.FpsOfFraction | processor.py:68-71 | "a/b" gives a/b, or 30.0 when b is 0 |
| Processor.FpsOfTwoPieces | processor.py:69-71 | two pieces that read as numbers give their quotient, or 30.0 for a zero denominator |
| Processor.FpsOfRatio | processor.py:69-71 | "a/b" with b non-zero gives a/b |
| Processor.FpsOfDecimal | processor.py:72-73 | a rate without '/' is read as a decimal number |
| Processor.FpsOfThreePieces | processor.py:70 | "a/b/c" raises "too many values to unpack" |
| Processor.FpsOfThreeNumbers | processor.py:70 | three pieces that read as numbers raise "too many values to unpack" |
| Processor.DefaultFps | processor.py:68 | a missing rate defaults to "30/1", that is 30 fps |
| Processor.DurationFallback | processor.py:76-78 | the stream's duration unless it is 0 or missing, then the container's, else 0 |
| Processor.FrameCountFallback | processor.py:81-83 | a non-zero `nb_frames` is the count; otherwise the count is int(fps * duration), the whole number of frames that fit |
| Processor.InfoDefaults | processor.py:68-92 | a video stream with nothing but its codec type gets 30 fps, duration 0, 0 frames, 0x0 and codec "unknown" |
| Processor.BareStreamDefaults | processor.py:76-92 | the same defaults, in a record without a container section |
| Processor.FindFrom | processor.py:144 | `find` gives the leftmost occurrence at or after `i`, or -1 |
| Processor.TokenLength | processor.py:146 | the first token ends at the first whitespace |
| Processor.FrameReport | processor.py:141-151 | a line reports at most one frame number |
| Processor.FrameReportOfLine | processor.py:141-151 | a progress line "...frame=  n ..." reports exactly n |
| Processor.ForwardFrame | processor.py:141-151 | one line invokes the callback with its frame number and the fixed total, or not at all |
| Processor.ForwardFrames | processor.py:139-151 | the loop delivers the reports of all lines in order, up to the first callback that raises |
| Processor.MonitoredMeans | processor.py:131-153 | a monitored run ends with its exit status iff it started and the callback accepted every report |
| Processor.MonitorRun | processor.py:131-153 | starts the process and forwards its reports; the outcome is Monitored |
| Processor.ExtractOutcomeMeans | processor.py:111-160 | extraction returns iff it succeeds and the callback accepts all reports, and then gives the number of PNG files written |
| Processor.ExtractFrames | processor.py:95-160 | `extract_frames`: check ffmpeg, probe, make the directory, run, report each frame number against the probed count; a failed run raises |
| Processor.ReassembleCommandShape | processor.py:193-203 | the command reads the numbered frames at `fps`, sets the quality, and ends with the output |
| Processor.EncodeOutcomeMeans | processor.py:183-226 | reassembly gives True iff ffmpeg exits with 0 and the callback accepts every report, and False (never an exception) on a non-zero exit |
| Processor.ReassembleVideo | processor.py:163-226 | `reassemble_video` at quality 18: check ffmpeg, count frames, make the directory, run, report; the result is the exit test |
| Processor.BitLengthPasses | processor.py:289 | for m >= 1, `m.bit_length() - 1` is the scheduler's pass count |
| Processor.FrameBands | processor.py:269-316 | extraction reports lie in [0.05, 0.30] and encoding reports in [0.90, 1.0], the last frame at the top |
| Processor.PassShareBounds | processor.py:289 | a pass the scheduler runs has a share in (0, 1] |
| Processor.RifeBand | processor.py:284-292 | an interpolation report lies in (0.30, 0.90] |
| Processor.RifeProgressFallsBetweenPasses | processor.py:289-291 | with m = 4 the last frame of pass 1 reports 0.75 and the first frame of pass 2 reports 0.60: progress is not monotone |
| Processor.JobDirsInTemp | processor.py:256-258 | the job's scratch directories lie in the application's scratch directory |
| Processor.PassDirsInTemp | processor.py:255-301 | the scheduler's scratch directories lie there too |
| Processor.FrontLimits | processor.py:262-277 | a stage that returns under a limited callback returns what it would without one |
| Processor.RifeLimits | processor.py:281-304 | the same for interpolation |
| Processor.Front | processor.py:262-278 | report 0.0, probe, report 0.05, extract |
| Processor.Extract | processor.py:269-278 | report 0.05 and extract, reporting frames in the 5–30 % band |
| Processor.Rife | processor.py:281-304 | report 0.30 and run the scheduler, False becoming RuntimeError("RIFE interpolation failed"); nothing outside the scratch directory is touched |
| Processor.Back | processor.py:308-333 | report 0.90, encode at the input's rate, report "Complete!" 1.0, probe the output |
| Processor.Encode | processor.py:313-333 | encoding reports in the 90–100 % band; False becomes RuntimeError("Video reassembly failed") |
| Processor.Tail | processor.py:281-336 | interpolation then reassembly, the first raise ending the run |
| Processor.RunStages | processor.py:260-336 | the three stages in order |
| Processor.ProcessVideo | processor.py:229-343 | `process_video`: both scratch directories are gone on every exit; no file is created and nothing outside the scratch directory is removed; the outcome is ProcessOutcome |
| Processor.ProcessNeverFalse | processor.py:303-336 | `process_video` never returns False: failures raise |
| Processor.ProcessSucceedsIff | processor.py:260-336 | without a callback, True iff the input can be probed, its frames extracted, every pass succeeds, the encoder exits with 0 and the output can be probed |
| Processor.ProcessTrueMeans | processor.py:328-336 | True means the callback accepted every report, the last being ("Complete!", 1.0) |
| Processor.ProcessRifeFailure | processor.py:294-304 | a failing pass makes `process_video` raise RuntimeError("RIFE interpolation failed") |
| ContinuationProcessor.RunFfmpeg | continuation_processor.py:63 | a run adds its output file iff the process started and wrote that file; directories are unchanged |
| ContinuationProcessor.ExtractLastFrame | continuation_processor.py:32-64 | the outcome is LastFrameOutcome; a returned True means ffmpeg exited with 0 and the frame's path exists afterwards; at most the frame file is added |
| ContinuationProcessor.ConcatenateVideos | continuation_processor.py:67-113 | without ffmpeg it raises and writes nothing; otherwise it writes the two-line list, which is gone again on every exit; at most the output is added, and the result is the exit test |
| ContinuationProcessor.ConcatListingLines | continuation_processor.py:92-94 | the list has exactly two lines, naming the resolved original and then the continuation |
| ContinuationProcessor.TwoLines | continuation_processor.py:92-94 | two newline-ended lines split back into the two |
| ContinuationProcessor.ReencodeVideo | continuation_processor.py:116-159 | without ffmpeg it raises; otherwise it builds ReencodeCommand and answers the exit test |
| ContinuationProcessor.ReencodeCommandShape | continuation_processor.py:139-156 | the fixed prefix, then "-r" iff a rate is given and non-zero, then "-vf" iff a size is given, and the output last |
| ContinuationProcessor.ScaleArgSizes | continuation_processor.py:153-154 | "scale=w:h" names the width and then the height, read back as the numbers |
| ContinuationProcessor.ConfigIgnoresDuration | continuation_processor.py:229-237 | the request always asks for 49 frames, whatever the duration option; the rest comes from the options |
| ContinuationProcessor.ApiProgressClimbs | continuation_processor.py:241-245 | `0.10 + 0.70 p` takes a non-decreasing run in [lo, hi] to one in the mapped band; [0, 1] goes to [0.10, 0.80] |
| ContinuationProcessor.JobFiles | continuation_processor.py:193-278 | the job's files lie in its scratch directory |
| ContinuationProcessor.Analyze | continuation_processor.py:200-213 | report 0.0, probe, report 0.05, take the last frame (failure raises) |
| ContinuationProcessor.Generate | continuation_processor.py:215-255 | report 0.10, generate through a client with a 300 s timeout, forwarding its reports mapped into [0.10, 0.80]; an unsuccessful result raises RuntimeError |
| ContinuationProcessor.WriteOutput | continuation_processor.py:272-288 | re-encode the original and join, or copy the clip; a failing step raises |
| ContinuationProcessor.Deliver | continuation_processor.py:272-295 | report 0.90, write the output, report "Complete!" 1.0, probe the output |
| ContinuationProcessor.Finish | continuation_processor.py:259-295 | report 0.80, fit the clip to the input's rate and size, deliver |
| ContinuationProcessor.Proceed | continuation_processor.py:215-302 | generation, fitting and output in order |
| ContinuationProcessor.RunContinuation | continuation_processor.py:197-302 | the stages in order, the first raise ending the run |
| ContinuationProcessor.ContinueVideo | continuation_processor.py:162-307 | `continue_video`: the job's scratch directory is gone on every exit; only the output may be created; the outcome is ContinueOutcome |
| ContinuationProcessor.AnalyzeLimits | continuation_processor.py:200-213 | analysis that returns under a limited callback returns what it would without one |
| ContinuationProcessor.GenerateLimits | continuation_processor.py:215-255 | the same for generation |
| ContinuationProcessor.AnalyzeClimbs | continuation_processor.py:201-209 | analysis reports climb within [0, 0.05] |
| ContinuationProcessor.GenerateClimbs | continuation_processor.py:216-252 | generation reports climb within [0.10, 0.80] |
| ContinuationProcessor.DeliverClimbs | continuation_processor.py:273-291 | output reports climb within [0.90, 1.0] |
| ContinuationProcessor.FinishClimbs | continuation_processor.py:260-291 | fitting and output reports climb within [0.80, 1.0] |
| ContinuationProcessor.ProceedClimbs | continuation_processor.py:216-291 | everything after analysis climbs within [0.10, 1.0] |
| ContinuationProcessor.ContinueReportsClimb | continuation_processor.py:201-291 | the whole progress stream never decreases and stays in [0, 1] |
| ContinuationProcessor.ContinueNeverFalse | continuation_processor.py:212-302 | `continue_video` never returns False: failures raise |
| ContinuationProcessor.ContinueTrueMeans | continuation_processor.py:197-302 | True means every report was delivered, the last being ("Complete!", 1.0), and every step succeeded |
| ContinuationProcessor.FinishTrueMeans | continuation_processor.py:259-302 | the same for fitting and output |
| ContinuationProcessor.ClientCompletionForwarded | continuation_processor.py:241-252 | the client's ("Complete!", 1.0) reaches the caller as ("Complete!", 0.80) |
| ContinuationProcessor.ContinueGenerationFailure | continuation_processor.py:254-255 | an unsuccessful generation raises RuntimeError("Continuation generation failed: <message>") |
| ContinuationProcessor.MissingKeyMessage | runpod_client.py:82-124 | with no API key the client's result is "RunPod API key is not set" |
| ContinuationProcessor.MissingKeyFailure | continuation_processor.py:247-255 | with no API key `continue_video` raises "Continuation generation failed: RunPod API key is not set" |
| Config.EnsureDirectories | config.py:34-39 | the scratch directory and the three binary directories exist afterwards; nothing else changes |
| Config.CheckDependencies | config.py:41-54 | one message per missing binary, in the order RIFE, FFmpeg, FFprobe; empty iff all are present |
| Config.TempDirApart | config.py:8-21 | the scratch directory lies in the application directory, apart from the binary directory |
| Cli.Repeat | main.py:22 | `c * n` has max(n, 0) copies of `c` |
| Cli.PrintProgressShape | main.py:18-25 | for p in [0, 1] the bar is 40 columns: int(40 p) '=' then '-'; the line is closed iff p reaches 1.0 |
| Cli.BarGrows | main.py:20-22 | a column filled at p stays filled at any later q |
| Cli.BarOutOfRange | main.py:20-22 | above 1 the bar is all '=' and at least 40 columns; below 0 it is all '-' |
| Cli.ParseArgsMultiplier | main.py:117-123 | a parsed multiplier is one of 2, 4, 8, 16, defaulting to 4; another integer is a usage error |
| Cli.ChoicesArePowersOfTwo | main.py:120 | every accepted multiplier is 2^n with 1 <= n <= 4, so the scheduler never warns |
| Cli.Lower | main.py:49 | `lower()` keeps the length and lowers each character |
| Cli.PreviewOf | main.py:67-73 | the preview shows the multiplier, `m` times the duration and `m` times the frames, never less than the input's |
| Cli.RunCli | main.py:28-108 | `run_cli`: the exit status is CliExit; a preview is shown iff the video is processed, and then the callback receives `process_video`'s reports; otherwise nothing is reported, no file is written, and only the application's directories are made |
| Cli.RunMain | main.py:111-162 | a usage error exits with 2; the graphical interface starts iff there is no input or neither `--cli` nor `--info` is given; otherwise `run_cli` |
| Cli.CliSucceedsIff | main.py:28-108 | with a callback that never raises the status is 0 or 1, and 0 iff the checks pass, the input can be probed, and either `--info` was given or every stage of `process_video` succeeds |
| Cli.RejectedInputs | main.py:34-52 | a missing binary, a missing input or an unsupported suffix exits with 1; ".MP4" is accepted |
| Cli.InfoOnly | main.py:55-77 | with `--info`, a probe that works exits with 0 and one that fails with 1, with no processing |
| Cli.CliSuccessEndsWithFullBar | main.py:18-98 | a processed run that exits with 0 ends with "Complete!" on a full 40-column bar and a line break |
| Cli.DefaultOutputShape | main.py:80-81 | the default output sits next to the input, is named `<stem>_slomo<m>x.mp4`, and has a supported suffix |
| Common.StripSpec | rife_wrapper.py:81 | `strip` removes exactly the surrounding whitespace; the result is empty iff the line is all whitespace |
| Common.FindChar | processor.py:69 | the leftmost index of a character, or -1 |
| Common.RFindChar | main.py:49 | the rightmost index of a character, or -1 |
| Common.ParseIntOfIntToString | rife_wrapper.py:86-87 | int(str(i)) == i |
| Common.DigitsValueOfNatToString | rife_wrapper.py:86-87 | printed digits read back as the number |
| Common.ParseFloatOfNatToString | processor.py:70 | float(str(n)) == n |
| Common.Trunc | processor.py:83 | `int()` of a float truncates toward zero |
| Common.PyFloat | processor.py:70-78 | `float()` of a JSON value: ints convert, strings parse, None, lists and dicts raise TypeError |
| Common.PyInt | processor.py:81-87 | `int()` of a JSON value, likewise |
| Common.StemAndSuffix | processor.py:256 | a name is its stem followed by its suffix |
| Common.NotOwnAncestor | continuation_processor.py:50 | making a path's parent directories never makes the path itself |
| Common.FileSystem.MakeDirs | rife_wrapper.py:51 | `mkdir(parents=True)` adds the path and its ancestors |
| Common.FileSystem.RemoveTree | processor.py:340-343 | `rmtree` removes the path and everything under it |
| Common.Sink.Emit | processor.py:262-263 | a callback invocation is recorded unless the callback raises |
| Common.Admit | processor.py:262-263 | what a callback accepts is a prefix of its reports, all of them when they fit the limit |
| Common.AdmitAppend | processor.py:262-275 | accepting two runs of reports one after the other |
| Common.ClimbsAppend | continuation_processor.py:201-291 | two climbs in ordered bands make one climb |
| RifeWrapper.MultiPassClosedForm | rife_wrapper.py:132-167 | what the loop delivered and returned equals the closed form over the passes launched up to the first failure |
| Common.NatToStringInjective | rife_wrapper.py:139 | different numbers print differently, so scratch directory names never collide |
| Processor.OnlyCodecType | processor.py:68-92 | a stream with only its codec type has none of the keys read |
| Processor.RaiseStopsFrames | processor.py:148-149 | once the callback raises on a frame, no later frame reaches it |
| ContinuationProcessor.NoNewlineInEntry | continuation_processor.py:93-94 | a list entry holds no line break when its path holds none |
| ContinuationProcessor.NoColonInInt | continuation_processor.py:153-154 | a printed int holds no ':', so the scale argument splits in two |
| ContinuationProcessor.MissingKeyText | continuation_processor.py:255 | the failure message is the prefix followed by the client's message |
| Common.FileSystem.constructor | rife_wrapper.py:51 | a filesystem holding the given directories and files |
| Common.FileSystem.WriteFile | continuation_processor.py:91-94 | `open(p, "w")` adds the file and nothing else |
| Common.FileSystem.Unlink | continuation_processor.py:112-113 | `unlink` removes the file and nothing else |
| Common.Sink.constructor | processor.py:262-263 | a callback that has seen nothing yet |
| RunPodClient.Report | runpod_client.py:127-128 | `if progress_callback: progress_callback(...)` invokes the callback once iff there is one |
| Cli.NameWithMp4 | main.py:81 | a non-empty stem followed by ".mp4" has that stem and suffix ".mp4" |
| Common.TrimLeftSpec | rife_wrapper.py:81 | the leading whitespace, and only it, is removed |
| Common.TrimRightSpec | rife_wrapper.py:81 | the trailing whitespace, and only it, is removed |

## Left out

- RifeWrapper.FindFraction: `\d` and `int()` accept only the ASCII digits 0-9. Python's `\d` and `int()` also accept every Unicode decimal digit, so a line written in another script's digits reports nothing here.
- RifeWrapper.MatchAt: the same ASCII-only `\d`.
- Common.ParseFloat: accepts only `[+-]digits[.digits]` with surrounding ASCII whitespace. Python's `float()` also parses exponents ("1e3"), "inf", "nan", underscores ("1_000") and Unicode digits. On those, the model raises where the source reads a number.
- Common.ParseInt: accepts an optional sign and ASCII digits only. Python's `int()` also accepts underscores and Unicode digits.
- Common.IsSpace: whitespace is ASCII plus the C0 separators. `Common.Strip`, and the token split in `Processor.FirstToken`, therefore ignore Unicode whitespace, which Python strips.
- Processor.GetVideoInfo: `fps` and `duration` go through `Common.ParseFloat`, so an exponent, infinity, NaN or an underscore in the probe's strings raises in the model where the source returns a value. `nb_frames`, `width` and `height` go through `Common.ParseInt`, with the same limits.
- Processor.FrameReport: the frame number goes through `Common.ParseInt`, so "frame=1_000" or Unicode digits are skipped here but reported by the source.
- RunPodClient.PollJobStatus: `job.status()` and `job.output()` are total oracles. In the source an exception from them (runpod_client.py:215-220) is not caught by the JobTimeoutError and JobFailedError handlers. The model has no such path.
- RunPodClient.RunPodCogVideoClient.GenerateContinuation: for the same reason, an exception from `job.status()` or `job.output()` escaping `generate_continuation` is not modelled. The call here always returns a result or the callback's exception.
- ContinuationProcessor.ContinueVideo: likewise, the same escaping exception is not among its outcomes.
- RunPodClient.Estimate: progress and frame rates are exact `real`s, not IEEE doubles, so rounding in `0.15 + elapsed / 120 * 0.70` and in the stage bands is not modelled.
- RifeWrapper.FloorLog2: an exact integer floor of log2 stands for `int(math.log2(m))`. They agree on every multiplier the command line accepts (2, 4, 8, 16) and on small multipliers. Just below a large power of two they differ: for m = 2^49 - 1, `math.log2` rounds up to 49.0, so the source runs 49 passes where the model runs 48.
- RunPodClient.RunPodCogVideoClient.ValidateCredentials: setting the global `runpod.api_key` (runpod_client.py:88) is not modelled; the endpoint is a flag.
- `generation_time` (runpod_client.py:116, 188, 196) is wall-clock time, and `time.sleep` is not modelled. Polls are counted by elapsed seconds.
- The `print` output is not modelled: the "Pass i/n" and "Warning" lines, the metadata, previews and error messages, and `%.1f`/`%.2f` formatting. `Cli.PrintProgress` keeps the percentage as a number, not as text.
- Cli.RunCli: the output path is computed but not printed, and the `args.output` mutation (main.py:81) is a local value.
- Subprocess spawning, `json.loads`, base64 and the HTTP download are oracles in `Processor.Machine`, `ContinuationProcessor.Host` and `RunPodClient.Remote`. So are `Path.resolve()`, whether ffmpeg writes its output file, `shutil.copy`, the PNG counts of `glob` and Python's `str()` of a float.
- The slow-motion pipeline's progress is not monotone. The source promises only values in 0.0-1.0 (processor.py:246). A progress bar is nonetheless expected not to go backwards, but `rife_progress` (processor.py:289-291) falls from 0.75 to 0.60 between passes 1 and 2 for m = 4. The model follows the code: `Processor.RifeProgressFallsBetweenPasses` exhibits the fall, and only band bounds are proved.
- RifeWrapper.InterpolateMultiPass: when the RIFE binary is missing, the first pass's `temp_pass_0` is created before `run_rife` raises, and nothing removes it: the scheduler has no `finally`. The model keeps this: the raising case leaves `Ancestors(TempPassDir(outputDir, 0))` behind. Here `temp_pass_0` is `TEMP_DIR/temp_pass_0` (processor.py:257-258). The `finally` of `process_video` (processor.py:338-343) removes only the job's `_input` and `_output` directories, so `temp_pass_0` stays in `TEMP_DIR` afterwards. Nothing in the program removes it.
- ContinuationProcessor.ConcatListing: a resolved path containing `'` is written into the concat list unescaped (continuation_processor.py:93-94). ffmpeg's concat demuxer then misreads the line. The model writes the same text, and `ContinuationProcessor.ConcatListingLines` assumes only that the paths hold no newline.
- Common.FileSystem.MakeDirs: the filesystem is two sets of paths. It need not be a closed tree, and a file and a directory may share a path. Files the RunPod client writes, through `RunPodClient.Remote.store`, are not added to it.
- The graphical interface (gui.py), its threads and its file dialogs are not part of this model. Its cancel button appears only as a `Common.Sink` whose callback raises.
- KeyboardInterrupt (Ctrl-C) is not modelled, whether it comes inside a progress callback or outside one. It is a BaseException, so `except Exception` in `run_rife` (rife_wrapper.py:93) does not catch it. It would escape `interpolate_multi_pass`, which has no `finally`, and leave every `temp_pass_i` made so far in `TEMP_DIR`. `run_cli` then catches it (main.py:103) and exits with 1. A callback that raises in the model stands only for the interface's cancel, an InterruptedError, which `run_rife` turns into False.
- Cli.ParseArgs: argparse's option abbreviations, `--help`, repeated options and its messages are not modelled. Only the positional count, the int conversions and the multiplier choices are.
- Cli.Lower: lower-cases ASCII letters only, where `str.lower()` also maps other letters. All supported suffixes are ASCII.
- The frame numbers ffmpeg and RIFE print are not checked against their totals. The band lemmas assume `0 <= current <= total`, and beyond that the source's figures leave the bands too.

=== FILE: cli.dfy ===
/** The command line of the application: the console progress bar, the argument
    parser, the checks `run_cli` makes before it processes anything, and the
    choice between the command line and the graphical interface. */
module Cli {
  import opened Common
  import Config
  import Processor
  import RifeWrapper

  // ================================================================ print_progress

  /** Python's `c * n` for a one-character string: empty when `n` is not positive. */
  function Repeat(c: char, n: int): (s: string)
    ensures |s| == (if n > 0 then n else 0)
    ensures forall i :: 0 <= i < |s| ==> s[i] == c
    decreases n
  {
    if n <= 0 then [] else [c] + Repeat(c, n - 1)
  }

  const BarWidth: int := 40

  /** How many columns of the bar are filled at progress `p`: `int(40 * p)`. */
  function Filled(p: real): int {
    Trunc(BarWidth as real * p)
  }

  /** The bar `print_progress` draws: the filled columns as '=', the rest as '-'. */
  function Bar(p: real): string {
    Repeat('=', Filled(p)) + Repeat('-', BarWidth - Filled(p))
  }

  /** What `print_progress` writes for one report: the bar, the percentage, the
      stage, and whether a line break follows. */
  datatype ConsoleLine = ConsoleLine(bar: string, percent: real, stage: string, newline: bool)

  function PrintProgress(stage: string, p: real): ConsoleLine {
    ConsoleLine(Bar(p), p * 100.0, stage, p >= 1.0)
  }

  /** For progress in [0, 1] the bar is exactly 40 columns: `Filled(p)` '=' signs
      and then '-' signs; the line is closed exactly at 1.0. */
  lemma PrintProgressShape(stage: string, p: real)
    requires 0.0 <= p <= 1.0
    ensures var line := PrintProgress(stage, p);
      && 0 <= Filled(p) <= BarWidth
      && |line.bar| == BarWidth
      && (forall i :: 0 <= i < Filled(p) ==> line.bar[i] == '=')
      && (forall i :: Filled(p) <= i < BarWidth ==> line.bar[i] == '-')
      && (line.newline <==> p == 1.0)
      && line.stage == stage
  {
    var f := Filled(p);
    assert 0 <= f <= BarWidth;
    var a, b := Repeat('=', f), Repeat('-', BarWidth - f);
    assert Bar(p) == a + b;
    forall i | f <= i < BarWidth
      ensures Bar(p)[i] == '-'
    {
      assert Bar(p)[i] == b[i - f];
    }
  }

  /** The bar only grows: every column filled at `p` is filled at any later `q`. */
  lemma BarGrows(p: real, q: real, i: int)
    requires 0.0 <= p <= q <= 1.0
    requires 0 <= i < BarWidth && Bar(p)[i] == '='
    ensures Bar(q)[i] == '='
  {
    PrintProgressShape("", p);
    PrintProgressShape("", q);
    assert Filled(p) <= Filled(q);
  }

  /** Progress outside [0, 1] is drawn as Python draws it: above 1 the bar is all
      '=' and longer than 40 columns once 40 p reaches 41; below 0 it is all '-'. */
  lemma BarOutOfRange(p: real)
    ensures p > 1.0 ==> |Bar(p)| == Filled(p) >= BarWidth
                        && forall i :: 0 <= i < |Bar(p)| ==> Bar(p)[i] == '='
    ensures p < 0.0 ==> |Bar(p)| == BarWidth - Filled(p) >= BarWidth
                        && forall i :: 0 <= i < |Bar(p)| ==> Bar(p)[i] == '-'
  {
    assert Bar(p) == Repeat('=', Filled(p)) + Repeat('-', BarWidth - Filled(p));
  }

  // ================================================================ arguments

  /** The parsed command line. */
  datatype Args = Args(
    input: Option<Path>,
    output: Option<Path>,
    multiplier: int,
    model: string,
    gpu: int,
    info: bool,
    cli: bool)

  /** The command line as typed: the positional paths, and each option's text when
      it was given. */
  datatype RawArgs = RawArgs(
    positional: seq<Path>,
    multiplier: Option<string>,
    model: Option<string>,
    gpu: Option<string>,
    info: bool,
    cli: bool)

  const MultiplierChoices: seq<int> := [2, 4, 8, 16]

  /** What argparse makes of the command line; a usage error ends the program with
      exit status 2. */
  datatype Parsed = Parsed(args: Args) | UsageError

  /** An `int` option: its default when absent, int() of its text otherwise. */
  function IntOption(text: Option<string>, default: int): Option<int> {
    if text.None? then Some(default) else ParseInt(text.value)
  }

  /** `parse_args`: at most two positional paths (input, then output), `-m` an
      integer among 2, 4, 8 and 16 (default 4), `--model` (default "rife-v4.6"),
      `--gpu` an integer (default 0), and the two flags. */
  function ParseArgs(raw: RawArgs): Parsed {
    var m := IntOption(raw.multiplier, 4);
    var g := IntOption(raw.gpu, 0);
    if |raw.positional| > 2 || m.None? || m.value !in MultiplierChoices || g.None? then UsageError
    else
      Parsed(Args(
        if |raw.positional| > 0 then Some(raw.positional[0]) else None,
        if |raw.positional| > 1 then Some(raw.positional[1]) else None,
        m.value,
        if raw.model.Some? then raw.model.value else "rife-v4.6",
        g.value,
        raw.info,
        raw.cli))
  }

  /** A parsed multiplier is always one of the choices, 4 when none was given, and
      the given one when it is a choice; an integer outside the choices is a usage
      error. */
  lemma ParseArgsMultiplier(raw: RawArgs)
    ensures ParseArgs(raw).Parsed? ==> ParseArgs(raw).args.multiplier in MultiplierChoices
    ensures ParseArgs(raw).Parsed? && raw.multiplier.None? ==> ParseArgs(raw).args.multiplier == 4
    ensures ParseArgs(raw).Parsed? && raw.multiplier.Some? ==>
      ParseInt(raw.multiplier.value) == Some(ParseArgs(raw).args.multiplier)
    ensures raw.multiplier.Some? && ParseInt(raw.multiplier.value).Some?
            && ParseInt(raw.multiplier.value).value !in MultiplierChoices
            ==> ParseArgs(raw) == UsageError
    ensures |raw.positional| <= 2 && raw.multiplier.None? && raw.gpu.None? ==>
      ParseArgs(raw) == Parsed(Args(
        if |raw.positional| > 0 then Some(raw.positional[0]) else None,
        if |raw.positional| > 1 then Some(raw.positional[1]) else None,
        4, if raw.model.Some? then raw.model.value else "rife-v4.6", 0, raw.info, raw.cli))
  {
  }

  /** Every multiplier the command line accepts is a power of two, 2^1 to 2^4, so
      `interpolate_multi_pass` runs FloorLog2(m) passes and never warns. */
  lemma ChoicesArePowersOfTwo(m: int)
    requires m in MultiplierChoices
    ensures m >= 1 && RifeWrapper.Pow2(RifeWrapper.FloorLog2(m)) == m
    ensures 1 <= RifeWrapper.FloorLog2(m) <= 4
  {
    var k := if m == 2 then 1 else if m == 4 then 2 else if m == 8 then 3 else 4;
    assert RifeWrapper.Pow2(1) == 2;
    assert RifeWrapper.Pow2(2) == 4;
    assert RifeWrapper.Pow2(3) == 8;
    assert RifeWrapper.Pow2(4) == 16;
    assert RifeWrapper.Pow2(k) == m;
    RifeWrapper.FloorLog2OfPow2(k);
  }

  // ================================================================ main

  /** Where `main` hands the parsed command line. */
  datatype Launch = Gui | CommandLine

  /** `main`: with no input, or without `--cli` and `--info`, the graphical
      interface starts; otherwise `run_cli`. */
  function Dispatch(args: Args): Launch {
    if args.input.None? then Gui
    else if args.cli || args.info then CommandLine
    else Gui
  }

  // ================================================================ run_cli

  /** ASCII `str.lower()` of one character. */
  function LowerChar(c: char): char {
    if 'A' <= c <= 'Z' then (c as int + 32) as char else c
  }

  function Lower(s: string): (t: string)
    ensures |t| == |s|
    ensures forall i :: 0 <= i < |s| ==> t[i] == LowerChar(s[i])
  {
    seq(|s|, i requires 0 <= i < |s| => LowerChar(s[i]))
  }

  /** The output when none was given: `<stem>_slomo<m>x.mp4` next to the input. */
  function DefaultOutput(input: Path, multiplier: int): Path {
    Join(Parent(input), Stem(input) + "_slomo" + IntToString(multiplier) + "x.mp4")
  }

  function OutputOf(input: Path, args: Args): Path {
    if args.output.Some? then args.output.value else DefaultOutput(input, args.multiplier)
  }

  /** The job `run_cli` hands to `process_video`. */
  function JobOf(app: Path, input: Path, args: Args): Processor.Job {
    Processor.Job(app, input, OutputOf(input, args), args.multiplier, args.model, args.gpu)
  }

  /** The checks before anything is read: every binary is present, the input
      exists (`present` is what `.exists()` answers once the application's
      directories were made), and its lower-cased suffix is a supported format. */
  predicate Admitted(m: Processor.Machine, input: Path, present: bool) {
    && Config.CheckDependencies(m.rife, m.ffmpeg, m.ffprobe) == []
    && present
    && Lower(Suffix(input)) in Config.SupportedFormats
  }

  /** `run_cli` goes on to process the video: the checks pass, the input can be
      probed, and only information was not asked for. */
  predicate Processes(m: Processor.Machine, input: Path, args: Args, present: bool) {
    Admitted(m, input, present) && Processor.GetVideoInfo(m.ffprobe, input, m.probe).Return? && !args.info
  }

  /** The exit status of `run_cli`, the progress callback having accepted `sofar`
      invocations of at most `limit` (a limit stands for a callback that raises
      InterruptedError). `sys.exit(0)` after `--info` is a SystemExit, which
      `except Exception` does not catch. */
  function CliExit(m: Processor.Machine, app: Path, input: Path, args: Args, present: bool,
                   limit: Option<nat>, sofar: nat): int {
    if !Admitted(m, input, present) then 1
    else
      match Processor.GetVideoInfo(m.ffprobe, input, m.probe)
      case Raise(_) => 1
      case Return(_) =>
        if args.info then 0
        else if Processor.ProcessOutcome(m, JobOf(app, input, args), limit, sofar) == Return(true) then 0
        else 1
  }

  /** The "Output Preview" `run_cli` prints before processing. */
  datatype Preview = Preview(multiplier: int, duration: real, frames: int)

  /** The output keeps the input's frame rate, so `m` times the frames last `m`
      times as long. */
  function PreviewOf(info: Processor.VideoInfo, multiplier: int): (p: Preview)
    ensures p.multiplier == multiplier
    ensures info.duration >= 0.0 && multiplier >= 1 ==> p.duration >= info.duration
    ensures info.frameCount >= 0 && multiplier >= 1 ==> p.frames >= info.frameCount
  {
    Preview(multiplier, info.duration * multiplier as real, info.frameCount * multiplier)
  }

  /** `run_cli`: make the application's directories, check the binaries and the
      input, probe it, then (unless only information was asked for) process it with
      `print_progress` as the callback; `preview` is the output preview it prints. */
  method RunCli(fs: FileSystem, m: Processor.Machine, app: Path, args: Args, sink: Sink<Progress>)
    returns (code: int, preview: Option<Preview>)
    requires args.input.Some?
    requires sink.Valid()
    modifies fs, sink
    ensures sink.Valid()
    ensures var input := args.input.value;
      var present := old(fs.Exists(input)) || input in Config.ConfigDirs(app);
      && code == CliExit(m, app, input, args, present, sink.limit, |old(sink.events)|)
      && (preview.Some? <==> Processes(m, input, args, present))
      && (preview.Some? ==>
            preview.value == PreviewOf(Processor.GetVideoInfo(m.ffprobe, input, m.probe).value, args.multiplier))
      && (Processes(m, input, args, present) ==>
            sink.events == old(sink.events)
                           + Admit(sink.limit, |old(sink.events)|, Processor.ProcessReports(m, JobOf(app, input, args))))
      && (!Processes(m, input, args, present) ==>
            sink.events == old(sink.events) && fs.files == old(fs.files)
            && fs.dirs == old(fs.dirs) + Config.ConfigDirs(app))
  {
    var input := args.input.value;
    ghost var present := fs.Exists(input) || input in Config.ConfigDirs(app);
    Config.EnsureDirectories(fs, app);
    preview := None;
    if Config.CheckDependencies(m.rife, m.ffmpeg, m.ffprobe) != [] {
      return 1, preview;
    }
    if !fs.Exists(input) {
      return 1, preview;
    }
    if Lower(Suffix(input)) !in Config.SupportedFormats {
      return 1, preview;
    }
    var info := Processor.GetVideoInfo(m.ffprobe, input, m.probe);
    if info.Raise? {
      return 1, preview;
    }
    if args.info {
      return 0, preview;
    }
    preview := Some(PreviewOf(info.value, args.multiplier));
    var output := if args.output.Some? then args.output.value else DefaultOutput(input, args.multiplier);
    var job := Processor.Job(app, input, output, args.multiplier, args.model, args.gpu);
    assert job == JobOf(app, input, args);
    var r := Processor.ProcessVideo(fs, m, job, true, sink);
    code := if r == Return(true) then 0 else 1;
  }

  /** `main`: parse the command line (a usage error exits with 2), then either
      start the graphical interface (`gui`, exit status 0) or run `run_cli`. */
  method RunMain(fs: FileSystem, m: Processor.Machine, app: Path, raw: RawArgs, sink: Sink<Progress>)
    returns (code: int, gui: bool)
    requires sink.Valid()
    modifies fs, sink
    ensures sink.Valid()
    ensures ParseArgs(raw) == UsageError ==> code == 2 && !gui
    ensures ParseArgs(raw).Parsed? ==> (gui <==> Dispatch(ParseArgs(raw).args) == Gui)
    ensures gui ==> code == 0 && sink.events == old(sink.events) && fs.files == old(fs.files)
    ensures ParseArgs(raw).Parsed? && !gui ==>
      var args := ParseArgs(raw).args;
      code == CliExit(m, app, args.input.value, args,
                      old(fs.Exists(args.input.value)) || args.input.value in Config.ConfigDirs(app),
                      sink.limit, |old(sink.events)|)
  {
    var parsed := ParseArgs(raw);
    if parsed.UsageError? {
      return 2, false;
    }
    if Dispatch(parsed.args) == Gui {
      return 0, true;
    }
    var preview;
    code, preview := RunCli(fs, m, app, parsed.args, sink);
    gui := false;
  }

  // ================================================================ what run_cli promises

  /** Every stage of `process_video` succeeds for `job`: the frames are extracted,
      each interpolation pass succeeds, the encoder exits with 0 and the output
      can be probed. */
  predicate StagesSucceed(m: Processor.Machine, job: Processor.Job)
    requires Processor.GetVideoInfo(m.ffprobe, job.input, m.probe).Return?
  {
    && Processor.ExtractSucceeds(m, job.input, Processor.InputFrames(job))
    && job.multiplier >= 1 && (m.rife.present || RifeWrapper.FloorLog2(job.multiplier) == 0)
    && (forall i :: 0 <= i < RifeWrapper.FloorLog2(job.multiplier) ==> RifeWrapper.PassSucceeded(m.rifeRuns(i)))
    && Processor.EncodeSucceeds(m, Processor.OutputFrames(job), job.output,
                                Processor.GetVideoInfo(m.ffprobe, job.input, m.probe).value.fps)
    && Processor.GetVideoInfo(m.ffprobe, job.output, m.probe).Return?
  }

  /** Without an interruption, `run_cli` exits with 0 exactly when the checks pass,
      the input can be probed, and either only information was asked for or every
      stage of `process_video` succeeds; every other way out is status 1. */
  lemma CliSucceedsIff(m: Processor.Machine, app: Path, input: Path, args: Args, present: bool)
    ensures CliExit(m, app, input, args, present, None, 0) in {0, 1}
    ensures CliExit(m, app, input, args, present, None, 0) == 0 <==>
      && Admitted(m, input, present)
      && Processor.GetVideoInfo(m.ffprobe, input, m.probe).Return?
      && (args.info || StagesSucceed(m, JobOf(app, input, args)))
  {
    Processor.ProcessSucceedsIff(m, JobOf(app, input, args));
  }

  /** A missing binary, a missing input or an unsupported suffix ends `run_cli`
      with status 1 whatever the video holds; an upper-case suffix such as ".MP4"
      is accepted. */
  lemma RejectedInputs(m: Processor.Machine, app: Path, input: Path, args: Args, present: bool,
                       limit: Option<nat>, sofar: nat)
    ensures !m.rife.present || !m.ffmpeg.present || !m.ffprobe.present ==>
      CliExit(m, app, input, args, present, limit, sofar) == 1
    ensures !present ==> CliExit(m, app, input, args, present, limit, sofar) == 1
    ensures Lower(Suffix(input)) !in Config.SupportedFormats ==> CliExit(m, app, input, args, present, limit, sofar) == 1
    ensures Lower(".MP4") in Config.SupportedFormats
  {
    assert Lower(".MP4") == ".mp4";
  }

  /** With `--info` and an input that passes the checks and can be probed, `run_cli`
      exits with 0 and no processing takes place. */
  lemma InfoOnly(m: Processor.Machine, app: Path, input: Path, args: Args, present: bool,
                 limit: Option<nat>, sofar: nat)
    requires args.info && Admitted(m, input, present)
    ensures Processor.GetVideoInfo(m.ffprobe, input, m.probe).Return? ==> CliExit(m, app, input, args, present, limit, sofar) == 0
    ensures Processor.GetVideoInfo(m.ffprobe, input, m.probe).Raise? ==> CliExit(m, app, input, args, present, limit, sofar) == 1
    ensures !Processes(m, input, args, present)
  {
  }

  /** A run that exits with 0 after processing printed every report, the last one
      being "Complete!" with a full 40-column bar and a line break. */
  lemma CliSuccessEndsWithFullBar(m: Processor.Machine, app: Path, input: Path, args: Args, present: bool,
                                  limit: Option<nat>, sofar: nat)
    requires Processes(m, input, args, present)
    requires CliExit(m, app, input, args, present, limit, sofar) == 0
    ensures var reports := Processor.ProcessReports(m, JobOf(app, input, args));
      && Fits(limit, sofar, |reports|)
      && |reports| > 0
      && var line := PrintProgress(reports[|reports| - 1].stage, reports[|reports| - 1].value);
         line.stage == "Complete!" && line.newline && line.bar == Repeat('=', BarWidth)
  {
    var job := JobOf(app, input, args);
    Processor.ProcessTrueMeans(m, job, limit, sofar);
    PrintProgressShape("Complete!", 1.0);
    var bar := Bar(1.0);
    assert Filled(1.0) == BarWidth;
    assert bar == Repeat('=', BarWidth) + Repeat('-', 0);
  }

  /** The default output sits next to the input, is named after its stem and the
      multiplier, and ends in ".mp4", a supported format, so it is itself a valid
      input. */
  lemma DefaultOutputShape(input: Path, multiplier: int)
    ensures var out := DefaultOutput(input, multiplier);
      && Parent(out) == Parent(input)
      && Stem(out) == Stem(input) + "_slomo" + IntToString(multiplier) + "x"
      && Suffix(out) == ".mp4"
      && Lower(Suffix(out)) in Config.SupportedFormats
  {
    var a := Stem(input) + "_slomo" + IntToString(multiplier) + "x";
    assert Stem(input) + "_slomo" + IntToString(multiplier) + "x.mp4" == a + ".mp4";
    ParentOfJoin(Parent(input), a + ".mp4");
    NameWithMp4(a);
    assert Lower(".mp4") == ".mp4";
  }

  /** A name made of a non-empty `a` and ".mp4" has stem `a` and suffix ".mp4". */
  lemma NameWithMp4(a: string)
    requires |a| > 0
    ensures var n := a + ".mp4"; RFindChar(n, '.') == |a| && n[|a|..] == ".mp4" && n[..|a|] == a
  {
    var n := a + ".mp4";
    assert n[|a|] == '.' && n[|a| + 1] == 'm' && n[|a| + 2] == 'p' && n[|a| + 3] == '4';
  }
}

=== FILE: common.dfy ===
/** Vocabulary shared by the pipeline modules: Python's exceptions and a few of its
    string and number conversions, the JSON values that external tools return,
    filesystem paths, a directory tree, and progress callbacks. */
module Common {

  datatype Option<T> = None | Some(value: T)

  /** The Python exceptions that cross the modelled functions. */
  datatype Exc =
    | FileNotFound(tool: string)    // FileNotFoundError for a missing binary ("FFmpeg", "FFprobe", ...)
    | ValueError(msg: string)
    | BadNumber(text: string)       // the ValueError int() or float() raises on `text`
    | TypeError
    | AttributeError                // a method looked up on a value that lacks it (`.get` on a list)
    | JsonDecode                    // json.JSONDecodeError: a tool printed something that is not JSON
    | RuntimeError(msg: string)
    | OSError                       // a subprocess could not be started, or a copy failed
    | Interrupted                   // InterruptedError raised by a progress callback (user cancel)
    | JobTimeout                    // JobTimeoutError: the remote job did not finish in time
    | JobFailed(msg: string)        // JobFailedError: the remote job failed or was cancelled

  /** What a Python call does: return a value or raise. */
  datatype Outcome<T> = Return(value: T) | Raise(exc: Exc)

  /** An external step that completes, or raises an exception whose str() is `text`. */
  datatype Effect = Done | Fails(text: string)

  /** One run of an external program: it could not be started, or it ran, printed
      `lines` (stdout and stderr merged) and exited with `exitCode`. */
  datatype ProcessRun = SpawnFailed | Ran(lines: seq<string>, exitCode: int)

  /** An external binary at `path`, and whether that file exists. */
  datatype Tool = Tool(path: Path, present: bool)

  // ---------------------------------------------------------------- strings

  predicate StartsWith(s: string, prefix: string) {
    |prefix| <= |s| && s[..|prefix|] == prefix
  }

  /** Python's str.isspace on ASCII and the C0 separators (space, \t \n \v \f \r, 0x1c-0x1f). */
  predicate IsSpace(c: char) {
    c == ' ' || (9 <= c as int <= 13) || (28 <= c as int <= 31)
  }

  /** The string without its leading whitespace. */
  function TrimLeft(s: string): string {
    if |s| > 0 && IsSpace(s[0]) then TrimLeft(s[1..]) else s
  }

  /** The string without its trailing whitespace. */
  function TrimRight(s: string): string {
    if |s| > 0 && IsSpace(s[|s| - 1]) then TrimRight(s[..|s| - 1]) else s
  }

  /** Python's str.strip(): the string without leading and trailing whitespace. */
  function Strip(s: string): string {
    TrimRight(TrimLeft(s))
  }

  lemma {:induction false} TrimLeftSpec(s: string)
    ensures var r := TrimLeft(s);
      && |r| <= |s| && r == s[|s| - |r|..]
      && (|r| > 0 ==> !IsSpace(r[0]))
      && forall i :: 0 <= i < |s| - |r| ==> IsSpace(s[i])
  {
    if |s| > 0 && IsSpace(s[0]) {
      TrimLeftSpec(s[1..]);
    }
  }

  lemma {:induction false} TrimRightSpec(s: string)
    ensures var r := TrimRight(s);
      && |r| <= |s| && r == s[..|r|]
      && (|r| > 0 ==> !IsSpace(r[|r| - 1]))
      && forall i :: |r| <= i < |s| ==> IsSpace(s[i])
  {
    if |s| > 0 && IsSpace(s[|s| - 1]) {
      TrimRightSpec(s[..|s| - 1]);
    }
  }

  /** The stripped string is no longer than `s`, neither starts nor ends with
      whitespace, and is empty exactly when `s` is all whitespace. */
  lemma StripSpec(s: string)
    ensures var r := Strip(s);
      && |r| <= |s|
      && (|r| > 0 ==> !IsSpace(r[0]) && !IsSpace(r[|r| - 1]))
      && (r == "" <==> forall i :: 0 <= i < |s| ==> IsSpace(s[i]))
  {
    var t := TrimLeft(s);
    var r := TrimRight(t);
    TrimLeftSpec(s);
    TrimRightSpec(t);
    var k := |s| - |t|;
    if |r| > 0 {
      assert r[0] == t[0];
    }
    if r == "" {
      assert |t| == 0;
    }
  }

  /** Stripping changes nothing when the ends are not whitespace. */
  lemma StripNoSpace(s: string)
    requires |s| > 0 && !IsSpace(s[0]) && !IsSpace(s[|s| - 1])
    ensures Strip(s) == s
  {
  }

  /** str.find for one character: the leftmost index of `c`, or -1. */
  function FindChar(s: string, c: char): (r: int)
    ensures -1 <= r < |s|
    ensures r >= 0 ==> s[r] == c && forall k :: 0 <= k < r ==> s[k] != c
    ensures r == -1 ==> forall k :: 0 <= k < |s| ==> s[k] != c
  {
    if |s| == 0 then -1
    else if s[0] == c then 0
    else var r := FindChar(s[1..], c); if r == -1 then -1 else r + 1
  }

  /** str.rfind for one character: the rightmost index of `c`, or -1. */
  function RFindChar(s: string, c: char): (r: int)
    ensures -1 <= r < |s|
    ensures r >= 0 ==> s[r] == c && forall k :: r < k < |s| ==> s[k] != c
    ensures r == -1 ==> forall k :: 0 <= k < |s| ==> s[k] != c
  {
    if |s| == 0 then -1
    else if s[|s| - 1] == c then |s| - 1
    else RFindChar(s[..|s| - 1], c)
  }

  // ---------------------------------------------------------------- numbers

  predicate IsDigit(c: char) { '0' <= c <= '9' }

  predicate AllDigits(s: string) { forall i :: 0 <= i < |s| ==> IsDigit(s[i]) }

  /** The value of a string of decimal digits ("" is 0). */
  function DigitsValue(s: string): nat
    requires AllDigits(s)
  {
    if |s| == 0 then 0 else 10 * DigitsValue(s[..|s| - 1]) + (s[|s| - 1] as int - '0' as int)
  }

  function DigitChar(d: nat): (c: char)
    requires d < 10
    ensures IsDigit(c) && c as int - '0' as int == d
  {
    ('0' as int + d) as char
  }

  /** Python's str() of a non-negative int. */
  function NatToString(n: nat): (s: string)
    ensures |s| > 0 && AllDigits(s)
  {
    if n < 10 then [DigitChar(n)] else NatToString(n / 10) + [DigitChar(n % 10)]
  }

  /** Python's str() of an int. */
  function IntToString(i: int): (s: string)
    ensures |s| > 0 && !IsSpace(s[0]) && !IsSpace(s[|s| - 1])
    ensures forall k :: 0 <= k < |s| ==> s[k] != 'x' && s[k] != '/' && !IsSpace(s[k])
  {
    if i < 0 then "-" + NatToString(-i) else NatToString(i)
  }

  /** Reading back a printed number gives the number. */
  lemma {:induction false} DigitsValueOfNatToString(n: nat)
    ensures DigitsValue(NatToString(n)) == n
  {
    if n >= 10 {
      var s := NatToString(n);
      assert s[..|s| - 1] == NatToString(n / 10);
      DigitsValueOfNatToString(n / 10);
    }
  }

  /** Different numbers print differently. */
  lemma NatToStringInjective(m: nat, n: nat)
    requires m != n
    ensures NatToString(m) != NatToString(n)
  {
    DigitsValueOfNatToString(m);
    DigitsValueOfNatToString(n);
  }

  /** Python's int() on a string: optional surrounding whitespace, an optional sign,
      then decimal digits. */
  function ParseInt(s: string): Option<int>
  {
    var t := Strip(s);
    if |t| > 1 && (t[0] == '+' || t[0] == '-') && AllDigits(t[1..]) then
      var v: int := DigitsValue(t[1..]);
      Some(if t[0] == '-' then -v else v)
    else if |t| > 0 && AllDigits(t) then Some(DigitsValue(t))
    else None
  }

  /** int(str(i)) == i. */
  lemma ParseIntOfIntToString(i: int)
    ensures ParseInt(IntToString(i)) == Some(i)
  {
    var s := IntToString(i);
    StripNoSpace(s);
    if i < 0 {
      assert s[1..] == NatToString(-i);
      DigitsValueOfNatToString(-i);
    } else {
      DigitsValueOfNatToString(i);
    }
  }

  function Pow10(n: nat): (p: nat)
    ensures p >= 1
  {
    if n == 0 then 1 else 10 * Pow10(n - 1)
  }

  /** Python's float() on a string in plain decimal notation: optional surrounding
      whitespace, an optional sign, digits with at most one '.', at least one digit. */
  function ParseFloat(s: string): Option<real>
  {
    var t := Strip(s);
    var body := if |t| > 0 && (t[0] == '+' || t[0] == '-') then t[1..] else t;
    var dot := FindChar(body, '.');
    var whole := if dot < 0 then body else body[..dot];
    var frac := if dot < 0 then "" else body[dot + 1..];
    if AllDigits(whole) && AllDigits(frac) && |whole| + |frac| > 0 then
      var v := DigitsValue(whole) as real + DigitsValue(frac) as real / Pow10(|frac|) as real;
      Some(if |t| > 0 && t[0] == '-' then -v else v)
    else None
  }

  /** float(str(n)) == n for a natural number. */
  lemma ParseFloatOfNatToString(n: nat)
    ensures ParseFloat(NatToString(n)) == Some(n as real)
  {
    var s := NatToString(n);
    StripNoSpace(s);
    assert FindChar(s, '.') == -1;
    DigitsValueOfNatToString(n);
  }

  /** Python's int() of a float: truncation toward zero. */
  function Trunc(r: real): (i: int)
    ensures r >= 0.0 ==> 0 <= i && i as real <= r < i as real + 1.0
    ensures r < 0.0 ==> i <= 0 && i as real - 1.0 < r <= i as real
  {
    if r >= 0.0 then r.Floor else -((-r).Floor)
  }

  // ---------------------------------------------------------------- JSON

  /** A value produced by json.loads (dicts are looked up by key only). */
  datatype Json =
    | JNone
    | JBool(b: bool)
    | JInt(i: int)
    | JFloat(r: real)
    | JStr(s: string)
    | JList(items: seq<Json>)
    | JDict(fields: map<string, Json>)

  /** dict.get(key, default). */
  function Get(fields: map<string, Json>, key: string, default: Json): Json {
    if key in fields then fields[key] else default
  }

  /** str(x) for a JSON value: strings, ints, booleans and None are printed here,
      `repr` gives the text of the other kinds. */
  function Str(j: Json, repr: Json -> string): (s: string)
    ensures j.JStr? ==> s == j.s
  {
    match j
    case JStr(t) => t
    case JInt(i) => IntToString(i)
    case JBool(b) => if b then "True" else "False"
    case JNone => "None"
    case _ => repr(j)
  }

  /** str(type(x)) for a JSON value. */
  function TypeName(j: Json): string {
    match j
    case JNone => "<class 'NoneType'>"
    case JBool(_) => "<class 'bool'>"
    case JInt(_) => "<class 'int'>"
    case JFloat(_) => "<class 'float'>"
    case JStr(_) => "<class 'str'>"
    case JList(_) => "<class 'list'>"
    case JDict(_) => "<class 'dict'>"
  }

  /** float(x) for a JSON value. */
  function PyFloat(j: Json): (r: Outcome<real>)
    ensures j.JInt? ==> r == Return(j.i as real)
    ensures j.JStr? ==> (r.Return? <==> ParseFloat(j.s).Some?)
    ensures j.JNone? || j.JList? || j.JDict? ==> r == Raise(TypeError)
  {
    match j
    case JBool(b) => Return(if b then 1.0 else 0.0)
    case JInt(i) => Return(i as real)
    case JFloat(x) => Return(x)
    case JStr(s) => (match ParseFloat(s) case Some(x) => Return(x) case None => Raise(BadNumber(s)))
    case _ => Raise(TypeError)
  }

  /** int(x) for a JSON value. */
  function PyInt(j: Json): (r: Outcome<int>)
    ensures j.JInt? ==> r == Return(j.i)
    ensures j.JStr? ==> (r.Return? <==> ParseInt(j.s).Some?)
    ensures j.JNone? || j.JList? || j.JDict? ==> r == Raise(TypeError)
  {
    match j
    case JBool(b) => Return(if b then 1 else 0)
    case JInt(i) => Return(i)
    case JFloat(x) => Return(Trunc(x))
    case JStr(s) => (match ParseInt(s) case Some(i) => Return(i) case None => Raise(BadNumber(s)))
    case _ => Raise(TypeError)
  }

  // ---------------------------------------------------------------- paths

  /** A path as its components; the empty sequence is the root. */
  datatype Path = Path(parts: seq<string>)

  /** pathlib's `.parent` (the root is its own parent). */
  function Parent(p: Path): Path {
    if |p.parts| == 0 then p else Path(p.parts[..|p.parts| - 1])
  }

  /** pathlib's `p / name`. */
  function Join(p: Path, name: string): Path {
    Path(p.parts + [name])
  }

  /** pathlib's `.name`. */
  function Name(p: Path): string {
    if |p.parts| == 0 then "" else p.parts[|p.parts| - 1]
  }

  /** pathlib's `.suffix`: from the last '.' of the name, unless that dot leads or ends it. */
  function Suffix(p: Path): string {
    var n := Name(p);
    var i := RFindChar(n, '.');
    if 0 < i < |n| - 1 then n[i..] else ""
  }

  /** pathlib's `.stem`: the name without its suffix. */
  function Stem(p: Path): string {
    var n := Name(p);
    var i := RFindChar(n, '.');
    if 0 < i < |n| - 1 then n[..i] else n
  }

  lemma StemAndSuffix(p: Path)
    ensures Stem(p) + Suffix(p) == Name(p)
  {
  }

  lemma ParentOfJoin(p: Path, name: string)
    ensures Parent(Join(p, name)) == p && Name(Join(p, name)) == name
  {
    assert Join(p, name).parts[..|p.parts|] == p.parts;
  }

  /** `q` is `p` or lies inside the tree rooted at `p`. */
  predicate IsUnder(q: Path, p: Path) {
    p.parts <= q.parts
  }

  /** The directories `mkdir(parents=True)` makes sure exist: `p` and every
      non-root ancestor. */
  function Ancestors(p: Path): set<Path> {
    set k | 1 <= k <= |p.parts| :: Path(p.parts[..k])
  }

  lemma AncestorsOfParent(p: Path)
    ensures Ancestors(Parent(p)) <= Ancestors(p)
    ensures |p.parts| > 0 ==> Ancestors(p) == Ancestors(Parent(p)) + {p}
  {
    if |p.parts| > 0 {
      assert p == Path(p.parts[..|p.parts|]);
      forall q | q in Ancestors(Parent(p)) ensures q in Ancestors(p) {
        var k :| 1 <= k <= |Parent(p).parts| && q == Path(Parent(p).parts[..k]);
        assert q == Path(p.parts[..k]);
      }
      forall q | q in Ancestors(p) ensures q in Ancestors(Parent(p)) + {p} {
        var k :| 1 <= k <= |p.parts| && q == Path(p.parts[..k]);
        if k < |p.parts| {
          assert q == Path(Parent(p).parts[..k]);
        }
      }
    }
  }

  /** Making a path's parent directories never makes the path itself. */
  lemma NotOwnAncestor(p: Path)
    ensures p !in Ancestors(Parent(p))
  {
    forall q | q in Ancestors(Parent(p))
      ensures 1 <= |q.parts| <= |Parent(p).parts|
    {
    }
  }

  /** The members of `s` that do not lie under `p`. */
  function Outside(s: set<Path>, p: Path): (r: set<Path>)
    ensures r <= s
    ensures forall q :: q in r <==> q in s && !IsUnder(q, p)
  {
    set q | q in s && !IsUnder(q, p)
  }

  /** The text of a path, '/'-separated. */
  function PathText(p: Path): string {
    if |p.parts| == 0 then "/" else JoinParts(p.parts)
  }

  function JoinParts(parts: seq<string>): string {
    if |parts| == 0 then "" else JoinParts(parts[..|parts| - 1]) + "/" + parts[|parts| - 1]
  }

  // ---------------------------------------------------------------- directory tree

  /** The part of the filesystem the pipeline creates and removes. */
  class FileSystem {
    var dirs: set<Path>
    var files: set<Path>

    constructor (dirs: set<Path>, files: set<Path>)
      ensures this.dirs == dirs && this.files == files
    {
      this.dirs := dirs;
      this.files := files;
    }

    /** pathlib's `.exists()`. */
    predicate Exists(p: Path)
      reads this
    {
      p in dirs || p in files
    }

    /** `p.mkdir(parents=True, exist_ok=True)`. */
    method MakeDirs(p: Path)
      modifies this
      ensures dirs == old(dirs) + Ancestors(p) && files == old(files)
    {
      dirs := dirs + Ancestors(p);
    }

    /** `shutil.rmtree(p)`: `p` and everything inside it disappear. */
    method RemoveTree(p: Path)
      modifies this
      ensures dirs == Outside(old(dirs), p) && files == Outside(old(files), p)
      ensures !Exists(p)
    {
      dirs := Outside(dirs, p);
      files := Outside(files, p);
    }

    /** `open(p, "w")` followed by writes. */
    method WriteFile(p: Path)
      modifies this
      ensures files == old(files) + {p} && dirs == old(dirs)
    {
      files := files + {p};
    }

    /** `p.unlink()`. */
    method Unlink(p: Path)
      modifies this
      ensures files == old(files) - {p} && dirs == old(dirs)
    {
      files := files - {p};
    }
  }

  // ---------------------------------------------------------------- progress callbacks

  /** Whether `n` more callback invocations succeed after `sofar` have: a callback
      with a limit raises on the invocation that would exceed it. */
  predicate Fits(limit: Option<nat>, sofar: nat, n: nat) {
    limit.None? || sofar + n <= limit.value
  }

  /** The count of callback invocations once `n` more follow `sofar`. Stages
      composed one after another hand on their count through this function, so
      that the count a stage starts from is one term in every fact about it. */
  function After(sofar: nat, n: nat): nat {
    sofar + n
  }

  /** The part of the events `es` a callback accepts after `sofar` accepted ones. */
  function Admit<E>(limit: Option<nat>, sofar: nat, es: seq<E>): (r: seq<E>)
    ensures r <= es
    ensures Fits(limit, sofar, |es|) ==> r == es
    ensures |es| > 0 && !Fits(limit, sofar, |es|) ==> |r| < |es|
    ensures !Fits(limit, sofar, |es|) ==> sofar + |r| == limit.value || (sofar >= limit.value && r == [])
  {
    if Fits(limit, sofar, |es|) then es
    else if sofar >= limit.value then []
    else es[..limit.value - sofar]
  }

  /** Admitting two event runs one after the other. */
  lemma AdmitAppend<E>(limit: Option<nat>, sofar: nat, a: seq<E>, b: seq<E>)
    ensures Admit(limit, sofar, a + b)
         == if Fits(limit, sofar, |a|) then a + Admit(limit, sofar + |a|, b) else Admit(limit, sofar, a)
  {
    if !Fits(limit, sofar, |a|) {
      if sofar < limit.value {
        assert (a + b)[..limit.value - sofar] == a[..limit.value - sofar];
      }
    } else if !Fits(limit, sofar + |a|, |b|) && sofar + |a| < limit.value {
      assert (a + b)[..limit.value - sofar] == a + b[..limit.value - sofar - |a|];
    }
  }

  /** Admitting `done` and then a `step` that the callback refuses: the callback
      raised inside `step`, so nothing of `rest` is delivered. */
  lemma AdmitPrefix<E>(limit: Option<nat>, base: nat, done: seq<E>, step: seq<E>, rest: seq<E>)
    requires Fits(limit, base, |done|)
    ensures Fits(limit, base + |done|, |step|) ==> Fits(limit, base, |done + step|)
    ensures !Fits(limit, base + |done|, |step|) ==>
      && !Fits(limit, base, |done + step + rest|)
      && Admit(limit, base, done + step + rest) == done + Admit(limit, base + |done|, step)
  {
    if !Fits(limit, base + |done|, |step|) {
      AdmitAppend(limit, base, done, step + rest);
      AdmitAppend(limit, base + |done|, step, rest);
      assert done + step + rest == done + (step + rest);
    }
  }

  /** A callback that accepted all of `a` goes on to receive `b`. */
  lemma AdmitChain<E>(limit: Option<nat>, e0: seq<E>, e1: seq<E>, e2: seq<E>, a: seq<E>, b: seq<E>)
    requires e1 == e0 + Admit(limit, |e0|, a) && Fits(limit, |e0|, |a|)
    requires e2 == e1 + Admit(limit, |e1|, b)
    ensures e2 == e0 + Admit(limit, |e0|, a + b)
    ensures Fits(limit, |e0|, |a + b|) <==> Fits(limit, |e1|, |b|)
  {
    AdmitAppend(limit, |e0|, a, b);
  }

  /** A callback that raised within `a` receives nothing of what would follow. */
  lemma AdmitStopped<E>(limit: Option<nat>, e0: seq<E>, e1: seq<E>, a: seq<E>, b: seq<E>)
    requires e1 == e0 + Admit(limit, |e0|, a) && !Fits(limit, |e0|, |a|)
    ensures e1 == e0 + Admit(limit, |e0|, a + b) && !Fits(limit, |e0|, |a + b|)
  {
    AdmitAppend(limit, |e0|, a, b);
  }

  /** One more batch `next` of invocations after a batch `done` that fit: what the
      callback saw and whether the step `ok` (a step that `succeeded` and whose
      invocations all fit), restated over `done + next`. */
  lemma AdmitNext<E>(limit: Option<nat>, e0: seq<E>, done: seq<E>, next: seq<E>, events: seq<E>,
                     ok: bool, succeeded: bool)
    requires Fits(limit, |e0|, |done|)
    requires events == e0 + done + Admit(limit, |e0| + |done|, next)
    requires ok == (succeeded && Fits(limit, |e0| + |done|, |next|))
    ensures events == e0 + Admit(limit, |e0|, done + next)
    ensures ok ==> succeeded && Fits(limit, |e0|, |done + next|) && events == e0 + (done + next)
    ensures !ok ==> !succeeded || !Fits(limit, |e0|, |done + next|)
  {
    AdmitAppend(limit, |e0|, done, next);
    AppendAssoc(e0, done, Admit(limit, |e0| + |done|, next));
  }

  /** One invocation of a `(stage, progress)` callback. */
  datatype Progress = Progress(stage: string, value: real)

  /** The progress values never decrease along `ps`. */
  predicate NonDecreasing(ps: seq<Progress>) {
    forall i, j :: 0 <= i < j < |ps| ==> ps[i].value <= ps[j].value
  }

  /** Every progress value of `ps` lies in [lo, hi]. */
  predicate Within(ps: seq<Progress>, lo: real, hi: real) {
    forall i :: 0 <= i < |ps| ==> lo <= ps[i].value <= hi
  }

  /** Joining two non-decreasing runs whose values meet in order. */
  lemma NonDecreasingAppend(a: seq<Progress>, b: seq<Progress>, mid: real)
    requires NonDecreasing(a) && NonDecreasing(b)
    requires forall i :: 0 <= i < |a| ==> a[i].value <= mid
    requires forall i :: 0 <= i < |b| ==> mid <= b[i].value
    ensures NonDecreasing(a + b)
  {
    var ab := a + b;
    forall i, j | 0 <= i < j < |ab| ensures ab[i].value <= ab[j].value {
      if j < |a| {
        assert ab[i] == a[i] && ab[j] == a[j];
      } else if i >= |a| {
        assert ab[i] == b[i - |a|] && ab[j] == b[j - |a|];
      } else {
        assert ab[i] == a[i] && ab[j] == b[j - |a|];
      }
    }
  }

  lemma WithinAppend(a: seq<Progress>, b: seq<Progress>, lo: real, hi: real)
    requires Within(a, lo, hi) && Within(b, lo, hi)
    ensures Within(a + b, lo, hi)
  {
    var ab := a + b;
    forall i | 0 <= i < |ab| ensures lo <= ab[i].value <= hi {
      if i < |a| {
        assert ab[i] == a[i];
      } else {
        assert ab[i] == b[i - |a|];
      }
    }
  }

  /** The progress values never decrease and lie in [lo, hi]. */
  predicate Climbs(ps: seq<Progress>, lo: real, hi: real) {
    NonDecreasing(ps) && Within(ps, lo, hi)
  }

  /** A run climbing within [lo, m1] followed by one climbing within [m2, hi] climbs
      within [lo, hi] when the bands are in order. */
  lemma ClimbsAppend(a: seq<Progress>, b: seq<Progress>, lo: real, m1: real, m2: real, hi: real)
    requires Climbs(a, lo, m1) && Climbs(b, m2, hi) && lo <= m1 <= m2 <= hi
    ensures Climbs(a + b, lo, hi)
  {
    NonDecreasingAppend(a, b, m1);
    WithinAppend(a, b, lo, hi);
  }

  /** A climb within a band is a climb within any wider band. */
  lemma ClimbsWiden(ps: seq<Progress>, lo: real, hi: real, lo': real, hi': real)
    requires Climbs(ps, lo, hi) && lo' <= lo && hi <= hi'
    ensures Climbs(ps, lo', hi')
  {
  }

  /** Each report passed through `f`, as a wrapping callback forwards them. */
  function Mapped<E>(ps: seq<Progress>, f: Progress -> E): (r: seq<E>)
    ensures |r| == |ps| && forall i {:trigger r[i]} :: 0 <= i < |ps| ==> r[i] == f(ps[i])
  {
    seq(|ps|, i requires 0 <= i < |ps| => f(ps[i]))
  }

  lemma MappedAppend<E>(a: seq<Progress>, b: seq<Progress>, f: Progress -> E)
    ensures Mapped(a + b, f) == Mapped(a, f) + Mapped(b, f)
  {
  }

  /** A progress callback. Every invocation is recorded in `events`; when `limit` is
      set, the invocation that would exceed it raises instead (the cancellation a
      user requests through the interface), and so does every later one. */
  class Sink<E> {
    var events: seq<E>
    const limit: Option<nat>

    /** The callback never accepted more invocations than its limit allows. */
    predicate Valid()
      reads this
    {
      Fits(limit, |events|, 0)
    }

    constructor (limit: Option<nat>)
      ensures Valid() && events == [] && this.limit == limit
    {
      events := [];
      this.limit := limit;
    }

    /** Invoke the callback with `e`; `raised` means it raised InterruptedError. */
    method Emit(e: E) returns (raised: bool)
      requires Valid()
      modifies this
      ensures Valid()
      ensures raised <==> !Fits(limit, |old(events)|, 1)
      ensures events == old(events) + Admit(limit, |old(events)|, [e])
    {
      raised := !Fits(limit, |events|, 1);
      if !raised {
        events := events + [e];
      }
    }
  }

  // ================================================================ per-line reports

  /** The concatenation of what `f` yields for each of `xs`, in order. */
  function FlatMap<T, U>(xs: seq<T>, f: T -> seq<U>): seq<U> {
    if |xs| == 0 then [] else FlatMap(xs[..|xs| - 1], f) + f(xs[|xs| - 1])
  }

  lemma {:induction false} FlatMapAppend<T, U>(a: seq<T>, b: seq<T>, f: T -> seq<U>)
    ensures FlatMap(a + b, f) == FlatMap(a, f) + FlatMap(b, f)
    decreases |b|
  {
    if |b| > 0 {
      assert (a + b)[..|a + b| - 1] == a + b[..|b| - 1];
      FlatMapAppend(a, b[..|b| - 1], f);
    } else {
      assert a + b == a;
    }
  }

  /** What the first `i + 1` items yield extends what the first `i` yield. */
  lemma FlatMapStep<T, U>(xs: seq<T>, i: nat, f: T -> seq<U>)
    requires i < |xs|
    ensures FlatMap(xs[..i + 1], f) == FlatMap(xs[..i], f) + f(xs[i])
  {
    assert xs[..i + 1][..i] == xs[..i];
  }

  /** What all items yield splits at any point `k`. */
  lemma FlatMapTakeDrop<T, U>(xs: seq<T>, k: nat, f: T -> seq<U>)
    requires k <= |xs|
    ensures FlatMap(xs, f) == FlatMap(xs[..k], f) + FlatMap(xs[k..], f)
  {
    assert xs[..k] + xs[k..] == xs;
    FlatMapAppend(xs[..k], xs[k..], f);
  }

  /** What all items yield splits around item `i`. */
  lemma FlatMapSplit<T, U>(xs: seq<T>, i: nat, f: T -> seq<U>)
    requires i < |xs|
    ensures FlatMap(xs, f) == FlatMap(xs[..i], f) + (f(xs[i]) + FlatMap(xs[i + 1..], f))
  {
    var p, q := FlatMap(xs[..i + 1], f), FlatMap(xs[i + 1..], f);
    FlatMapTakeDrop(xs, i + 1, f);
    assert FlatMap(xs, f) == p + q;
    FlatMapStep(xs, i, f);
    assert p == FlatMap(xs[..i], f) + f(xs[i]);
    AppendAssoc(FlatMap(xs[..i], f), f(xs[i]), q);
  }

  lemma PrefixOfAppend<U>(a: seq<U>, b: seq<U>, c: seq<U>)
    requires a <= b
    ensures a <= b + c
  {
    assert (b + c)[..|a|] == b[..|a|];
  }

  lemma AppendAssoc<U>(a: seq<U>, b: seq<U>, c: seq<U>)
    ensures (a + b) + c == a + (b + c)
  {
  }
}

=== FILE: config.dfy ===
/** The application's fixed locations and the checks around them. */
module Config {
  import opened Common

  /** The binary directory under the application directory `app`. */
  function BinDir(app: Path): Path { Join(app, "bin") }

  function RifeDir(app: Path): Path { Join(BinDir(app), "rife-ncnn-vulkan") }

  function FfmpegDir(app: Path): Path { Join(BinDir(app), "ffmpeg") }

  /** The scratch directory every job works in. */
  function TempDir(app: Path): Path { Join(app, "temp") }

  /** The directories `ensure_directories` makes. */
  function ConfigDirs(app: Path): set<Path> {
    {TempDir(app), BinDir(app), RifeDir(app), FfmpegDir(app)}
  }

  /** The container suffixes the command line accepts. */
  const SupportedFormats: seq<string> := [".mp4", ".avi", ".mov", ".mkv", ".webm"]

  /** `ensure_directories`: the scratch directory and the three binary directories
      exist afterwards; nothing else changes. */
  method EnsureDirectories(fs: FileSystem, app: Path)
    modifies fs
    ensures fs.dirs == old(fs.dirs) + ConfigDirs(app) && fs.files == old(fs.files)
    ensures forall d :: d in ConfigDirs(app) ==> fs.Exists(d)
  {
    fs.dirs := fs.dirs + {TempDir(app)};
    fs.dirs := fs.dirs + {BinDir(app)};
    fs.dirs := fs.dirs + {RifeDir(app)};
    fs.dirs := fs.dirs + {FfmpegDir(app)};
  }

  /** `check_dependencies`: one message per missing binary, in the order RIFE,
      FFmpeg, FFprobe. */
  function CheckDependencies(rife: Tool, ffmpeg: Tool, ffprobe: Tool): (missing: seq<string>)
    ensures |missing| == (if rife.present then 0 else 1) + (if ffmpeg.present then 0 else 1)
                         + (if ffprobe.present then 0 else 1)
    ensures missing == [] <==> rife.present && ffmpeg.present && ffprobe.present
  {
    (if rife.present then [] else ["RIFE executable not found at: " + PathText(rife.path)])
    + (if ffmpeg.present then [] else ["FFmpeg executable not found at: " + PathText(ffmpeg.path)])
    + (if ffprobe.present then [] else ["FFprobe executable not found at: " + PathText(ffprobe.path)])
  }

  /** The scratch directory lies inside the application directory, apart from the
      binary directories. */
  lemma TempDirApart(app: Path)
    ensures IsUnder(TempDir(app), app)
    ensures !IsUnder(TempDir(app), BinDir(app)) && !IsUnder(BinDir(app), TempDir(app))
  {
    assert TempDir(app).parts[..|app.parts|] == app.parts;
    assert TempDir(app).parts[|app.parts|] != BinDir(app).parts[|app.parts|];
  }
}

=== FILE: continuation_processor.dfy ===
/** The continuation pipeline: take the last frame of a video, have the remote
    CogVideoX service generate a continuation from it, fit the continuation to the
    original's frame rate and size, and either join the two or keep the
    continuation alone. */
module ContinuationProcessor {
  import opened Common
  import Config
  import Processor
  import RunPodClient

  // ================================================================ options and the outside world

  /** ContinuationOptions. `durationSeconds` is carried but never read. */
  datatype ContinuationOptions = ContinuationOptions(
    prompt: string,
    negativePrompt: string,
    durationSeconds: real,
    concatenateOriginal: bool,
    numInferenceSteps: int,
    guidanceScale: real)

  /** The options' field defaults. */
  const DefaultOptions: ContinuationOptions :=
    ContinuationOptions("", "blurry, low quality, distorted, inconsistent", 2.0, true, 50, 6.0)

  /** The outside world of the pipeline, fixed in advance: the binaries and what
      they do (`m`), whether an ffmpeg command line leaves its output file behind,
      `Path.resolve()`, what `shutil.copy` does with a source and a target, and the
      remote generation service. */
  datatype Host = Host(
    m: Processor.Machine,
    writes: seq<string> -> bool,
    resolve: Path -> Path,
    copy: (Path, Path) -> Effect,
    remote: RunPodClient.Remote)

  /** `subprocess.run` of an ffmpeg command line whose output file is `out`. */
  method RunFfmpeg(fs: FileSystem, h: Host, cmd: seq<string>, out: Path) returns (run: ProcessRun)
    modifies fs
    ensures run == h.m.exec(cmd)
    ensures fs.files == old(fs.files) + (if run.Ran? && h.writes(cmd) then {out} else {})
    ensures fs.dirs == old(fs.dirs)
  {
    run := h.m.exec(cmd);
    if run.Ran? && h.writes(cmd) {
      fs.WriteFile(out);
    }
  }

  // ================================================================ extract_last_frame

  /** Seek to one second before the end and write one high-quality frame. */
  function LastFrameCommand(ffmpeg: Path, video: Path, out: Path): seq<string> {
    [PathText(ffmpeg), "-y", "-sseof", "-1", "-i", PathText(video), "-vframes", "1", "-q:v", "2", PathText(out)]
  }

  /** What `extract_last_frame` returns or raises; `there` says whether something
      was at the frame's path before ffmpeg ran. */
  function LastFrameOutcome(h: Host, video: Path, out: Path, there: bool): Outcome<bool> {
    if !h.m.ffmpeg.present then Raise(FileNotFound("FFmpeg"))
    else
      var cmd := LastFrameCommand(h.m.ffmpeg.path, video, out);
      match h.m.exec(cmd)
      case SpawnFailed => Raise(OSError)
      case Ran(_, code) => Return(code == 0 && (there || h.writes(cmd)))
  }

  /** `extract_last_frame`: without ffmpeg it raises; otherwise it makes the frame's
      directory, runs ffmpeg, and answers True exactly when ffmpeg exited with 0 and
      the frame's path exists afterwards. */
  method ExtractLastFrame(fs: FileSystem, h: Host, video: Path, out: Path) returns (r: Outcome<bool>)
    modifies fs
    ensures r == LastFrameOutcome(h, video, out, old(fs.Exists(out)))
    ensures r.Return? ==>
      (r.value <==> h.m.exec(LastFrameCommand(h.m.ffmpeg.path, video, out)).exitCode == 0 && fs.Exists(out))
    ensures old(fs.files) <= fs.files <= old(fs.files) + {out}
    ensures fs.dirs == old(fs.dirs) + (if h.m.ffmpeg.present then Ancestors(Parent(out)) else {})
  {
    if !h.m.ffmpeg.present {
      r := Raise(FileNotFound("FFmpeg"));
    } else {
      NotOwnAncestor(out);
      fs.MakeDirs(Parent(out));
      var cmd := LastFrameCommand(h.m.ffmpeg.path, video, out);
      var run := RunFfmpeg(fs, h, cmd, out);
      r := if run.SpawnFailed? then Raise(OSError) else Return(run.exitCode == 0 && fs.Exists(out));
    }
  }

  // ================================================================ concatenate_videos

  /** The list file ffmpeg's concat demuxer reads, next to the output. */
  function ConcatListPath(output: Path): Path {
    Join(Parent(output), Stem(output) + "_concat.txt")
  }

  /** One line of the list, without its newline. */
  function ConcatEntry(p: Path): string {
    "file '" + PathText(p) + "'"
  }

  /** The text of the list: the original, then the continuation, both resolved. */
  function ConcatListing(h: Host, original: Path, continuation: Path): string {
    (ConcatEntry(h.resolve(original)) + "\n") + (ConcatEntry(h.resolve(continuation)) + "\n")
  }

  function ConcatCommand(ffmpeg: Path, list: Path, output: Path): seq<string> {
    [PathText(ffmpeg), "-y", "-f", "concat", "-safe", "0", "-i", PathText(list), "-c", "copy", PathText(output)]
  }

  /** What `concatenate_videos` returns or raises. */
  function ConcatOutcome(h: Host, output: Path): Outcome<bool> {
    if !h.m.ffmpeg.present then Raise(FileNotFound("FFmpeg"))
    else
      match h.m.exec(ConcatCommand(h.m.ffmpeg.path, ConcatListPath(output), output))
      case SpawnFailed => Raise(OSError)
      case Ran(_, code) => Return(code == 0)
  }

  /** The output file ffmpeg leaves behind when it joins the videos. */
  function ConcatWrites(h: Host, output: Path): set<Path> {
    var cmd := ConcatCommand(h.m.ffmpeg.path, ConcatListPath(output), output);
    if h.m.exec(cmd).Ran? && h.writes(cmd) then {output} else {}
  }

  /** `concatenate_videos`: without ffmpeg it raises and writes nothing; otherwise it
      writes the two-line list, runs the concat demuxer with stream copy, and removes
      the list whichever way the run ends. `listing` is the list's text. */
  method ConcatenateVideos(fs: FileSystem, h: Host, original: Path, continuation: Path, output: Path)
    returns (r: Outcome<bool>, listing: string)
    modifies fs
    ensures r == ConcatOutcome(h, output)
    ensures listing == if h.m.ffmpeg.present then ConcatListing(h, original, continuation) else ""
    ensures fs.files == if h.m.ffmpeg.present then (old(fs.files) + ConcatWrites(h, output)) - {ConcatListPath(output)}
                        else old(fs.files)
    ensures fs.dirs == old(fs.dirs) + (if h.m.ffmpeg.present then Ancestors(Parent(output)) else {})
  {
    listing := "";
    if !h.m.ffmpeg.present {
      r := Raise(FileNotFound("FFmpeg"));
    } else {
      fs.MakeDirs(Parent(output));
      var list := ConcatListPath(output);
      fs.WriteFile(list);
      listing := ConcatEntry(h.resolve(original)) + "\n";
      listing := listing + ConcatEntry(h.resolve(continuation)) + "\n";
      var cmd := ConcatCommand(h.m.ffmpeg.path, list, output);
      var run := RunFfmpeg(fs, h, cmd, output);
      r := if run.SpawnFailed? then Raise(OSError) else Return(run.exitCode == 0);
      if fs.Exists(list) {
        fs.Unlink(list);
      }
    }
  }

  /** The list holds exactly two lines, naming the original and then the
      continuation, when neither resolved path holds a newline. */
  lemma ConcatListingLines(h: Host, original: Path, continuation: Path)
    requires '\n' !in PathText(h.resolve(original)) && '\n' !in PathText(h.resolve(continuation))
    ensures Processor.Split(ConcatListing(h, original, continuation), '\n')
         == [ConcatEntry(h.resolve(original)), ConcatEntry(h.resolve(continuation)), ""]
  {
    NoNewlineInEntry(h.resolve(original));
    NoNewlineInEntry(h.resolve(continuation));
    TwoLines(ConcatEntry(h.resolve(original)), ConcatEntry(h.resolve(continuation)));
  }

  /** Two lines without a newline inside, each ended by one, split into the two
      and an empty remainder. */
  lemma TwoLines(a: string, b: string)
    requires FindChar(a, '\n') == -1 && FindChar(b, '\n') == -1
    ensures Processor.Split((a + "\n") + (b + "\n"), '\n') == [a, b, ""]
  {
    Processor.SplitAt(a, '\n', b + "\n");
    Processor.SplitLast(b, '\n');
  }

  lemma NoNewlineInEntry(p: Path)
    requires '\n' !in PathText(p)
    ensures FindChar(ConcatEntry(p), '\n') == -1
  {
    var e := ConcatEntry(p);
    forall k | 0 <= k < |e| ensures e[k] != '\n' {
      if 6 <= k < 6 + |PathText(p)| {
        assert e[k] == PathText(p)[k - 6];
      }
    }
  }

  // ================================================================ reencode_video

  /** The fixed start of a re-encoding: H.264, medium preset, CRF 18, yuv420p. */
  function ReencodePrefix(ffmpeg: Path, input: Path): seq<string> {
    [PathText(ffmpeg), "-y", "-i", PathText(input), "-c:v", "libx264", "-preset", "medium", "-crf", "18",
     "-pix_fmt", "yuv420p"]
  }

  /** A target frame rate counts when it is given and nonzero (Python truthiness). */
  predicate RateGiven(fps: Option<real>) {
    fps.Some? && fps.value != 0.0
  }

  /** The scale filter for a width and a height. */
  function ScaleArg(width: int, height: int): string {
    "scale=" + (IntToString(width) + ":" + IntToString(height))
  }

  /** The ffmpeg command line `reencode_video` builds. */
  function ReencodeCommand(m: Processor.Machine, input: Path, output: Path, fps: Option<real>, size: Option<(int, int)>)
    : seq<string>
  {
    ReencodePrefix(m.ffmpeg.path, input)
    + (if RateGiven(fps) then ["-r", m.floatStr(fps.value)] else [])
    + (if size.Some? then ["-vf", ScaleArg(size.value.0, size.value.1)] else [])
    + [PathText(output)]
  }

  /** What `reencode_video` returns or raises. */
  function ReencodeOutcome(m: Processor.Machine, input: Path, output: Path, fps: Option<real>, size: Option<(int, int)>)
    : Outcome<bool>
  {
    if !m.ffmpeg.present then Raise(FileNotFound("FFmpeg"))
    else
      match m.exec(ReencodeCommand(m, input, output, fps, size))
      case SpawnFailed => Raise(OSError)
      case Ran(_, code) => Return(code == 0)
  }

  /** The output file a re-encoding leaves behind. */
  function ReencodeWrites(h: Host, input: Path, output: Path, fps: Option<real>, size: Option<(int, int)>): set<Path> {
    var cmd := ReencodeCommand(h.m, input, output, fps, size);
    if h.m.ffmpeg.present && h.m.exec(cmd).Ran? && h.writes(cmd) then {output} else {}
  }

  /** `reencode_video`: without ffmpeg it raises; otherwise it makes the output's
      directory, builds the command line piece by piece and answers whether ffmpeg
      exited with 0. */
  method ReencodeVideo(fs: FileSystem, h: Host, input: Path, output: Path, fps: Option<real>, size: Option<(int, int)>)
    returns (r: Outcome<bool>, cmd: seq<string>)
    modifies fs
    ensures r == ReencodeOutcome(h.m, input, output, fps, size)
    ensures h.m.ffmpeg.present ==> cmd == ReencodeCommand(h.m, input, output, fps, size)
    ensures fs.files == old(fs.files) + ReencodeWrites(h, input, output, fps, size)
    ensures fs.dirs == old(fs.dirs) + (if h.m.ffmpeg.present then Ancestors(Parent(output)) else {})
  {
    cmd := [];
    if !h.m.ffmpeg.present {
      r := Raise(FileNotFound("FFmpeg"));
    } else {
      fs.MakeDirs(Parent(output));
      cmd := ReencodePrefix(h.m.ffmpeg.path, input);
      if fps.Some? && fps.value != 0.0 {
        cmd := cmd + ["-r", h.m.floatStr(fps.value)];
      }
      if size.Some? {
        cmd := cmd + ["-vf", ScaleArg(size.value.0, size.value.1)];
      }
      cmd := cmd + [PathText(output)];
      assert cmd == ReencodeCommand(h.m, input, output, fps, size);
      var run := RunFfmpeg(fs, h, cmd, output);
      r := if run.SpawnFailed? then Raise(OSError) else Return(run.exitCode == 0);
    }
  }

  /** The re-encoding command line: the fixed prefix, then `-r` with the rate
      exactly when a rate is given, then `-vf` with the scale filter exactly when a
      size is given, and the output last. */
  lemma ReencodeCommandShape(m: Processor.Machine, input: Path, output: Path, fps: Option<real>, size: Option<(int, int)>)
    ensures var cmd := ReencodeCommand(m, input, output, fps, size);
      var n := |ReencodePrefix(m.ffmpeg.path, input)|;
      && n == 12 && cmd[..n] == ReencodePrefix(m.ffmpeg.path, input)
      && |cmd| == n + 1 + (if RateGiven(fps) then 2 else 0) + (if size.Some? then 2 else 0)
      && cmd[|cmd| - 1] == PathText(output)
      && (RateGiven(fps) ==> cmd[n] == "-r" && cmd[n + 1] == m.floatStr(fps.value))
      && (size.Some? ==> cmd[|cmd| - 3] == "-vf" && cmd[|cmd| - 2] == ScaleArg(size.value.0, size.value.1))
      && (!RateGiven(fps) && size.None? ==> cmd == ReencodePrefix(m.ffmpeg.path, input) + [PathText(output)])
  {
    var pre := ReencodePrefix(m.ffmpeg.path, input);
    var rate := if RateGiven(fps) then ["-r", m.floatStr(fps.value)] else [];
    var scale := if size.Some? then ["-vf", ScaleArg(size.value.0, size.value.1)] else [];
    assert ReencodeCommand(m, input, output, fps, size) == pre + (rate + scale) + [PathText(output)];
  }

  /** A printed int holds no colon. */
  lemma NoColonInInt(i: int)
    ensures FindChar(IntToString(i), ':') == -1
  {
    var s := IntToString(i);
    var d := if i < 0 then NatToString(-i) else NatToString(i);
    assert AllDigits(d);
    forall k | 0 <= k < |s| ensures s[k] != ':' {
      if i < 0 && k > 0 {
        assert s[k] == d[k - 1];
        assert IsDigit(d[k - 1]);
      } else if i >= 0 {
        assert IsDigit(d[k]);
      }
    }
  }

  /** The scale filter names the width and then the height, each read back as the
      number it was printed from. */
  lemma ScaleArgSizes(width: int, height: int)
    ensures var s := ScaleArg(width, height);
      && s[..6] == "scale="
      && Processor.Split(s[6..], ':') == [IntToString(width), IntToString(height)]
      && ParseInt(IntToString(width)) == Some(width) && ParseInt(IntToString(height)) == Some(height)
  {
    var a, b := IntToString(width), IntToString(height);
    NoColonInInt(width);
    NoColonInInt(height);
    Processor.SplitAt(a, ':', b);
    assert Processor.Split(b, ':') == [b];
    ParseIntOfIntToString(width);
    ParseIntOfIntToString(height);
  }

  // ================================================================ continue_video

  /** One call of `continue_video`: the application directory, the input and output
      videos, the RunPod credentials and the options. */
  datatype Job = Job(app: Path, input: Path, output: Path, apiKey: string, endpointId: string,
                     options: ContinuationOptions)

  /** The job's scratch directory, named after the input's stem, and its files. */
  function JobDir(job: Job): Path { Join(Config.TempDir(job.app), Stem(job.input) + "_continuation") }

  function FramePath(job: Job): Path { Join(JobDir(job), "last_frame.png") }

  function RawPath(job: Job): Path { Join(JobDir(job), "continuation_raw.mp4") }

  function MatchedPath(job: Job): Path { Join(JobDir(job), "continuation_matched.mp4") }

  function OriginalPath(job: Job): Path { Join(JobDir(job), "original_reencoded.mp4") }

  /** The client's timeout in seconds, and the number of frames CogVideoX generates. */
  const ClientTimeout: int := 300

  const GeneratedFrames: int := 49

  /** The generation settings: the fixed frame count, the rest from the options. */
  function ConfigOf(o: ContinuationOptions): RunPodClient.ContinuationConfig {
    RunPodClient.ContinuationConfig(o.prompt, o.negativePrompt, GeneratedFrames, o.numInferenceSteps, o.guidanceScale)
  }

  function ClientRequest(job: Job): RunPodClient.Request {
    RunPodClient.Request(FramePath(job), ConfigOf(job.options), RawPath(job))
  }

  /** `api_progress`: the client's progress p becomes 0.10 + 0.70 p. */
  function ApiProgress(p: Progress): Progress {
    Progress(p.stage, 0.10 + p.value * 0.70)
  }

  /** What `str()` makes of an optional message. */
  function MessageText(msg: Option<string>): string {
    if msg.Some? then msg.value else "None"
  }

  /** The generation settings do not depend on the requested duration: the frame
      count is always 49, and the prompts, steps and guidance come from the options. */
  lemma ConfigIgnoresDuration(o: ContinuationOptions, d: real)
    ensures ConfigOf(o.(durationSeconds := d)) == ConfigOf(o)
    ensures var c := ConfigOf(o);
      && c.numFrames == 49 && c.prompt == o.prompt && c.negativePrompt == o.negativePrompt
      && c.numInferenceSteps == o.numInferenceSteps && c.guidanceScale == o.guidanceScale
  {
  }

  /** Mapping a climb within [lo, hi] gives a climb within the mapped band; the
      client's [0, 1] lands in [0.10, 0.80]. */
  lemma ApiProgressClimbs(ps: seq<Progress>, lo: real, hi: real)
    requires Climbs(ps, lo, hi)
    ensures Climbs(Mapped(ps, ApiProgress), 0.10 + lo * 0.70, 0.10 + hi * 0.70)
  {
    var qs := Mapped(ps, ApiProgress);
    forall i, j | 0 <= i < j < |qs| ensures qs[i].value <= qs[j].value {
      assert ps[i].value <= ps[j].value;
    }
    forall i | 0 <= i < |qs| ensures 0.10 + lo * 0.70 <= qs[i].value <= 0.10 + hi * 0.70 {
      assert lo <= ps[i].value <= hi;
    }
  }

  // ---------------------------------------------------------------- stages as values

  /** Analysis and the conditioning frame: the callback invocations when none raises. */
  function AnalyzeReports(h: Host, job: Job): seq<Progress> {
    [Progress("Analyzing video...", 0.0)]
    + (if Processor.GetVideoInfo(h.m.ffprobe, job.input, h.m.probe).Raise? then []
       else [Progress("Extracting conditioning frame...", 0.05)])
  }

  /** Analysis and the conditioning frame: the input's metadata, or what is raised;
      `there` says whether something was at the frame's path beforehand. */
  function AnalyzeOutcome(h: Host, job: Job, there: bool, limit: Option<nat>, sofar: nat): Outcome<Processor.VideoInfo> {
    if !Fits(limit, sofar, 1) then Raise(Interrupted)
    else
      match Processor.GetVideoInfo(h.m.ffprobe, job.input, h.m.probe)
      case Raise(e) => Raise(e)
      case Return(info) =>
        if !Fits(limit, sofar + 1, 1) then Raise(Interrupted)
        else
          match LastFrameOutcome(h, job.input, FramePath(job), there)
          case Raise(e) => Raise(e)
          case Return(ok) => if ok then Return(info) else Raise(RuntimeError("Failed to extract last frame"))
  }

  /** The client's own reports; its callback is always given, so it always reports. */
  function ClientReportsOf(h: Host, job: Job): seq<Progress> {
    RunPodClient.ClientReports(job.apiKey, job.endpointId, true, ClientRequest(job), h.remote, ClientTimeout)
  }

  /** The result the client returns when its callback never raises. */
  function Generated(h: Host, job: Job): RunPodClient.ContinuationResult {
    RunPodClient.ClientResult(RunPodClient.ClientStop(job.apiKey, job.endpointId, ClientRequest(job), h.remote, ClientTimeout),
                              RawPath(job), ClientTimeout)
  }

  /** Generation: the callback invocations when none raises. */
  function GenerateReports(h: Host, job: Job): seq<Progress> {
    [Progress("Connecting to RunPod...", 0.10)] + Mapped(ClientReportsOf(h, job), ApiProgress)
  }

  /** Generation: an unsuccessful result becomes a RuntimeError carrying its message. */
  function GenerateOutcome(h: Host, job: Job, limit: Option<nat>, sofar: nat): Outcome<bool> {
    if !Fits(limit, sofar, |GenerateReports(h, job)|) then Raise(Interrupted)
    else if Generated(h, job).success then Return(true)
    else Raise(RuntimeError("Continuation generation failed: " + MessageText(Generated(h, job).errorMessage)))
  }

  /** Fitting the generated clip to the input's rate and size. */
  function MatchOutcome(h: Host, job: Job, info: Processor.VideoInfo): Outcome<bool> {
    ReencodeOutcome(h.m, RawPath(job), MatchedPath(job), Some(info.fps), Some((info.width, info.height)))
  }

  /** The report before the output is written. */
  function OutputLabel(o: ContinuationOptions): string {
    if o.concatenateOriginal then "Concatenating videos..." else "Saving output..."
  }

  /** Writing the output: re-encode the original at its own rate and join the two,
      or copy the fitted clip. */
  function OutputOutcome(h: Host, job: Job, info: Processor.VideoInfo): Outcome<bool> {
    if job.options.concatenateOriginal then
      match ReencodeOutcome(h.m, job.input, OriginalPath(job), Some(info.fps), None)
      case Raise(e) => Raise(e)
      case Return(ok) =>
        if !ok then Raise(RuntimeError("Failed to re-encode original"))
        else
          match ConcatOutcome(h, job.output)
          case Raise(e) => Raise(e)
          case Return(joined) => if joined then Return(true) else Raise(RuntimeError("Failed to concatenate videos"))
    else
      match h.copy(MatchedPath(job), job.output)
      case Fails(_) => Raise(OSError)
      case Done => Return(true)
  }

  /** Writing the output: the callback invocations when none raises. */
  function DeliverReports(h: Host, job: Job, info: Processor.VideoInfo): seq<Progress> {
    [Progress(OutputLabel(job.options), 0.90)]
    + (if OutputOutcome(h, job, info).Raise? then [] else [Progress("Complete!", 1.0)])
  }

  /** Writing the output, then the final probe of the output. */
  function DeliverOutcome(h: Host, job: Job, info: Processor.VideoInfo, limit: Option<nat>, sofar: nat): Outcome<bool> {
    if !Fits(limit, sofar, 1) then Raise(Interrupted)
    else
      match OutputOutcome(h, job, info)
      case Raise(e) => Raise(e)
      case Return(_) =>
        if !Fits(limit, sofar + 1, 1) then Raise(Interrupted)
        else
          match Processor.GetVideoInfo(h.m.ffprobe, job.output, h.m.probe)
          case Raise(e) => Raise(e)
          case Return(_) => Return(true)
  }

  /** Fitting and output: the callback invocations when none raises. */
  function FinishReports(h: Host, job: Job, info: Processor.VideoInfo): seq<Progress> {
    [Progress("Processing continuation...", 0.80)]
    + (if MatchOutcome(h, job, info) != Return(true) then [] else DeliverReports(h, job, info))
  }

  /** Fitting and output, and the final probe of the output. */
  function FinishOutcome(h: Host, job: Job, info: Processor.VideoInfo, limit: Option<nat>, sofar: nat): Outcome<bool> {
    if !Fits(limit, sofar, 1) then Raise(Interrupted)
    else
      match MatchOutcome(h, job, info)
      case Raise(e) => Raise(e)
      case Return(ok) =>
        if !ok then Raise(RuntimeError("Failed to re-encode continuation"))
        else DeliverOutcome(h, job, info, limit, After(sofar, 1))
  }

  /** Generation, fitting and output for an input with metadata `info`: the
      callback invocations when none raises. */
  function ProceedReports(h: Host, job: Job, info: Processor.VideoInfo): seq<Progress> {
    GenerateReports(h, job) + (if Generated(h, job).success then FinishReports(h, job, info) else [])
  }

  /** Generation, fitting and output: what is returned or raised. */
  function ProceedOutcome(h: Host, job: Job, info: Processor.VideoInfo, limit: Option<nat>, sofar: nat): Outcome<bool> {
    match GenerateOutcome(h, job, limit, sofar)
    case Raise(e) => Raise(e)
    case Return(_) => FinishOutcome(h, job, info, limit, After(sofar, |GenerateReports(h, job)|))
  }

  /** All callback invocations of `continue_video` when none raises. */
  function ContinueReports(h: Host, job: Job, there: bool): seq<Progress> {
    AnalyzeReports(h, job)
    + match AnalyzeOutcome(h, job, there, None, 0)
      case Raise(_) => []
      case Return(info) => ProceedReports(h, job, info)
  }

  /** What `continue_video` returns or raises, the callback having accepted `sofar`
      invocations of at most `limit`. */
  function ContinueOutcome(h: Host, job: Job, there: bool, limit: Option<nat>, sofar: nat): Outcome<bool> {
    match AnalyzeOutcome(h, job, there, limit, sofar)
    case Raise(e) => Raise(e)
    case Return(info) => ProceedOutcome(h, job, info, limit, After(sofar, |AnalyzeReports(h, job)|))
  }

  // ---------------------------------------------------------------- stages as methods

  /** The files a stage may leave behind: the ones there before, the job's scratch
      files, and the output. */
  predicate FilesWithin(before: set<Path>, after: set<Path>, job: Job) {
    forall q :: q in after ==> q in before || IsUnder(q, JobDir(job)) || q == job.output
  }

  /** The files a stage keeps: all that were there before, except the concat list. */
  predicate FilesKept(before: set<Path>, after: set<Path>, job: Job) {
    forall q :: q in before && q != ConcatListPath(job.output) ==> q in after
  }

  lemma FilesChain(f0: set<Path>, f1: set<Path>, f2: set<Path>, job: Job)
    requires FilesWithin(f0, f1, job) && FilesWithin(f1, f2, job)
    requires FilesKept(f0, f1, job) && FilesKept(f1, f2, job)
    ensures FilesWithin(f0, f2, job) && FilesKept(f0, f2, job)
  {
  }

  /** The job's files lie in its scratch directory, and none of the directories the
      pipeline makes before taking the last frame is the frame's path. */
  lemma JobFiles(job: Job)
    ensures IsUnder(FramePath(job), JobDir(job)) && IsUnder(MatchedPath(job), JobDir(job))
    ensures IsUnder(OriginalPath(job), JobDir(job)) && IsUnder(RawPath(job), JobDir(job))
    ensures JobDir(job) in Ancestors(JobDir(job)) && Parent(FramePath(job)) == JobDir(job)
    ensures FramePath(job) !in Config.ConfigDirs(job.app) && FramePath(job) !in Ancestors(JobDir(job))
  {
    var d := JobDir(job);
    assert FramePath(job).parts[..|d.parts|] == d.parts;
    assert MatchedPath(job).parts[..|d.parts|] == d.parts;
    assert OriginalPath(job).parts[..|d.parts|] == d.parts;
    assert RawPath(job).parts[..|d.parts|] == d.parts;
    assert Path(d.parts[..|d.parts|]) == d;
    ParentOfJoin(d, "last_frame.png");
    forall q | q in Ancestors(d) ensures |q.parts| < |FramePath(job).parts| {
      var k :| 1 <= k <= |d.parts| && q == Path(d.parts[..k]);
    }
  }

  /** Analysis and the conditioning frame: report, probe the input, report, take
      its last frame into the scratch directory. */
  method Analyze(fs: FileSystem, h: Host, job: Job, sink: Sink<Progress>) returns (r: Outcome<Processor.VideoInfo>)
    requires sink.Valid()
    modifies fs, sink
    ensures sink.Valid()
    ensures sink.events == old(sink.events) + Admit(sink.limit, |old(sink.events)|, AnalyzeReports(h, job))
    ensures r == AnalyzeOutcome(h, job, old(fs.Exists(FramePath(job))), sink.limit, |old(sink.events)|)
    ensures old(fs.files) <= fs.files <= old(fs.files) + {FramePath(job)}
    ensures old(fs.dirs) <= fs.dirs
  {
    ghost var e0 := sink.events;
    var a0 := Progress("Analyzing video...", 0.0);
    var a1 := Progress("Extracting conditioning frame...", 0.05);
    var raised := sink.Emit(a0);
    var info := Processor.GetVideoInfo(h.m.ffprobe, job.input, h.m.probe);
    ghost var rest := if info.Raise? then [] else [a1];
    assert AnalyzeReports(h, job) == [a0] + rest;
    AdmitAppend(sink.limit, |e0|, [a0], rest);
    if raised {
      r := Raise(Interrupted);
    } else if info.Raise? {
      r := Raise(info.exc);
    } else {
      raised := sink.Emit(a1);
      if raised {
        r := Raise(Interrupted);
      } else {
        JobFiles(job);
        var ok := ExtractLastFrame(fs, h, job.input, FramePath(job));
        r := if ok.Raise? then Raise(ok.exc)
             else if ok.value then Return(info.value)
             else Raise(RuntimeError("Failed to extract last frame"));
      }
    }
  }

  /** Generation: report, then have a client with a 300-second timeout generate the
      continuation from the last frame, forwarding its reports through
      `ApiProgress`. */
  method Generate(h: Host, job: Job, sink: Sink<Progress>) returns (r: Outcome<bool>)
    requires sink.Valid()
    modifies sink
    ensures sink.Valid()
    ensures sink.events == old(sink.events) + Admit(sink.limit, |old(sink.events)|, GenerateReports(h, job))
    ensures r == GenerateOutcome(h, job, sink.limit, |old(sink.events)|)
  {
    ghost var e0 := sink.events;
    var a0 := Progress("Connecting to RunPod...", 0.10);
    var raised := sink.Emit(a0);
    ghost var mapped := Mapped(ClientReportsOf(h, job), ApiProgress);
    AdmitAppend(sink.limit, |e0|, [a0], mapped);
    if raised {
      r := Raise(Interrupted);
    } else {
      ghost var e1 := sink.events;
      var client := new RunPodClient.RunPodCogVideoClient(job.apiKey, job.endpointId, ClientTimeout);
      var result, calls := client.GenerateContinuation(ClientRequest(job), h.remote, true, sink, ApiProgress);
      AdmitChain(sink.limit, e0, e1, sink.events, [a0], mapped);
      if result.Raise? {
        r := Raise(result.exc);
      } else if result.value.success {
        r := Return(true);
      } else {
        r := Raise(RuntimeError("Continuation generation failed: " + MessageText(result.value.errorMessage)));
      }
    }
  }

  /** Writing the output: join the re-encoded original and the fitted clip, or copy
      the clip. */
  method WriteOutput(fs: FileSystem, h: Host, job: Job, info: Processor.VideoInfo) returns (r: Outcome<bool>)
    modifies fs
    ensures r == OutputOutcome(h, job, info)
    ensures FilesWithin(old(fs.files), fs.files, job) && FilesKept(old(fs.files), fs.files, job)
    ensures old(fs.dirs) <= fs.dirs
  {
    JobFiles(job);
    if job.options.concatenateOriginal {
      var ok, cmd := ReencodeVideo(fs, h, job.input, OriginalPath(job), Some(info.fps), None);
      if ok.Raise? {
        r := Raise(ok.exc);
      } else if !ok.value {
        r := Raise(RuntimeError("Failed to re-encode original"));
      } else {
        var joined, listing := ConcatenateVideos(fs, h, OriginalPath(job), MatchedPath(job), job.output);
        r := if joined.Raise? then Raise(joined.exc)
             else if joined.value then Return(true)
             else Raise(RuntimeError("Failed to concatenate videos"));
      }
    } else {
      var copied := h.copy(MatchedPath(job), job.output);
      if copied.Fails? {
        r := Raise(OSError);
      } else {
        fs.WriteFile(job.output);
        r := Return(true);
      }
    }
  }

  /** The output stage of `Finish`, once the clip is fitted: report, write the
      output, report completion, probe the output. */
  method Deliver(fs: FileSystem, h: Host, job: Job, info: Processor.VideoInfo, sink: Sink<Progress>)
    returns (r: Outcome<bool>)
    requires sink.Valid()
    modifies fs, sink
    ensures sink.Valid()
    ensures sink.events == old(sink.events) + Admit(sink.limit, |old(sink.events)|, DeliverReports(h, job, info))
    ensures r == DeliverOutcome(h, job, info, sink.limit, |old(sink.events)|)
    ensures FilesWithin(old(fs.files), fs.files, job) && FilesKept(old(fs.files), fs.files, job)
    ensures old(fs.dirs) <= fs.dirs
  {
    ghost var e0 := sink.events;
    var a0 := Progress(OutputLabel(job.options), 0.90);
    var done := Progress("Complete!", 1.0);
    ghost var tail := if OutputOutcome(h, job, info).Raise? then [] else [done];
    AdmitAppend(sink.limit, |e0|, [a0], tail);
    var raised := sink.Emit(a0);
    if raised {
      r := Raise(Interrupted);
    } else {
      var out := WriteOutput(fs, h, job, info);
      if out.Raise? {
        r := Raise(out.exc);
      } else {
        raised := sink.Emit(done);
        if raised {
          r := Raise(Interrupted);
        } else {
          var outInfo := Processor.GetVideoInfo(h.m.ffprobe, job.output, h.m.probe);
          r := if outInfo.Raise? then Raise(outInfo.exc) else Return(true);
        }
      }
    }
  }

  /** Fitting and output: report, re-encode the generated clip at the input's rate
      and size, then deliver. */
  method Finish(fs: FileSystem, h: Host, job: Job, info: Processor.VideoInfo, sink: Sink<Progress>)
    returns (r: Outcome<bool>)
    requires sink.Valid()
    modifies fs, sink
    ensures sink.Valid()
    ensures sink.events == old(sink.events) + Admit(sink.limit, |old(sink.events)|, FinishReports(h, job, info))
    ensures r == FinishOutcome(h, job, info, sink.limit, |old(sink.events)|)
    ensures FilesWithin(old(fs.files), fs.files, job) && FilesKept(old(fs.files), fs.files, job)
    ensures old(fs.dirs) <= fs.dirs
  {
    JobFiles(job);
    ghost var e0 := sink.events;
    var a0 := Progress("Processing continuation...", 0.80);
    ghost var rest := FinishReports(h, job, info)[1..];
    assert FinishReports(h, job, info) == [a0] + rest;
    AdmitAppend(sink.limit, |e0|, [a0], rest);
    var raised := sink.Emit(a0);
    if raised {
      r := Raise(Interrupted);
    } else {
      var matched, cmd := ReencodeVideo(fs, h, RawPath(job), MatchedPath(job), Some(info.fps), Some((info.width, info.height)));
      if matched.Raise? {
        r := Raise(matched.exc);
      } else if !matched.value {
        r := Raise(RuntimeError("Failed to re-encode continuation"));
      } else {
        ghost var e1 := sink.events;
        ghost var f1 := fs.files;
        assert |e1| == After(|e0|, 1);
        r := Deliver(fs, h, job, info, sink);
        AdmitChain(sink.limit, e0, e1, sink.events, [a0], rest);
        FilesChain(old(fs.files), f1, fs.files, job);
      }
    }
  }

  /** Analysis under a callback with a limit: when it returns, it returns what it
      would without one and the callback accepted all its reports; when only the
      limit makes it raise, it did not. */
  lemma AnalyzeLimits(h: Host, job: Job, there: bool, limit: Option<nat>, sofar: nat)
    ensures AnalyzeOutcome(h, job, there, limit, sofar).Return? ==>
      AnalyzeOutcome(h, job, there, None, 0) == AnalyzeOutcome(h, job, there, limit, sofar)
      && Fits(limit, sofar, |AnalyzeReports(h, job)|)
    ensures AnalyzeOutcome(h, job, there, limit, sofar).Raise? && AnalyzeOutcome(h, job, there, None, 0).Return? ==>
      !Fits(limit, sofar, |AnalyzeReports(h, job)|)
  {
  }

  /** The same for generation. */
  lemma GenerateLimits(h: Host, job: Job, limit: Option<nat>, sofar: nat)
    ensures GenerateOutcome(h, job, limit, sofar).Return? ==>
      Generated(h, job).success && Fits(limit, sofar, |GenerateReports(h, job)|)
    ensures GenerateOutcome(h, job, limit, sofar).Raise? && Generated(h, job).success ==>
      !Fits(limit, sofar, |GenerateReports(h, job)|)
  {
  }

  /** `continue_video` as analysis followed by the rest, given what analysis does
      under the callback (`a`) and without one (`u`). */
  lemma ContinueSplit(h: Host, job: Job, there: bool, limit: Option<nat>, sofar: nat,
                      a: Outcome<Processor.VideoInfo>, u: Outcome<Processor.VideoInfo>)
    requires a == AnalyzeOutcome(h, job, there, limit, sofar) && u == AnalyzeOutcome(h, job, there, None, 0)
    ensures ContinueOutcome(h, job, there, limit, sofar)
         == if a.Raise? then Raise(a.exc) else ProceedOutcome(h, job, a.value, limit, After(sofar, |AnalyzeReports(h, job)|))
    ensures ContinueReports(h, job, there)
         == AnalyzeReports(h, job) + if u.Raise? then [] else ProceedReports(h, job, u.value)
  {
  }

  /** Generation, then fitting and output, once the input's metadata is known. */
  method Proceed(fs: FileSystem, h: Host, job: Job, info: Processor.VideoInfo, sink: Sink<Progress>)
    returns (r: Outcome<bool>)
    requires sink.Valid()
    modifies fs, sink
    ensures sink.Valid()
    ensures sink.events == old(sink.events) + Admit(sink.limit, |old(sink.events)|, ProceedReports(h, job, info))
    ensures r == ProceedOutcome(h, job, info, sink.limit, |old(sink.events)|)
    ensures FilesWithin(old(fs.files), fs.files, job) && FilesKept(old(fs.files), fs.files, job)
    ensures old(fs.dirs) <= fs.dirs
  {
    ghost var e1 := sink.events;
    ghost var gen := GenerateReports(h, job);
    ghost var back := if Generated(h, job).success then FinishReports(h, job, info) else [];
    var ok := Generate(h, job, sink);
    GenerateLimits(h, job, sink.limit, |e1|);
    if ok.Raise? {
      r := Raise(ok.exc);
      if Generated(h, job).success {
        AdmitStopped(sink.limit, e1, sink.events, gen, back);
      } else {
        assert gen + back == gen;
      }
    } else {
      ghost var e2 := sink.events;
      assert |e2| == After(|e1|, |gen|);
      r := Finish(fs, h, job, info, sink);
      AdmitChain(sink.limit, e1, e2, sink.events, gen, back);
    }
  }

  /** The stages in order, inside the scratch directory. */
  method RunContinuation(fs: FileSystem, h: Host, job: Job, sink: Sink<Progress>) returns (r: Outcome<bool>)
    requires sink.Valid()
    modifies fs, sink
    ensures sink.Valid()
    ensures sink.events == old(sink.events)
      + Admit(sink.limit, |old(sink.events)|, ContinueReports(h, job, old(fs.Exists(FramePath(job)))))
    ensures r == ContinueOutcome(h, job, old(fs.Exists(FramePath(job))), sink.limit, |old(sink.events)|)
    ensures FilesWithin(old(fs.files), fs.files, job) && FilesKept(old(fs.files), fs.files, job)
    ensures old(fs.dirs) <= fs.dirs
  {
    ghost var there := fs.Exists(FramePath(job));
    ghost var e0 := sink.events;
    ghost var u := AnalyzeOutcome(h, job, there, None, 0);
    ghost var front := AnalyzeReports(h, job);
    ghost var after := if u.Raise? then [] else ProceedReports(h, job, u.value);
    var info := Analyze(fs, h, job, sink);
    JobFiles(job);
    assert FilesWithin(old(fs.files), fs.files, job) && FilesKept(old(fs.files), fs.files, job);
    ContinueSplit(h, job, there, sink.limit, |e0|, info, u);
    AnalyzeLimits(h, job, there, sink.limit, |e0|);
    if info.Raise? {
      r := Raise(info.exc);
      if u.Raise? {
        assert front + after == front;
      } else {
        AdmitStopped(sink.limit, e0, sink.events, front, after);
      }
    } else {
      ghost var e1 := sink.events;
      ghost var f1 := fs.files;
      assert |e1| == After(|e0|, |front|);
      r := Proceed(fs, h, job, info.value, sink);
      AdmitChain(sink.limit, e0, e1, sink.events, front, after);
      FilesChain(old(fs.files), f1, fs.files, job);
    }
  }

  /** `continue_video`: make the application's directories, run the stages in the
      job's scratch directory, and remove that directory whichever way the stages
      end. Without a callback (`hasCb` false) nothing is reported and nothing can
      interrupt the stages. */
  method ContinueVideo(fs: FileSystem, h: Host, job: Job, hasCb: bool, sink: Sink<Progress>) returns (r: Outcome<bool>)
    requires sink.Valid()
    modifies fs, sink
    ensures sink.Valid()
    ensures hasCb ==> (sink.events == old(sink.events)
      + Admit(sink.limit, |old(sink.events)|, ContinueReports(h, job, old(fs.Exists(FramePath(job))))))
    ensures !hasCb ==> sink.events == old(sink.events)
    ensures r == if hasCb then ContinueOutcome(h, job, old(fs.Exists(FramePath(job))), sink.limit, |old(sink.events)|)
                 else ContinueOutcome(h, job, old(fs.Exists(FramePath(job))), None, 0)
    ensures !fs.Exists(JobDir(job))
    ensures forall q :: q in fs.files ==> q in old(fs.files) || q == job.output
    ensures forall q :: q in old(fs.files) && !IsUnder(q, JobDir(job)) && q != ConcatListPath(job.output) ==> q in fs.files
    ensures forall q :: q in old(fs.dirs) + Config.ConfigDirs(job.app) && !IsUnder(q, JobDir(job)) ==> q in fs.dirs
  {
    JobFiles(job);
    Config.EnsureDirectories(fs, job.app);
    var cb: Sink<Progress>;
    if hasCb {
      cb := sink;
    } else {
      cb := new Sink<Progress>(None);
    }
    fs.MakeDirs(JobDir(job));
    r := RunContinuation(fs, h, job, cb);
    if fs.Exists(JobDir(job)) {
      fs.RemoveTree(JobDir(job));
    }
  }

  // ================================================================ what continue_video promises

  lemma AnalyzeClimbs(h: Host, job: Job)
    ensures Climbs(AnalyzeReports(h, job), 0.0, 0.05)
  {
  }

  /** Generation reports 0.10, then the client's reports mapped into [0.135, 0.80]. */
  lemma GenerateClimbs(h: Host, job: Job)
    ensures Climbs(GenerateReports(h, job), 0.10, 0.80)
  {
    var client := ClientReportsOf(h, job);
    RunPodClient.ClientReportsProgress(job.apiKey, job.endpointId, true, ClientRequest(job), h.remote, ClientTimeout);
    ApiProgressClimbs(client, 0.05, 1.0);
    var head := [Progress("Connecting to RunPod...", 0.10)];
    assert Climbs(head, 0.10, 0.10);
    ClimbsAppend(head, Mapped(client, ApiProgress), 0.10, 0.10, 0.10 + 0.05 * 0.70, 0.10 + 1.0 * 0.70);
  }

  lemma DeliverClimbs(h: Host, job: Job, info: Processor.VideoInfo)
    ensures Climbs(DeliverReports(h, job, info), 0.90, 1.0)
  {
    var d := DeliverReports(h, job, info);
    var p0 := Progress(OutputLabel(job.options), 0.90);
    if OutputOutcome(h, job, info).Raise? {
      assert d == [p0];
    } else {
      assert d == [p0, Progress("Complete!", 1.0)];
    }
  }

  lemma FinishClimbs(h: Host, job: Job, info: Processor.VideoInfo)
    ensures Climbs(FinishReports(h, job, info), 0.80, 1.0)
  {
    var p0 := Progress("Processing continuation...", 0.80);
    var rest := if MatchOutcome(h, job, info) != Return(true) then [] else DeliverReports(h, job, info);
    assert FinishReports(h, job, info) == [p0] + rest;
    DeliverClimbs(h, job, info);
    assert Climbs([p0], 0.80, 0.80);
    ClimbsAppend([p0], rest, 0.80, 0.80, 0.90, 1.0);
  }

  lemma ProceedClimbs(h: Host, job: Job, info: Processor.VideoInfo)
    ensures Climbs(ProceedReports(h, job, info), 0.10, 1.0)
  {
    GenerateClimbs(h, job);
    if Generated(h, job).success {
      FinishClimbs(h, job, info);
      ClimbsAppend(GenerateReports(h, job), FinishReports(h, job, info), 0.10, 0.80, 0.80, 1.0);
    } else {
      assert ProceedReports(h, job, info) == GenerateReports(h, job);
      ClimbsWiden(GenerateReports(h, job), 0.10, 0.80, 0.10, 1.0);
    }
  }

  /** The whole stream of reports, 0.0, 0.05, 0.10, the mapped client reports,
      0.80, 0.90, 1.0, never decreases and stays within [0, 1], whatever the
      outside world does. */
  lemma ContinueReportsClimb(h: Host, job: Job, there: bool)
    ensures Climbs(ContinueReports(h, job, there), 0.0, 1.0)
  {
    AnalyzeClimbs(h, job);
    match AnalyzeOutcome(h, job, there, None, 0)
    case Raise(_) =>
      assert ContinueReports(h, job, there) == AnalyzeReports(h, job);
      ClimbsWiden(AnalyzeReports(h, job), 0.0, 0.05, 0.0, 1.0);
    case Return(info) =>
      ProceedClimbs(h, job, info);
      ClimbsAppend(AnalyzeReports(h, job), ProceedReports(h, job, info), 0.0, 0.05, 0.10, 1.0);
  }

  /** `continue_video` never returns False: every failure is raised. */
  lemma ContinueNeverFalse(h: Host, job: Job, there: bool, limit: Option<nat>, sofar: nat)
    ensures ContinueOutcome(h, job, there, limit, sofar) != Return(false)
  {
  }

  /** A run that returns True delivered every report to the callback, the last
      being "Complete!" at 1.0; every step succeeded: the probe of the input, the
      last frame, the generation, the fitting, the output and the probe of the
      output. */
  lemma ContinueTrueMeans(h: Host, job: Job, there: bool, limit: Option<nat>, sofar: nat)
    requires ContinueOutcome(h, job, there, limit, sofar) == Return(true)
    ensures Fits(limit, sofar, |ContinueReports(h, job, there)|)
    ensures var rs := ContinueReports(h, job, there); |rs| > 0 && rs[|rs| - 1] == Progress("Complete!", 1.0)
    ensures ContinueOutcome(h, job, there, None, 0) == Return(true)
    ensures Processor.GetVideoInfo(h.m.ffprobe, job.input, h.m.probe).Return?
    ensures LastFrameOutcome(h, job.input, FramePath(job), there) == Return(true)
    ensures Generated(h, job).success
    ensures MatchOutcome(h, job, Processor.GetVideoInfo(h.m.ffprobe, job.input, h.m.probe).value) == Return(true)
    ensures OutputOutcome(h, job, Processor.GetVideoInfo(h.m.ffprobe, job.input, h.m.probe).value).Return?
    ensures Processor.GetVideoInfo(h.m.ffprobe, job.output, h.m.probe).Return?
  {
    AnalyzeLimits(h, job, there, limit, sofar);
    var info := AnalyzeOutcome(h, job, there, limit, sofar).value;
    var s1 := After(sofar, |AnalyzeReports(h, job)|);
    GenerateLimits(h, job, limit, s1);
    var s2 := After(s1, |GenerateReports(h, job)|);
    FinishTrueMeans(h, job, info, limit, s2);
    var a, g, f := AnalyzeReports(h, job), GenerateReports(h, job), FinishReports(h, job, info);
    assert ContinueReports(h, job, there) == a + (g + f);
  }

  /** Fitting and output that return True delivered their three reports, the last
      being "Complete!" at 1.0, and each of their steps succeeded. */
  lemma FinishTrueMeans(h: Host, job: Job, info: Processor.VideoInfo, limit: Option<nat>, sofar: nat)
    requires FinishOutcome(h, job, info, limit, sofar) == Return(true)
    ensures Fits(limit, sofar, |FinishReports(h, job, info)|)
    ensures var f := FinishReports(h, job, info); |f| > 0 && f[|f| - 1] == Progress("Complete!", 1.0)
    ensures FinishOutcome(h, job, info, None, 0) == Return(true)
    ensures MatchOutcome(h, job, info) == Return(true)
    ensures OutputOutcome(h, job, info).Return?
    ensures Processor.GetVideoInfo(h.m.ffprobe, job.output, h.m.probe).Return?
  {
    var d := DeliverReports(h, job, info);
    assert d == [d[0], Progress("Complete!", 1.0)];
    assert FinishReports(h, job, info) == [Progress("Processing continuation...", 0.80)] + d;
  }

  /** With a callback, the client's own "Complete!" at 1.0 reaches the caller as
      "Complete!" at 0.80, the last report of generation, before fitting starts. */
  lemma ClientCompletionForwarded(h: Host, job: Job)
    requires Generated(h, job).success
    ensures var g := GenerateReports(h, job); |g| > 0 && g[|g| - 1] == Progress("Complete!", 0.80)
  {
    var stop := RunPodClient.ClientStop(job.apiKey, job.endpointId, ClientRequest(job), h.remote, ClientTimeout);
    RunPodClient.ClientStopCases(job.apiKey, job.endpointId, ClientRequest(job), h.remote, ClientTimeout);
    RunPodClient.ClientReportsProgress(job.apiKey, job.endpointId, true, ClientRequest(job), h.remote, ClientTimeout);
    var client := ClientReportsOf(h, job);
    assert ApiProgress(client[|client| - 1]) == Progress("Complete!", 0.10 + 1.0 * 0.70);
  }

  /** Without a callback, once the last frame is taken, an unsuccessful generation
      raises RuntimeError carrying the client's message. */
  lemma ContinueGenerationFailure(h: Host, job: Job, there: bool)
    requires AnalyzeOutcome(h, job, there, None, 0).Return?
    requires !Generated(h, job).success
    ensures ContinueOutcome(h, job, there, None, 0)
         == Raise(RuntimeError("Continuation generation failed: " + MessageText(Generated(h, job).errorMessage)))
  {
    var info := AnalyzeOutcome(h, job, there, None, 0).value;
    var s1 := After(0, |AnalyzeReports(h, job)|);
    assert GenerateOutcome(h, job, None, s1)
        == Raise(RuntimeError("Continuation generation failed: " + MessageText(Generated(h, job).errorMessage)));
  }

  /** A missing API key is the client's first check, so its message is the one
      `generate_continuation` returns. */
  lemma MissingKeyMessage(h: Host, job: Job)
    requires job.apiKey == ""
    ensures Generated(h, job) == RunPodClient.Failure("RunPod API key is not set")
  {
    var req := ClientRequest(job);
    assert RunPodClient.ClientStop(job.apiKey, job.endpointId, req, h.remote, ClientTimeout)
        == RunPodClient.BadCredentials("RunPod API key is not set");
  }

  /** With no API key, `continue_video` (after taking the last frame) raises
      RuntimeError("Continuation generation failed: RunPod API key is not set"). */
  lemma MissingKeyFailure(h: Host, job: Job, there: bool)
    requires AnalyzeOutcome(h, job, there, None, 0).Return?
    requires job.apiKey == ""
    ensures ContinueOutcome(h, job, there, None, 0)
         == Raise(RuntimeError("Continuation generation failed: RunPod API key is not set"))
  {
    MissingKeyMessage(h, job);
    ContinueGenerationFailure(h, job, there);
    MissingKeyText();
  }

  lemma MissingKeyText()
    ensures "Continuation generation failed: " + MessageText(Some("RunPod API key is not set"))
         == "Continuation generation failed: RunPod API key is not set"
  {
  }
}

=== FILE: processor.dfy ===
/** The slow-motion pipeline: reading a video's metadata from ffprobe's JSON, the
    ffmpeg frame extraction and reassembly loops, the mapping of each stage's
    progress into one overall figure, and `process_video`, which runs analysis,
    extraction, RIFE interpolation and reassembly and always removes its two
    scratch directories. */
module Processor {
  import opened Common
  import RifeWrapper
  import Config

  // ================================================================ the machine

  /** What one ffprobe run yields: it could not be started, or it exited with
      `exitCode`, printing `stdout` (None when json.loads rejects it) and `stderr`. */
  datatype Probe = ProbeSpawnFailed | Probed(exitCode: int, stdout: Option<Json>, stderr: string)

  /** The external side of the pipeline, fixed in advance: the three binaries, what
      ffprobe and ffmpeg do for each command line, what the RIFE pass with each
      index does, how many PNG files each directory holds when it is counted, and
      Python's str() of a float. */
  datatype Machine = Machine(
    ffmpeg: Tool,
    ffprobe: Tool,
    rife: Tool,
    probe: seq<string> -> Probe,
    exec: seq<string> -> ProcessRun,
    rifeRuns: nat -> ProcessRun,
    pngs: Path -> nat,
    floatStr: real -> string)

  // ================================================================ video info

  /** The metadata of a video. `codec` is whatever the probe gave for `codec_name`. */
  datatype VideoInfo = VideoInfo(width: int, height: int, fps: real, duration: real, frameCount: int, codec: Json)

  /** `VideoInfo.resolution`. */
  function Resolution(info: VideoInfo): string {
    IntToString(info.width) + "x" + IntToString(info.height)
  }

  /** The resolution text holds one 'x', and the numbers on either side of it read
      back as the width and the height. */
  lemma ResolutionRoundTrip(info: VideoInfo)
    ensures var s := Resolution(info);
      var i := FindChar(s, 'x');
      && 0 < i && ParseInt(s[..i]) == Some(info.width) && ParseInt(s[i + 1..]) == Some(info.height)
      && FindChar(s[i + 1..], 'x') == -1
  {
    var w, h := IntToString(info.width), IntToString(info.height);
    var s := Resolution(info);
    assert s[|w|] == 'x';
    forall k | 0 <= k < |w| ensures s[k] != 'x' {
      assert s[k] == w[k];
    }
    assert FindChar(s, 'x') == |w|;
    assert s[..|w|] == w;
    assert s[|w| + 1..] == h;
    ParseIntOfIntToString(info.width);
    ParseIntOfIntToString(info.height);
  }

  /** The ffprobe command line for `video`. */
  function ProbeCommand(ffprobe: Path, video: Path): seq<string> {
    [PathText(ffprobe), "-v", "quiet", "-print_format", "json", "-show_streams", "-show_format", PathText(video)]
  }

  /** A stream record whose codec type is "video". */
  predicate IsVideo(j: Json) {
    j.JDict? && Get(j.fields, "codec_type", JNone) == JStr("video")
  }

  /** A stream record that the search passes over: a dict of another codec type. */
  predicate PassedOver(j: Json) {
    j.JDict? && !IsVideo(j)
  }

  /** The search through the stream list from item `k`: the first video stream
      wins; an item that is not a dict has no `.get` and raises. */
  function FirstVideoFrom(items: seq<Json>, k: nat): Outcome<map<string, Json>>
    decreases |items| - k
  {
    if k >= |items| then Raise(ValueError("No video stream found"))
    else if !items[k].JDict? then Raise(AttributeError)
    else if IsVideo(items[k]) then Return(items[k].fields)
    else FirstVideoFrom(items, k + 1)
  }

  /** `for stream in data.get("streams", [])`: a list yields its items, a dict its
      keys and a string its characters (neither of which has `.get`); other values
      are not iterable. */
  function FindVideoStream(streams: Json): Outcome<map<string, Json>> {
    match streams
    case JList(items) => FirstVideoFrom(items, 0)
    case JDict(fields) => if |fields| == 0 then Raise(ValueError("No video stream found")) else Raise(AttributeError)
    case JStr(s) => if |s| == 0 then Raise(ValueError("No video stream found")) else Raise(AttributeError)
    case _ => Raise(TypeError)
  }

  /** The search picks the first video stream after items it passes over, raises
      AttributeError at a non-dict item reached first, and raises "No video stream
      found" exactly when it passes over every item. */
  lemma {:induction false} FirstVideoFromSpec(items: seq<Json>, k: nat)
    requires k <= |items|
    ensures var r := FirstVideoFrom(items, k);
      && (forall i :: k <= i < |items| && IsVideo(items[i]) && (forall j :: k <= j < i ==> PassedOver(items[j]))
            ==> r == Return(items[i].fields))
      && (forall i :: k <= i < |items| && !items[i].JDict? && (forall j :: k <= j < i ==> PassedOver(items[j]))
            ==> r == Raise(AttributeError))
      && (r == Raise(ValueError("No video stream found")) <==> forall j :: k <= j < |items| ==> PassedOver(items[j]))
    decreases |items| - k
  {
    if k < |items| {
      FirstVideoFromSpec(items, k + 1);
      var r := FirstVideoFrom(items, k);
      if PassedOver(items[k]) {
        assert r == FirstVideoFrom(items, k + 1);
        forall i | k <= i < |items| && IsVideo(items[i]) && (forall j :: k <= j < i ==> PassedOver(items[j]))
          ensures r == Return(items[i].fields)
        {
          assert i != k;
        }
        forall i | k <= i < |items| && !items[i].JDict? && (forall j :: k <= j < i ==> PassedOver(items[j]))
          ensures r == Raise(AttributeError)
        {
          assert i != k;
        }
      } else {
        assert !(forall j :: k <= j < |items| ==> PassedOver(items[j]));
      }
    }
  }

  /** `"/" in x`: a substring test on a string, membership in a list, a key test on
      a dict; other values raise TypeError. */
  function HasSlash(j: Json): Outcome<bool> {
    match j
    case JStr(s) => Return(FindChar(s, '/') >= 0)
    case JList(items) => Return(JStr("/") in items)
    case JDict(fields) => Return("/" in fields)
    case _ => Raise(TypeError)
  }

  /** `str.split(c)`: the pieces between the occurrences of `c`. */
  function Split(s: string, c: char): (parts: seq<string>)
    ensures |parts| >= 1
    ensures FindChar(s, c) >= 0 ==> |parts| >= 2
    decreases |s|
  {
    var i := FindChar(s, c);
    if i < 0 then [s] else [s[..i]] + Split(s[i + 1..], c)
  }

  /** The rate assumed when a stream gives none. */
  const DefaultRate: string := "30/1"

  /** The frame rate from `r_frame_rate`: "a/b" gives a/b, or 30.0 when b is zero;
      anything without a slash goes through float(). Unpacking the split converts
      a third piece, when there is one, before it fails on too many values. */
  function ParseFps(rate: Json): Outcome<real> {
    match HasSlash(rate)
    case Raise(e) => Raise(e)
    case Return(false) => PyFloat(rate)
    case Return(true) =>
      if !rate.JStr? then Raise(AttributeError)
      else
        var parts := Split(rate.s, '/');
        match PyFloat(JStr(parts[0]))
        case Raise(e) => Raise(e)
        case Return(num) =>
          match PyFloat(JStr(parts[1]))
          case Raise(e) => Raise(e)
          case Return(den) =>
            if |parts| > 2 then
              match PyFloat(JStr(parts[2]))
              case Raise(e) => Raise(e)
              case Return(_) => Raise(ValueError("too many values to unpack (expected 2)"))
            else Return(if den != 0.0 then num / den else 30.0)
  }

  /** A run of digits holds no slash. */
  lemma NoSlashInDigits(s: string)
    requires AllDigits(s)
    ensures FindChar(s, '/') == -1
  {
    forall k | 0 <= k < |s| ensures s[k] != '/' {
      assert IsDigit(s[k]);
    }
  }

  /** Splitting at the first separator `c`, which ends the piece `a` free of it. */
  lemma SplitAt(a: string, c: char, t: string)
    requires FindChar(a, c) == -1
    ensures FindChar(a + [c] + t, c) == |a|
    ensures Split(a + [c] + t, c) == [a] + Split(t, c)
  {
    var s := a + [c] + t;
    assert s[|a|] == c;
    forall k | 0 <= k < |a| ensures s[k] != c {
      assert s[k] == a[k];
    }
    assert s[..|a|] == a && s[|a| + 1..] == t;
  }

  /** A piece ended by the only separator splits into the piece and an empty
      remainder. */
  lemma SplitLast(a: string, c: char)
    requires FindChar(a, c) == -1
    ensures Split(a + [c], c) == [a, ""]
  {
    var s := a + [c];
    assert s[|a|] == c;
    forall k | 0 <= k < |a| ensures s[k] != c {
      assert s[k] == a[k];
    }
    assert s[..|a|] == a && s[|a| + 1..] == [];
    assert Split([], c) == [""];
  }

  /** A rate "a/b" whose two pieces read as numbers. */
  lemma FpsOfTwoPieces(s: string, num: real, den: real)
    requires FindChar(s, '/') >= 0 && |Split(s, '/')| == 2
    requires PyFloat(JStr(Split(s, '/')[0])) == Return(num) && PyFloat(JStr(Split(s, '/')[1])) == Return(den)
    ensures ParseFps(JStr(s)) == Return(if den != 0.0 then num / den else 30.0)
  {
  }

  /** "a/b" with decimal numbers a and b gives a/b, and 30.0 when b is 0. */
  lemma FpsOfFraction(a: nat, b: nat)
    ensures ParseFps(JStr(NatToString(a) + "/" + NatToString(b)))
         == Return(if b == 0 then 30.0 else a as real / b as real)
  {
    var sa, sb := NatToString(a), NatToString(b);
    NoSlashInDigits(sa);
    NoSlashInDigits(sb);
    SplitAt(sa, '/', sb);
    assert Split(sb, '/') == [sb];
    ParseFloatOfNatToString(a);
    ParseFloatOfNatToString(b);
    FpsOfTwoPieces(sa + "/" + sb, a as real, b as real);
  }

  /** A rate without a slash is read as a decimal number. */
  lemma FpsOfDecimal(s: string, x: real)
    requires FindChar(s, '/') == -1 && ParseFloat(s) == Some(x)
    ensures ParseFps(JStr(s)) == Return(x)
  {
  }

  /** A rate with three pieces that read as numbers. */
  lemma FpsOfThreeNumbers(s: string)
    requires FindChar(s, '/') >= 0 && |Split(s, '/')| == 3
    requires ParseFloat(Split(s, '/')[0]).Some? && ParseFloat(Split(s, '/')[1]).Some?
    requires ParseFloat(Split(s, '/')[2]).Some?
    ensures ParseFps(JStr(s)) == Raise(ValueError("too many values to unpack (expected 2)"))
  {
  }

  lemma Regroup<T>(a: seq<T>, s: seq<T>, b: seq<T>, t: seq<T>, c: seq<T>)
    ensures a + s + b + t + c == a + s + (b + t + c)
  {
  }

  /** Three slash-separated numbers are one piece too many. */
  lemma FpsOfThreePieces(a: nat, b: nat, c: nat)
    ensures ParseFps(JStr(NatToString(a) + "/" + NatToString(b) + "/" + NatToString(c)))
         == Raise(ValueError("too many values to unpack (expected 2)"))
  {
    var sa, sb, sc := NatToString(a), NatToString(b), NatToString(c);
    NoSlashInDigits(sa);
    NoSlashInDigits(sb);
    NoSlashInDigits(sc);
    SplitAt(sb, '/', sc);
    SplitAt(sa, '/', sb + "/" + sc);
    Regroup(sa, "/", sb, "/", sc);
    assert Split(sc, '/') == [sc];
    ParseFloatOfNatToString(a);
    ParseFloatOfNatToString(b);
    ParseFloatOfNatToString(c);
    FpsOfThreeNumbers(sa + "/" + sb + "/" + sc);
  }

  /** The duration: the stream's own unless that is 0 or missing, then the
      container's, else 0. */
  function Duration(data: map<string, Json>, stream: map<string, Json>): Outcome<real> {
    match PyFloat(Get(stream, "duration", JInt(0)))
    case Raise(e) => Raise(e)
    case Return(d) =>
      if d != 0.0 then Return(d)
      else
        var format := Get(data, "format", JDict(map[]));
        if !format.JDict? then Raise(AttributeError)
        else PyFloat(Get(format.fields, "duration", JInt(0)))
  }

  /** The frame count: `nb_frames` unless that is 0 or missing, then fps * duration
      truncated toward zero. */
  function FrameCount(stream: map<string, Json>, fps: real, duration: real): Outcome<int> {
    match PyInt(Get(stream, "nb_frames", JInt(0)))
    case Raise(e) => Raise(e)
    case Return(n) => Return(if n == 0 then Trunc(fps * duration) else n)
  }

  /** The metadata in ffprobe's JSON output. */
  function InfoFromData(data: Json): Outcome<VideoInfo> {
    if !data.JDict? then Raise(AttributeError)
    else
      match FindVideoStream(Get(data.fields, "streams", JList([])))
      case Raise(e) => Raise(e)
      case Return(stream) =>
        match ParseFps(Get(stream, "r_frame_rate", JStr(DefaultRate)))
        case Raise(e) => Raise(e)
        case Return(fps) =>
          match Duration(data.fields, stream)
          case Raise(e) => Raise(e)
          case Return(duration) =>
            match FrameCount(stream, fps, duration)
            case Raise(e) => Raise(e)
            case Return(frames) =>
              match PyInt(Get(stream, "width", JInt(0)))
              case Raise(e) => Raise(e)
              case Return(width) =>
                match PyInt(Get(stream, "height", JInt(0)))
                case Raise(e) => Raise(e)
                case Return(height) =>
                  Return(VideoInfo(width, height, fps, duration, frames, Get(stream, "codec_name", JStr("unknown"))))
  }

  /** `get_video_info`: a missing ffprobe raises FileNotFoundError, a failed run
      RuntimeError with its stderr, output that is not JSON a decode error;
      otherwise the metadata of the first video stream. */
  function GetVideoInfo(ffprobe: Tool, video: Path, probe: seq<string> -> Probe): Outcome<VideoInfo> {
    if !ffprobe.present then Raise(FileNotFound("FFprobe"))
    else
      match probe(ProbeCommand(ffprobe.path, video))
      case ProbeSpawnFailed => Raise(OSError)
      case Probed(code, out, err) =>
        if code != 0 then Raise(RuntimeError("FFprobe failed: " + err))
        else if out.None? then Raise(JsonDecode)
        else InfoFromData(out.value)
  }

  /** The record of a probe whose streams are `streams`. */
  function ProbeData(streams: seq<Json>): Json {
    JDict(map["streams" := JList(streams)])
  }

  lemma FpsOfRatio(s: string, a: nat, b: nat, x: real)
    requires s == NatToString(a) + "/" + NatToString(b) && b != 0 && a as real / b as real == x
    ensures ParseFps(JStr(s)) == Return(x)
  {
    FpsOfFraction(a, b);
  }

  /** The default rate is 30 frames per second. */
  lemma DefaultFps()
    ensures ParseFps(JStr(DefaultRate)) == Return(30.0)
  {
    assert NatToString(30) == "30";
    FpsOfRatio(DefaultRate, 30, 1, 30.0);
  }

  /** The first video stream, found after streams the search passes over, that
      gives nothing but its codec type gets the defaults: 30 fps, no duration, no
      frames, 0x0, codec "unknown". */
  lemma InfoDefaults(streams: seq<Json>, i: nat)
    requires i < |streams| && IsVideo(streams[i])
    requires forall j :: 0 <= j < i ==> PassedOver(streams[j])
    requires forall key :: key in streams[i].fields ==> key == "codec_type"
    ensures InfoFromData(ProbeData(streams)) == Return(VideoInfo(0, 0, 30.0, 0.0, 0, JStr("unknown")))
  {
    InfoFromFirstVideo(streams, i);
    OnlyCodecType(streams[i].fields);
    BareStreamDefaults(ProbeData(streams), streams[i].fields);
  }

  /** A stream with nothing but its codec type has none of the other keys read. */
  lemma OnlyCodecType(stream: map<string, Json>)
    requires forall key :: key in stream ==> key == "codec_type"
    ensures "r_frame_rate" !in stream && "duration" !in stream && "nb_frames" !in stream
    ensures "width" !in stream && "height" !in stream && "codec_name" !in stream
  {
    assert "codec_name"[6] != "codec_type"[6];
  }

  /** A found stream without any of the keys read, in a record with no container
      section, gets the defaults. */
  lemma BareStreamDefaults(data: Json, stream: map<string, Json>)
    requires data.JDict? && "format" !in data.fields
    requires FindVideoStream(Get(data.fields, "streams", JList([]))) == Return(stream)
    requires "r_frame_rate" !in stream && "duration" !in stream && "nb_frames" !in stream
    requires "width" !in stream && "height" !in stream && "codec_name" !in stream
    ensures InfoFromData(data) == Return(VideoInfo(0, 0, 30.0, 0.0, 0, JStr("unknown")))
  {
    assert Get(stream, "r_frame_rate", JStr(DefaultRate)) == JStr(DefaultRate);
    DefaultFps();
    DurationFallback(data.fields, stream);
    assert FrameCount(stream, 30.0, 0.0) == Return(0);
  }

  /** Of the streams, the first video one is described, whatever follows it, once
      the search has passed over the ones before it. */
  lemma InfoFromFirstVideo(streams: seq<Json>, i: nat)
    requires i < |streams| && IsVideo(streams[i])
    requires forall j :: 0 <= j < i ==> PassedOver(streams[j])
    ensures FindVideoStream(Get(ProbeData(streams).fields, "streams", JList([]))) == Return(streams[i].fields)
  {
    FirstVideoFromSpec(streams, 0);
  }

  /** The duration falls back to the container's only when the stream's is 0 or
      missing. */
  lemma DurationFallback(data: map<string, Json>, stream: map<string, Json>)
    ensures forall d :: (PyFloat(Get(stream, "duration", JInt(0))) == Return(d) && d != 0.0)
                     ==> Duration(data, stream) == Return(d)
    ensures ("duration" !in stream && "format" in data && data["format"].JDict?)
              ==> Duration(data, stream) == PyFloat(Get(data["format"].fields, "duration", JInt(0)))
    ensures "duration" !in stream && "format" !in data ==> Duration(data, stream) == Return(0.0)
  {
  }

  /** A nonzero `nb_frames` is the frame count; otherwise the count is the whole
      number of frames that fit in the duration, for a non-negative rate. */
  lemma FrameCountFallback(stream: map<string, Json>, fps: real, duration: real)
    ensures forall n :: (PyInt(Get(stream, "nb_frames", JInt(0))) == Return(n) && n != 0)
                     ==> FrameCount(stream, fps, duration) == Return(n)
    ensures "nb_frames" !in stream && fps >= 0.0 && duration >= 0.0 ==>
      && FrameCount(stream, fps, duration).Return?
      && (var c := FrameCount(stream, fps, duration).value; 0 <= c && c as real <= fps * duration < c as real + 1.0)
  {
    if fps >= 0.0 && duration >= 0.0 {
      assert fps * duration >= 0.0;
    }
  }

  // ================================================================ ffmpeg progress lines

  const FrameTag: string := "frame="

  /** `pat` occurs in `s` at index `k`. */
  predicate OccursAt(s: string, pat: string, k: nat) {
    k + |pat| <= |s| && s[k..k + |pat|] == pat
  }

  /** str.find from `i`: the leftmost index at or after `i` where `pat` occurs, or -1. */
  function FindFrom(s: string, pat: string, i: nat): (r: int)
    ensures r == -1 || (i <= r && OccursAt(s, pat, r))
    ensures forall k :: i <= k && (r == -1 || k < r) ==> !OccursAt(s, pat, k)
    decreases |s| - i
  {
    if i + |pat| > |s| then -1
    else if OccursAt(s, pat, i) then i
    else FindFrom(s, pat, i + 1)
  }

  /** The length of the run of non-whitespace characters at the start of `s`. */
  function TokenLength(s: string): (n: nat)
    ensures n <= |s|
    ensures forall k :: 0 <= k < n ==> !IsSpace(s[k])
    ensures n == |s| || IsSpace(s[n])
  {
    if |s| == 0 || IsSpace(s[0]) then 0 else 1 + TokenLength(s[1..])
  }

  /** `s.split()[0]`: the first whitespace-separated token, None when there is none. */
  function FirstToken(s: string): Option<string> {
    var t := TrimLeft(s);
    if t == "" then None else Some(t[..TokenLength(t)])
  }

  /** The frame number one line reports: the line holds "frame=", and the first
      token between its first and second occurrence reads as an int; any other line
      is passed over. */
  function FrameReport(line: string): (r: seq<int>)
    ensures |r| <= 1
  {
    var i := FindFrom(line, FrameTag, 0);
    if i < 0 then []
    else
      var rest := line[i + |FrameTag|..];
      var j := FindFrom(rest, FrameTag, 0);
      var segment := if j < 0 then rest else rest[..j];
      match FirstToken(segment)
      case None => []
      case Some(token) =>
        match ParseInt(Strip(token))
        case Some(v) => [v]
        case None => []
  }

  /** Stripping leading whitespace passes over exactly the blanks in front. */
  lemma {:induction false} TrimLeftOfBlanks(ws: string, x: string)
    requires forall k :: 0 <= k < |ws| ==> IsSpace(ws[k])
    requires x == "" || !IsSpace(x[0])
    ensures TrimLeft(ws + x) == x
    decreases |ws|
  {
    if |ws| > 0 {
      assert (ws + x)[1..] == ws[1..] + x;
      TrimLeftOfBlanks(ws[1..], x);
    } else {
      assert ws + x == x;
    }
  }

  /** The token of `n + rest` is `n` when `n` holds no whitespace and `rest` is
      empty or starts with whitespace. */
  lemma {:induction false} TokenLengthOf(n: string, rest: string)
    requires forall k :: 0 <= k < |n| ==> !IsSpace(n[k])
    requires rest == "" || IsSpace(rest[0])
    ensures TokenLength(n + rest) == |n|
    decreases |n|
  {
    if |n| > 0 {
      assert (n + rest)[1..] == n[1..] + rest;
      TokenLengthOf(n[1..], rest);
    } else {
      assert n + rest == rest;
    }
  }

  /** No occurrence of "frame=" starts in a text without the letter 'f'. */
  lemma NoTagWithoutF(s: string, a: nat, b: nat)
    requires a <= b <= |s|
    requires forall k :: a <= k < b ==> s[k] != 'f'
    ensures forall k :: a <= k < b ==> !OccursAt(s, FrameTag, k)
  {
    forall k | a <= k < b ensures !OccursAt(s, FrameTag, k) {
      if k + |FrameTag| <= |s| {
        assert s[k..k + |FrameTag|][0] == s[k];
      }
    }
  }

  /** The first "frame=" of `pre + "frame=" + rest` is the one after `pre` when `pre`
      holds no 'f'. */
  lemma FirstTagAt(pre: string, rest: string)
    requires forall k :: 0 <= k < |pre| ==> pre[k] != 'f'
    ensures FindFrom(pre + FrameTag + rest, FrameTag, 0) == |pre|
    ensures (pre + FrameTag + rest)[|pre| + |FrameTag|..] == rest
  {
    var line := pre + FrameTag + rest;
    assert line == pre + (FrameTag + rest);
    assert OccursAt(line, FrameTag, |pre|);
    NoTagWithoutF(line, 0, |pre|);
  }

  /** The leading token of blanks, then `n`, then text starting with whitespace. */
  lemma FirstTokenOf(ws: string, n: string, post: string)
    requires forall k :: 0 <= k < |ws| ==> IsSpace(ws[k])
    requires |n| > 0 && forall k :: 0 <= k < |n| ==> !IsSpace(n[k])
    requires post == "" || IsSpace(post[0])
    ensures FirstToken(ws + n + post) == Some(n)
  {
    assert ws + n + post == ws + (n + post);
    TrimLeftOfBlanks(ws, n + post);
    TokenLengthOf(n, post);
    assert (n + post)[..|n|] == n;
  }

  /** The part of `ws + n + post` before its first "frame=", when neither `ws` nor `n`
      holds an 'f': `ws + n` and a part of `post` that is empty or starts where
      `post` does. */
  lemma SegmentOf(ws: string, n: string, post: string)
    requires forall k :: 0 <= k < |ws| ==> ws[k] != 'f'
    requires forall k :: 0 <= k < |n| ==> n[k] != 'f'
    ensures var rest := ws + n + post;
      var j := FindFrom(rest, FrameTag, 0);
      j < 0 || (|ws| + |n| <= j && rest[..j] == ws + n + post[..j - |ws| - |n|])
  {
    var rest := ws + n + post;
    forall k | 0 <= k < |ws| + |n| ensures rest[k] != 'f' {
      if k < |ws| {
        assert rest[k] == ws[k];
      } else {
        assert rest[k] == n[k - |ws|];
      }
    }
    NoTagWithoutF(rest, 0, |ws| + |n|);
    var j := FindFrom(rest, FrameTag, 0);
    if j >= 0 {
      assert rest[..j] == ws + n + post[..j - |ws| - |n|];
    }
  }

  /** A line whose first "frame=" is followed, up to the next one, by the printed
      number v reports v. */
  lemma FrameReportFrom(line: string, i: nat, v: int)
    requires FindFrom(line, FrameTag, 0) == i
    requires var rest := line[i + |FrameTag|..];
      var j := FindFrom(rest, FrameTag, 0);
      FirstToken(if j < 0 then rest else rest[..j]) == Some(IntToString(v))
    ensures FrameReport(line) == [v]
  {
    StripNoSpace(IntToString(v));
    ParseIntOfIntToString(v);
  }

  /** A progress line `pre + "frame=" + blanks + n + post`, with no 'f' before the
      tag and `post` empty or starting with whitespace, reports the number n. */
  lemma FrameReportOfLine(pre: string, ws: string, v: int, post: string)
    requires forall k :: 0 <= k < |pre| ==> pre[k] != 'f'
    requires forall k :: 0 <= k < |ws| ==> IsSpace(ws[k])
    requires post == "" || IsSpace(post[0])
    ensures FrameReport(pre + FrameTag + ws + IntToString(v) + post) == [v]
  {
    var n := IntToString(v);
    var rest := ws + n + post;
    Regroup(pre, FrameTag, ws, n, post);
    FirstTagAt(pre, rest);
    forall k | 0 <= k < |ws| ensures ws[k] != 'f' {
      assert IsSpace(ws[k]);
    }
    forall k | 0 <= k < |n| ensures n[k] != 'f' {
      assert !IsSpace(n[k]);
    }
    SegmentOf(ws, n, post);
    var j := FindFrom(rest, FrameTag, 0);
    if j < 0 {
      FirstTokenOf(ws, n, post);
    } else {
      var post' := post[..j - |ws| - |n|];
      assert post' == "" || post'[0] == post[0];
      FirstTokenOf(ws, n, post');
    }
    FrameReportFrom(pre + FrameTag + rest, |pre|, v);
  }

  /** The frame numbers the lines report, in order. */
  function FrameNumbers(lines: seq<string>): seq<int> {
    FlatMap(lines, FrameReport)
  }

  /** The callback invocations the frame numbers `vs` cause, against a fixed `total`. */
  function FrameEvents<E>(vs: seq<int>, total: int, tag: (int, int) -> E): (r: seq<E>)
    ensures |r| == |vs|
    ensures forall i {:trigger r[i]} :: 0 <= i < |vs| ==> r[i] == tag(vs[i], total)
  {
    seq(|vs|, i requires 0 <= i < |vs| => tag(vs[i], total))
  }

  lemma FrameEventsAppend<E>(a: seq<int>, b: seq<int>, total: int, tag: (int, int) -> E)
    ensures FrameEvents(a + b, total, tag) == FrameEvents(a, total, tag) + FrameEvents(b, total, tag)
  {
  }

  /** Once the callback raises on the first report of `b`, after accepting all of
      `a`, the reports of `a + b` do not fit and the callback saw exactly `a`'s. */
  lemma RaiseStopsFrames<E>(limit: Option<nat>, sofar: nat, a: seq<int>, b: seq<int>, total: int, tag: (int, int) -> E)
    requires |b| > 0 && Fits(limit, sofar, |a|) && !Fits(limit, sofar + |a|, 1)
    ensures !Fits(limit, sofar, |a + b|)
    ensures Admit(limit, sofar, FrameEvents(a + b, total, tag)) == FrameEvents(a, total, tag)
  {
    FrameEventsAppend(a, b, total, tag);
    AdmitAppend(limit, sofar, FrameEvents(a, total, tag), FrameEvents(b, total, tag));
  }

  /** One turn of the loop over ffmpeg's lines: line `i` either extends the accepted
      reports, or its first report raises and the whole run's reports do not fit. */
  lemma FramesStep<E>(limit: Option<nat>, before: seq<E>, mid: seq<E>, events: seq<E>, lines: seq<string>,
                      i: nat, total: int, tag: (int, int) -> E)
    requires i < |lines|
    requires mid == before + FrameEvents(FrameNumbers(lines[..i]), total, tag)
    requires Fits(limit, |before|, |FrameNumbers(lines[..i])|)
    requires events == mid + Admit(limit, |mid|, FrameEvents(FrameReport(lines[i]), total, tag))
    ensures Fits(limit, |mid|, |FrameReport(lines[i])|) ==>
      && events == before + FrameEvents(FrameNumbers(lines[..i + 1]), total, tag)
      && Fits(limit, |before|, |FrameNumbers(lines[..i + 1])|)
    ensures !Fits(limit, |mid|, |FrameReport(lines[i])|) ==>
      && events == before + Admit(limit, |before|, FrameEvents(FrameNumbers(lines), total, tag))
      && !Fits(limit, |before|, |FrameNumbers(lines)|)
  {
    FlatMapStep(lines, i, FrameReport);
    FrameEventsAppend(FrameNumbers(lines[..i]), FrameReport(lines[i]), total, tag);
    if !Fits(limit, |mid|, |FrameReport(lines[i])|) {
      FlatMapSplit(lines, i, FrameReport);
      RaiseStopsFrames(limit, |before|, FrameNumbers(lines[..i]), FrameReport(lines[i]) + FrameNumbers(lines[i + 1..]), total, tag);
    }
  }

  /** One line of ffmpeg's output: when it reports a frame number, invoke the
      callback with it and `total`; `raised` says the callback raised (which is not
      one of the exceptions the loop catches). */
  method ForwardFrame<E>(line: string, total: int, sink: Sink<E>, tag: (int, int) -> E) returns (raised: bool)
    requires sink.Valid()
    modifies sink
    ensures sink.Valid()
    ensures sink.events == old(sink.events) + Admit(sink.limit, |old(sink.events)|, FrameEvents(FrameReport(line), total, tag))
    ensures raised <==> !Fits(sink.limit, |old(sink.events)|, |FrameReport(line)|)
  {
    raised := false;
    var i := FindFrom(line, FrameTag, 0);
    if i >= 0 {
      var rest := line[i + |FrameTag|..];
      var j := FindFrom(rest, FrameTag, 0);
      var segment := if j < 0 then rest else rest[..j];
      var token := FirstToken(segment);
      if token.Some? {
        var v := ParseInt(Strip(token.value));
        if v.Some? {
          raised := sink.Emit(tag(v.value, total));
        }
      }
    }
  }

  /** The loop over ffmpeg's output lines, up to the first callback that raises. */
  method ForwardFrames<E>(lines: seq<string>, total: int, sink: Sink<E>, tag: (int, int) -> E) returns (raised: bool)
    requires sink.Valid()
    modifies sink
    ensures sink.Valid()
    ensures sink.events == old(sink.events) + Admit(sink.limit, |old(sink.events)|, FrameEvents(FrameNumbers(lines), total, tag))
    ensures raised <==> !Fits(sink.limit, |old(sink.events)|, |FrameNumbers(lines)|)
  {
    ghost var before := sink.events;
    var i := 0;
    while i < |lines|
      modifies sink
      invariant 0 <= i <= |lines|
      invariant sink.Valid()
      invariant sink.events == before + FrameEvents(FrameNumbers(lines[..i]), total, tag)
      invariant Fits(sink.limit, |before|, |FrameNumbers(lines[..i])|)
    {
      ghost var mid := sink.events;
      raised := ForwardFrame(lines[i], total, sink, tag);
      FramesStep(sink.limit, before, mid, sink.events, lines, i, total, tag);
      if raised {
        return;
      }
      i := i + 1;
    }
    assert lines[..i] == lines;
    raised := false;
  }

  // ================================================================ monitored ffmpeg runs

  /** The frame numbers a run reports (none when it never starts). */
  function RunNumbers(run: ProcessRun): seq<int> {
    if run.SpawnFailed? then [] else FrameNumbers(run.lines)
  }

  /** How a monitored run ends, the callback having accepted `sofar` invocations of
      at most `limit`: it could not be started, the callback raised, or it exited
      with a status. */
  function Monitored(run: ProcessRun, limit: Option<nat>, sofar: nat): Outcome<int> {
    match run
    case SpawnFailed => Raise(OSError)
    case Ran(lines, code) => if !Fits(limit, sofar, |FrameNumbers(lines)|) then Raise(Interrupted) else Return(code)
  }

  /** A run ends with its exit status exactly when it started and the callback
      accepted every report; the callback raising is the only interruption. */
  lemma MonitoredMeans(run: ProcessRun, limit: Option<nat>, sofar: nat)
    ensures Monitored(run, limit, sofar).Return?
        <==> run.Ran? && Fits(limit, sofar, |RunNumbers(run)|)
    ensures Monitored(run, limit, sofar).Return? ==> Monitored(run, limit, sofar).value == run.exitCode
    ensures Monitored(run, limit, sofar) == Raise(Interrupted) <==> run.Ran? && !Fits(limit, sofar, |RunNumbers(run)|)
  {
  }

  /** Start a process and read its output, reporting each frame number against
      `total`; the exit status when it ran to the end. */
  method MonitorRun<E>(run: ProcessRun, total: int, sink: Sink<E>, tag: (int, int) -> E) returns (r: Outcome<int>)
    requires sink.Valid()
    modifies sink
    ensures sink.Valid()
    ensures sink.events == old(sink.events) + Admit(sink.limit, |old(sink.events)|, FrameEvents(RunNumbers(run), total, tag))
    ensures r == Monitored(run, sink.limit, |old(sink.events)|)
  {
    if run.SpawnFailed? {
      return Raise(OSError);
    }
    var raised := ForwardFrames(run.lines, total, sink, tag);
    if raised {
      return Raise(Interrupted);
    }
    r := Return(run.exitCode);
  }

  // ================================================================ extraction

  /** The ffmpeg command that writes every frame of `video` into `outputDir`. */
  function ExtractCommand(ffmpeg: Path, video: Path, outputDir: Path): seq<string> {
    [PathText(ffmpeg), "-i", PathText(video), "-vsync", "0", "-q:v", "2", PathText(Join(outputDir, "%08d.png"))]
  }

  /** What `extract_frames` knows before it starts ffmpeg: that ffmpeg exists, and the
      video's metadata. */
  function ExtractInfo(m: Machine, video: Path): Outcome<VideoInfo> {
    if !m.ffmpeg.present then Raise(FileNotFound("FFmpeg")) else GetVideoInfo(m.ffprobe, video, m.probe)
  }

  /** The extraction run. */
  function ExtractRun(m: Machine, video: Path, outputDir: Path): ProcessRun {
    m.exec(ExtractCommand(m.ffmpeg.path, video, outputDir))
  }

  /** The callback invocations of `extract_frames` when none raises: each reported
      frame number against the probed frame count. */
  function ExtractEvents<E>(m: Machine, video: Path, outputDir: Path, tag: (int, int) -> E): seq<E> {
    var info := ExtractInfo(m, video);
    if info.Raise? then [] else FrameEvents(RunNumbers(ExtractRun(m, video, outputDir)), info.value.frameCount, tag)
  }

  /** What `extract_frames` returns or raises, the callback having accepted `sofar`
      invocations of at most `limit`. */
  function ExtractOutcome(m: Machine, video: Path, outputDir: Path, limit: Option<nat>, sofar: nat): Outcome<nat> {
    match ExtractInfo(m, video)
    case Raise(e) => Raise(e)
    case Return(_) =>
      match Monitored(ExtractRun(m, video, outputDir), limit, sofar)
      case Raise(e) => Raise(e)
      case Return(code) =>
        if code != 0 then Raise(RuntimeError("FFmpeg frame extraction failed")) else Return(m.pngs(outputDir))
  }

  /** The extraction runs to completion when nothing raises. */
  predicate ExtractSucceeds(m: Machine, video: Path, outputDir: Path) {
    ExtractInfo(m, video).Return?
    && var run := ExtractRun(m, video, outputDir);
       run.Ran? && run.exitCode == 0
  }

  /** The extraction returns exactly when it succeeds and the callback accepts all
      of its reports, and then gives the number of PNG files in the output
      directory; once the metadata is known, a callback that raises interrupts it. */
  lemma ExtractOutcomeMeans<E>(m: Machine, video: Path, outputDir: Path, tag: (int, int) -> E, limit: Option<nat>, sofar: nat)
    ensures var r := ExtractOutcome(m, video, outputDir, limit, sofar);
      var n := |ExtractEvents(m, video, outputDir, tag)|;
      && (r.Return? <==> ExtractSucceeds(m, video, outputDir) && Fits(limit, sofar, n))
      && (r.Return? ==> r.value == m.pngs(outputDir))
      && ((ExtractInfo(m, video).Return? && ExtractRun(m, video, outputDir).Ran? && !Fits(limit, sofar, n))
          ==> r == Raise(Interrupted))
  {
    MonitoredMeans(ExtractRun(m, video, outputDir), limit, sofar);
  }

  /** `extract_frames`: check for ffmpeg, probe the video for its frame count, make
      the output directory, run ffmpeg and report every frame number it prints;
      a failed run raises, a successful one gives the number of PNG files written. */
  method ExtractFrames<E>(fs: FileSystem, m: Machine, video: Path, outputDir: Path, sink: Sink<E>, tag: (int, int) -> E)
    returns (r: Outcome<nat>, cmd: seq<string>)
    requires sink.Valid()
    modifies fs, sink
    ensures sink.Valid()
    ensures sink.events == old(sink.events) + Admit(sink.limit, |old(sink.events)|, ExtractEvents(m, video, outputDir, tag))
    ensures r == ExtractOutcome(m, video, outputDir, sink.limit, |old(sink.events)|)
    ensures fs.dirs == old(fs.dirs) + (if ExtractInfo(m, video).Return? then Ancestors(outputDir) else {})
    ensures fs.files == old(fs.files)
    ensures ExtractInfo(m, video).Return? ==> cmd == ExtractCommand(m.ffmpeg.path, video, outputDir)
  {
    cmd := [];
    if !m.ffmpeg.present {
      return Raise(FileNotFound("FFmpeg")), cmd;
    }
    var info := GetVideoInfo(m.ffprobe, video, m.probe);
    if info.Raise? {
      return Raise(info.exc), cmd;
    }
    var total := info.value.frameCount;
    fs.MakeDirs(outputDir);
    cmd := [PathText(m.ffmpeg.path), "-i", PathText(video), "-vsync", "0", "-q:v", "2", PathText(Join(outputDir, "%08d.png"))];
    var status := MonitorRun(m.exec(cmd), total, sink, tag);
    if status.Raise? {
      return Raise(status.exc), cmd;
    }
    if status.value != 0 {
      return Raise(RuntimeError("FFmpeg frame extraction failed")), cmd;
    }
    r := Return(m.pngs(outputDir));
  }

  // ================================================================ reassembly

  /** The ffmpeg command that encodes the frames of `framesDir` into `output`. */
  function ReassembleCommand(ffmpeg: Path, framesDir: Path, output: Path, fps: real, quality: int,
                             floatStr: real -> string): seq<string>
  {
    [PathText(ffmpeg), "-y", "-framerate", floatStr(fps), "-i", PathText(Join(framesDir, "%08d.png")),
     "-c:v", "libx264", "-preset", "medium", "-crf", IntToString(quality), "-pix_fmt", "yuv420p", PathText(output)]
  }

  /** The command reads the numbered frames at `fps`, sets the quality, and ends with
      the output file. */
  lemma ReassembleCommandShape(ffmpeg: Path, framesDir: Path, output: Path, fps: real, quality: int,
                               floatStr: real -> string)
    ensures var cmd := ReassembleCommand(ffmpeg, framesDir, output, fps, quality, floatStr);
      && |cmd| == 15
      && cmd[2] == "-framerate" && cmd[3] == floatStr(fps)
      && cmd[4] == "-i" && cmd[5] == PathText(Join(framesDir, "%08d.png"))
      && cmd[10] == "-crf" && ParseInt(cmd[11]) == Some(quality)
      && cmd[14] == PathText(output)
  {
    ParseIntOfIntToString(quality);
  }

  /** The reassembly run, at the default quality 18. */
  function EncodeRun(m: Machine, framesDir: Path, output: Path, fps: real): ProcessRun {
    m.exec(ReassembleCommand(m.ffmpeg.path, framesDir, output, fps, 18, m.floatStr))
  }

  /** The callback invocations of `reassemble_video` when none raises: each reported
      frame number against the number of frames in `framesDir`. */
  function EncodeEvents<E>(m: Machine, framesDir: Path, output: Path, fps: real, tag: (int, int) -> E): seq<E> {
    if !m.ffmpeg.present then [] else FrameEvents(RunNumbers(EncodeRun(m, framesDir, output, fps)), m.pngs(framesDir), tag)
  }

  /** What `reassemble_video` returns or raises. */
  function EncodeOutcome(m: Machine, framesDir: Path, output: Path, fps: real, limit: Option<nat>, sofar: nat)
    : Outcome<bool>
  {
    if !m.ffmpeg.present then Raise(FileNotFound("FFmpeg"))
    else
      match Monitored(EncodeRun(m, framesDir, output, fps), limit, sofar)
      case Raise(e) => Raise(e)
      case Return(code) => Return(code == 0)
  }

  /** The reassembly run exits with 0 when nothing raises. */
  predicate EncodeSucceeds(m: Machine, framesDir: Path, output: Path, fps: real) {
    m.ffmpeg.present
    && var run := EncodeRun(m, framesDir, output, fps);
       run.Ran? && run.exitCode == 0
  }

  /** The reassembly reports True exactly when ffmpeg exits with 0 and the callback
      accepts every report, and False (never an exception) when ffmpeg ran to a
      nonzero exit; a callback that raises interrupts it. */
  lemma EncodeOutcomeMeans<E>(m: Machine, framesDir: Path, output: Path, fps: real, tag: (int, int) -> E,
                              limit: Option<nat>, sofar: nat)
    ensures var r := EncodeOutcome(m, framesDir, output, fps, limit, sofar);
      var n := |EncodeEvents(m, framesDir, output, fps, tag)|;
      && (r == Return(true) <==> EncodeSucceeds(m, framesDir, output, fps) && Fits(limit, sofar, n))
      && (r == Return(false) <==> m.ffmpeg.present && EncodeRun(m, framesDir, output, fps).Ran?
                                  && !EncodeSucceeds(m, framesDir, output, fps) && Fits(limit, sofar, n))
      && (r == Raise(Interrupted) <==> m.ffmpeg.present && EncodeRun(m, framesDir, output, fps).Ran? && !Fits(limit, sofar, n))
  {
    MonitoredMeans(EncodeRun(m, framesDir, output, fps), limit, sofar);
  }

  /** `reassemble_video` at the default quality 18: check for ffmpeg, count the
      frames, make the output's directory, run ffmpeg and report every frame number
      it prints; the result is whether ffmpeg exited with 0. */
  method ReassembleVideo<E>(fs: FileSystem, m: Machine, framesDir: Path, output: Path, fps: real,
                            sink: Sink<E>, tag: (int, int) -> E)
    returns (r: Outcome<bool>, cmd: seq<string>)
    requires sink.Valid()
    modifies fs, sink
    ensures sink.Valid()
    ensures sink.events == old(sink.events) + Admit(sink.limit, |old(sink.events)|, EncodeEvents(m, framesDir, output, fps, tag))
    ensures r == EncodeOutcome(m, framesDir, output, fps, sink.limit, |old(sink.events)|)
    ensures fs.dirs == old(fs.dirs) + (if m.ffmpeg.present then Ancestors(Parent(output)) else {})
    ensures fs.files == old(fs.files)
    ensures m.ffmpeg.present ==> cmd == ReassembleCommand(m.ffmpeg.path, framesDir, output, fps, 18, m.floatStr)
  {
    cmd := [];
    if !m.ffmpeg.present {
      return Raise(FileNotFound("FFmpeg")), cmd;
    }
    var total := m.pngs(framesDir);
    fs.MakeDirs(Parent(output));
    var quality := 18;
    cmd := [PathText(m.ffmpeg.path), "-y", "-framerate", m.floatStr(fps), "-i", PathText(Join(framesDir, "%08d.png")),
            "-c:v", "libx264", "-preset", "medium", "-crf", IntToString(quality), "-pix_fmt", "yuv420p", PathText(output)];
    var status := MonitorRun(m.exec(cmd), total, sink, tag);
    if status.Raise? {
      return Raise(status.exc), cmd;
    }
    r := Return(status.value == 0);
  }

  // ================================================================ overall progress

  /** `current / max(total, 1)`. */
  function Ratio(current: int, total: int): real {
    current as real / (if total > 1 then total else 1) as real
  }

  /** Python's `int.bit_length()`. */
  function BitLength(m: int): nat {
    if m < 0 then Bits(-m) else Bits(m)
  }

  /** The number of binary digits of `n`. */
  function Bits(n: nat): nat {
    if n == 0 then 0 else 1 + Bits(n / 2)
  }

  /** For a positive multiplier the bit length is one more than the number of
      passes the scheduler runs. */
  lemma {:induction false} BitLengthPasses(m: int)
    requires m >= 1
    ensures BitLength(m) == RifeWrapper.FloorLog2(m) + 1
  {
    if m > 1 {
      BitLengthPasses(m / 2);
      assert Bits(m) == 1 + Bits(m / 2);
    }
  }

  /** The report of extracted frame `current` of `total`: 5% to 30%. */
  function ExtractProgress(current: int, total: int): Progress {
    Progress("Extracting frame " + IntToString(current) + "/" + IntToString(total), 0.05 + Ratio(current, total) * 0.25)
  }

  /** The share of pass `pass` in the interpolation stage. */
  function PassShare(multiplier: int, pass: int): real {
    var d := BitLength(multiplier) - 1;
    pass as real / (if d > 1 then d else 1) as real
  }

  /** The report of frame `current` of `total` in RIFE pass `pass`: 30% to 90%. */
  function RifeProgress(multiplier: int, pass: int, current: int, total: int): Progress {
    Progress("RIFE pass " + IntToString(pass) + ": " + IntToString(current) + "/" + IntToString(total),
             0.30 + 0.60 * (PassShare(multiplier, pass) * 0.5 + Ratio(current, total) * 0.5))
  }

  /** The report of encoded frame `current` of `total`: 90% to 100%. */
  function EncodeProgress(current: int, total: int): Progress {
    Progress("Encoding frame " + IntToString(current) + "/" + IntToString(total), 0.90 + Ratio(current, total) * 0.10)
  }

  function ExtractTag(): (int, int) -> Progress {
    (current: int, total: int) => ExtractProgress(current, total)
  }

  function RifeTag(multiplier: int): (int, int, int) -> Progress {
    (pass: int, current: int, total: int) => RifeProgress(multiplier, pass, current, total)
  }

  function EncodeTag(): (int, int) -> Progress {
    (current: int, total: int) => EncodeProgress(current, total)
  }

  /** A frame within its total is a fraction between 0 and 1, and the last frame
      of a non-empty total is all of it. */
  lemma RatioBounds(current: int, total: int)
    requires 0 <= current <= total
    ensures 0.0 <= Ratio(current, total) <= 1.0
    ensures current == total > 0 ==> Ratio(current, total) == 1.0
  {
    Fraction(current as real, (if total > 1 then total else 1) as real);
  }

  /** a / b lies in [0, 1] when 0 <= a <= b, and is 1 when a == b. */
  lemma Fraction(a: real, b: real)
    requires 0.0 <= a <= b && b > 0.0
    ensures 0.0 <= a / b <= 1.0
    ensures a == b ==> a / b == 1.0
    ensures a > 0.0 ==> a / b > 0.0
  {
    var r := a / b;
    assert r * b == a;
    assert a > 0.0 ==> r != 0.0;
  }

  /** A frame report within its total lands in its stage's band, the last frame at
      the top of it. */
  lemma FrameBands(current: int, total: int)
    requires 0 <= current <= total
    ensures 0.05 <= ExtractProgress(current, total).value <= 0.30
    ensures 0.90 <= EncodeProgress(current, total).value <= 1.0
    ensures current == total > 0 ==> ExtractProgress(current, total).value == 0.30
    ensures current == total > 0 ==> EncodeProgress(current, total).value == 1.0
  {
    RatioBounds(current, total);
  }

  /** A report of a pass the scheduler runs, with its frame within its total,
      lies strictly above 30% and at most at 90%. */
  lemma RifeBand(multiplier: int, pass: int, current: int, total: int)
    requires multiplier >= 2
    requires 1 <= pass <= RifeWrapper.FloorLog2(multiplier)
    requires 0 <= current <= total
    ensures 0.30 < RifeProgress(multiplier, pass, current, total).value <= 0.90
  {
    PassShareBounds(multiplier, pass);
    RatioBounds(current, total);
    Blend(PassShare(multiplier, pass), Ratio(current, total));
  }

  /** A pass the scheduler runs has a positive share of at most 1. */
  lemma PassShareBounds(multiplier: int, pass: int)
    requires multiplier >= 2
    requires 1 <= pass <= RifeWrapper.FloorLog2(multiplier)
    ensures 0.0 < PassShare(multiplier, pass) <= 1.0
  {
    BitLengthPasses(multiplier);
    var d := BitLength(multiplier) - 1;
    assert PassShare(multiplier, pass) == pass as real / d as real;
    Fraction(pass as real, d as real);
  }

  /** Half of a positive share plus half of a ratio in [0, 1], mapped onto the
      band from 30% to 90%. */
  lemma Blend(share: real, ratio: real)
    requires 0.0 < share <= 1.0 && 0.0 <= ratio <= 1.0
    ensures 0.30 < 0.30 + 0.60 * (share * 0.5 + ratio * 0.5) <= 0.90
  {
  }

  /** The overall figure is not monotone within the interpolation stage: with
      multiplier 4 the last frame of pass 1 reports 75% and the first frame of
      pass 2 reports 60%. */
  lemma RifeProgressFallsBetweenPasses()
    ensures RifeProgress(4, 1, 1, 1).value == 0.75
    ensures RifeProgress(4, 2, 0, 1).value == 0.60
  {
    assert BitLength(4) == 3 by {
      assert Bits(1) == 1;
      assert Bits(2) == 2;
    }
  }

  // ================================================================ process_video

  /** One call of `process_video`: the application directory, the input and output
      videos, and the interpolation settings. */
  datatype Job = Job(app: Path, input: Path, output: Path, multiplier: int, model: string, gpuId: int)

  /** The scratch directories of a job, named after the input's stem. */
  function InputFrames(job: Job): Path { Join(Config.TempDir(job.app), Stem(job.input) + "_input") }

  function OutputFrames(job: Job): Path { Join(Config.TempDir(job.app), Stem(job.input) + "_output") }

  /** Analysis and extraction: the callback invocations when none raises. */
  function FrontReports(m: Machine, job: Job): seq<Progress> {
    [Progress("Analyzing video...", 0.0)]
    + (if GetVideoInfo(m.ffprobe, job.input, m.probe).Raise? then []
       else [Progress("Extracting frames...", 0.05)] + ExtractEvents(m, job.input, InputFrames(job), ExtractTag()))
  }

  /** Analysis and extraction: the metadata of the input, or what is raised. */
  function FrontOutcome(m: Machine, job: Job, limit: Option<nat>, sofar: nat): Outcome<VideoInfo> {
    if !Fits(limit, sofar, 1) then Raise(Interrupted)
    else
      match GetVideoInfo(m.ffprobe, job.input, m.probe)
      case Raise(e) => Raise(e)
      case Return(info) =>
        if !Fits(limit, sofar + 1, 1) then Raise(Interrupted)
        else
          match ExtractOutcome(m, job.input, InputFrames(job), limit, sofar + 2)
          case Raise(e) => Raise(e)
          case Return(_) => Return(info)
  }

  /** Interpolation: the callback invocations when none raises. */
  function RifeReports(m: Machine, job: Job): seq<Progress> {
    [Progress("Running RIFE interpolation...", 0.30)]
    + RifeWrapper.MultiPassReports(m.rife, job.multiplier, m.rifeRuns, RifeTag(job.multiplier))
  }

  /** Interpolation: a scheduler that reports False becomes a RuntimeError. */
  function RifeOutcome(m: Machine, job: Job, limit: Option<nat>, sofar: nat): Outcome<bool> {
    if !Fits(limit, sofar, 1) then Raise(Interrupted)
    else
      match RifeWrapper.MultiPassOutcome(m.rife, job.multiplier, m.rifeRuns, RifeTag(job.multiplier), limit, sofar + 1)
      case Raise(e) => Raise(e)
      case Return(ok) => if ok then Return(true) else Raise(RuntimeError("RIFE interpolation failed"))
  }

  /** Reassembly at the input's frame rate: the callback invocations when none
      raises, ending with "Complete!" when the encoder succeeds. */
  function BackReports(m: Machine, job: Job, fps: real): seq<Progress> {
    [Progress("Creating output video...", 0.90)]
    + EncodeEvents(m, OutputFrames(job), job.output, fps, EncodeTag())
    + (if EncodeSucceeds(m, OutputFrames(job), job.output, fps) then [Progress("Complete!", 1.0)] else [])
  }

  /** Reassembly: False from the encoder becomes a RuntimeError; afterwards the
      output is probed, which may raise. */
  function BackOutcome(m: Machine, job: Job, fps: real, limit: Option<nat>, sofar: nat): Outcome<bool> {
    if !Fits(limit, sofar, 1) then Raise(Interrupted)
    else
      match EncodeOutcome(m, OutputFrames(job), job.output, fps, limit, sofar + 1)
      case Raise(e) => Raise(e)
      case Return(ok) =>
        if !ok then Raise(RuntimeError("Video reassembly failed"))
        else if !Fits(limit, sofar + 1 + |EncodeEvents(m, OutputFrames(job), job.output, fps, EncodeTag())|, 1) then
          Raise(Interrupted)
        else
          match GetVideoInfo(m.ffprobe, job.output, m.probe)
          case Raise(e) => Raise(e)
          case Return(_) => Return(true)
  }

  /** Interpolation and reassembly at `fps`: the callback invocations when none
      raises. */
  function TailReports(m: Machine, job: Job, fps: real): seq<Progress> {
    RifeReports(m, job) + (if RifeOutcome(m, job, None, 0).Raise? then [] else BackReports(m, job, fps))
  }

  /** Interpolation and reassembly at `fps`: what is returned or raised. */
  function TailOutcome(m: Machine, job: Job, fps: real, limit: Option<nat>, sofar: nat): Outcome<bool> {
    match RifeOutcome(m, job, limit, sofar)
    case Raise(e) => Raise(e)
    case Return(_) => BackOutcome(m, job, fps, limit, After(sofar, |RifeReports(m, job)|))
  }

  /** All callback invocations of `process_video` when none raises. */
  function ProcessReports(m: Machine, job: Job): seq<Progress> {
    FrontReports(m, job)
    + match FrontOutcome(m, job, None, 0)
      case Raise(_) => []
      case Return(info) => TailReports(m, job, info.fps)
  }

  /** What `process_video` returns or raises, the callback having accepted `sofar`
      invocations of at most `limit`. */
  function ProcessOutcome(m: Machine, job: Job, limit: Option<nat>, sofar: nat): Outcome<bool> {
    match FrontOutcome(m, job, limit, sofar)
    case Raise(e) => Raise(e)
    case Return(info) => TailOutcome(m, job, info.fps, limit, After(sofar, |FrontReports(m, job)|))
  }

  /** The files of `after` were all in `before`, and whatever lay outside the
      application's scratch directory, file or directory, is still there. */
  ghost predicate KeepsOutsideTemp(before: set<Path>, after: set<Path>, beforeDirs: set<Path>, afterDirs: set<Path>, app: Path) {
    && (forall q :: q in after ==> q in before)
    && (forall q :: q in before && !IsUnder(q, Config.TempDir(app)) ==> q in after)
    && (forall q :: q in beforeDirs && !IsUnder(q, Config.TempDir(app)) ==> q in afterDirs)
  }

  lemma KeepsOutsideTempChain(f0: set<Path>, f1: set<Path>, f2: set<Path>, d0: set<Path>, d1: set<Path>, d2: set<Path>, app: Path)
    requires KeepsOutsideTemp(f0, f1, d0, d1, app) && KeepsOutsideTemp(f1, f2, d1, d2, app)
    ensures KeepsOutsideTemp(f0, f2, d0, d2, app)
  {
  }

  /** The scratch directories of the interpolation passes of a job lie in the
      application's scratch directory, next to the job's own. */
  lemma PassDirsInTemp(job: Job, c: nat, q: Path)
    requires RifeWrapper.UnderSome(q, RifeWrapper.TempDirs(OutputFrames(job), c))
    ensures IsUnder(q, Config.TempDir(job.app))
  {
    var j :| 0 <= j < c && IsUnder(q, RifeWrapper.TempDirs(OutputFrames(job), c)[j]);
    RifeWrapper.TempDirsAt(OutputFrames(job), c, j);
    ParentOfJoin(Config.TempDir(job.app), Stem(job.input) + "_output");
    var t := RifeWrapper.TempPassDir(OutputFrames(job), j);
    assert t.parts[..|Config.TempDir(job.app).parts|] == Config.TempDir(job.app).parts;
  }

  /** Analysis and extraction under a callback with a limit: when they return,
      they return what they would without one and the callback accepted all
      their reports; when only the limit makes them raise, it did not. */
  lemma FrontLimits(m: Machine, job: Job, limit: Option<nat>, sofar: nat)
    ensures FrontOutcome(m, job, limit, sofar).Return? ==>
      FrontOutcome(m, job, None, 0) == FrontOutcome(m, job, limit, sofar) && Fits(limit, sofar, |FrontReports(m, job)|)
    ensures FrontOutcome(m, job, limit, sofar).Raise? && FrontOutcome(m, job, None, 0).Return? ==>
      !Fits(limit, sofar, |FrontReports(m, job)|)
  {
    ExtractOutcomeMeans(m, job.input, InputFrames(job), ExtractTag(), limit, sofar + 2);
    ExtractOutcomeMeans(m, job.input, InputFrames(job), ExtractTag(), None, 2);
  }

  /** The same for interpolation. */
  lemma RifeLimits(m: Machine, job: Job, limit: Option<nat>, sofar: nat)
    ensures RifeOutcome(m, job, limit, sofar).Return? ==>
      RifeOutcome(m, job, None, 0).Return? && Fits(limit, sofar, |RifeReports(m, job)|)
    ensures RifeOutcome(m, job, limit, sofar).Raise? && RifeOutcome(m, job, None, 0).Return? ==>
      !Fits(limit, sofar, |RifeReports(m, job)|)
  {
  }

  /** Analysis and extraction: report, probe the input, report, extract its frames. */
  method Front(fs: FileSystem, m: Machine, job: Job, sink: Sink<Progress>) returns (r: Outcome<VideoInfo>)
    requires sink.Valid()
    modifies fs, sink
    ensures sink.Valid()
    ensures sink.events == old(sink.events) + Admit(sink.limit, |old(sink.events)|, FrontReports(m, job))
    ensures r == FrontOutcome(m, job, sink.limit, |old(sink.events)|)
    ensures fs.files == old(fs.files)
    ensures old(fs.dirs) <= fs.dirs <= old(fs.dirs) + Ancestors(InputFrames(job))
  {
    ghost var e0 := sink.events;
    var a0 := Progress("Analyzing video...", 0.0);
    var raised := sink.Emit(a0);
    var info := GetVideoInfo(m.ffprobe, job.input, m.probe);
    ghost var rest := if info.Raise? then [] else [Progress("Extracting frames...", 0.05)] + ExtractEvents(m, job.input, InputFrames(job), ExtractTag());
    FrontUnfold(m, job, sink.limit, |e0|);
    AdmitAppend(sink.limit, |e0|, [a0], rest);
    if raised {
      r := Raise(Interrupted);
    } else if info.Raise? {
      r := info;
    } else {
      assert sink.events == e0 + [a0];
      r := Extract(fs, m, job, info.value, sink);
      AdmitChain(sink.limit, e0, e0 + [a0], sink.events, [a0], rest);
    }
  }

  /** `FrontReports` and `FrontOutcome` split after the first report. */
  lemma FrontUnfold(m: Machine, job: Job, limit: Option<nat>, sofar: nat)
    ensures var info := GetVideoInfo(m.ffprobe, job.input, m.probe);
      FrontReports(m, job)
      == [Progress("Analyzing video...", 0.0)]
         + if info.Raise? then [] else [Progress("Extracting frames...", 0.05)] + ExtractEvents(m, job.input, InputFrames(job), ExtractTag())
    ensures var info := GetVideoInfo(m.ffprobe, job.input, m.probe);
      FrontOutcome(m, job, limit, sofar)
      == if !Fits(limit, sofar, 1) then Raise(Interrupted)
         else if info.Raise? then Raise(info.exc)
         else if !Fits(limit, sofar + 1, 1) then Raise(Interrupted)
         else match ExtractOutcome(m, job.input, InputFrames(job), limit, sofar + 2)
              case Raise(e) => Raise(e)
              case Return(_) => Return(info.value)
  {
  }

  /** The extraction stage of `Front`, once the input's metadata `info` is known. */
  method Extract(fs: FileSystem, m: Machine, job: Job, info: VideoInfo, sink: Sink<Progress>) returns (r: Outcome<VideoInfo>)
    requires sink.Valid()
    modifies fs, sink
    ensures sink.Valid()
    ensures sink.events == old(sink.events)
      + Admit(sink.limit, |old(sink.events)|, [Progress("Extracting frames...", 0.05)] + ExtractEvents(m, job.input, InputFrames(job), ExtractTag()))
    ensures r == if !Fits(sink.limit, |old(sink.events)|, 1) then Raise(Interrupted)
                 else match ExtractOutcome(m, job.input, InputFrames(job), sink.limit, |old(sink.events)| + 1)
                      case Raise(e) => Raise(e)
                      case Return(_) => Return(info)
    ensures fs.files == old(fs.files)
    ensures old(fs.dirs) <= fs.dirs <= old(fs.dirs) + Ancestors(InputFrames(job))
  {
    ghost var e1 := sink.events;
    var a1 := Progress("Extracting frames...", 0.05);
    var raised := sink.Emit(a1);
    ghost var ext := ExtractEvents(m, job.input, InputFrames(job), ExtractTag());
    AdmitAppend(sink.limit, |e1|, [a1], ext);
    if raised {
      r := Raise(Interrupted);
    } else {
      ghost var e2 := sink.events;
      var count, cmd := ExtractFrames(fs, m, job.input, InputFrames(job), sink, ExtractTag());
      AdmitChain(sink.limit, e1, e2, sink.events, [a1], ext);
      r := if count.Raise? then Raise(count.exc) else Return(info);
    }
  }

  /** Interpolation: report, then run the scheduler from the extracted frames into
      the job's output frames, forwarding its reports. */
  method Rife(fs: FileSystem, m: Machine, job: Job, sink: Sink<Progress>) returns (r: Outcome<bool>)
    requires sink.Valid()
    modifies fs, sink
    ensures sink.Valid()
    ensures sink.events == old(sink.events) + Admit(sink.limit, |old(sink.events)|, RifeReports(m, job))
    ensures r == RifeOutcome(m, job, sink.limit, |old(sink.events)|)
    ensures KeepsOutsideTemp(old(fs.files), fs.files, old(fs.dirs), fs.dirs, job.app)
  {
    ghost var e0 := sink.events;
    var a0 := Progress("Running RIFE interpolation...", 0.30);
    var raised := sink.Emit(a0);
    ghost var reports := RifeWrapper.MultiPassReports(m.rife, job.multiplier, m.rifeRuns, RifeTag(job.multiplier));
    AdmitAppend(sink.limit, |e0|, [a0], reports);
    if raised {
      return Raise(Interrupted);
    }
    ghost var e1 := sink.events;
    ghost var dirs1, files1 := fs.dirs, fs.files;
    var ok, warned, cmds := RifeWrapper.InterpolateMultiPass(fs, m.rife, InputFrames(job), OutputFrames(job), job.multiplier,
                                                             job.model, job.gpuId, m.rifeRuns, sink, RifeTag(job.multiplier));
    AdmitChain(sink.limit, e0, e1, sink.events, [a0], reports);
    if ok.Return? && job.multiplier >= 1 {
      var temps := RifeWrapper.TempDirs(OutputFrames(job), RifeWrapper.TempCount(RifeWrapper.FloorLog2(job.multiplier), |cmds|));
      forall q | !IsUnder(q, Config.TempDir(job.app)) ensures !RifeWrapper.UnderSome(q, temps) {
        if RifeWrapper.UnderSome(q, temps) {
          PassDirsInTemp(job, |temps|, q);
        }
      }
    }
    if ok.Raise? {
      return Raise(ok.exc);
    }
    if !ok.value {
      return Raise(RuntimeError("RIFE interpolation failed"));
    }
    r := Return(true);
  }

  /** Reassembly: report, encode the interpolated frames at `fps`, report
      completion and probe the output. */
  method Back(fs: FileSystem, m: Machine, job: Job, fps: real, sink: Sink<Progress>) returns (r: Outcome<bool>)
    requires sink.Valid()
    modifies fs, sink
    ensures sink.Valid()
    ensures sink.events == old(sink.events) + Admit(sink.limit, |old(sink.events)|, BackReports(m, job, fps))
    ensures r == BackOutcome(m, job, fps, sink.limit, |old(sink.events)|)
    ensures fs.files == old(fs.files)
    ensures old(fs.dirs) <= fs.dirs <= old(fs.dirs) + Ancestors(Parent(job.output))
  {
    ghost var e0 := sink.events;
    var a0 := Progress("Creating output video...", 0.90);
    var raised := sink.Emit(a0);
    ghost var enc := EncodeEvents(m, OutputFrames(job), job.output, fps, EncodeTag());
    ghost var tail := if EncodeSucceeds(m, OutputFrames(job), job.output, fps) then [Progress("Complete!", 1.0)] else [];
    assert BackReports(m, job, fps) == [a0] + (enc + tail);
    AdmitAppend(sink.limit, |e0|, [a0], enc + tail);
    if raised {
      r := Raise(Interrupted);
    } else {
      r := Encode(fs, m, job, fps, sink);
      AdmitChain(sink.limit, e0, e0 + [a0], sink.events, [a0], enc + tail);
    }
  }

  /** The encoding stage of `Back`, after its first report. */
  method Encode(fs: FileSystem, m: Machine, job: Job, fps: real, sink: Sink<Progress>) returns (r: Outcome<bool>)
    requires sink.Valid()
    modifies fs, sink
    ensures sink.Valid()
    ensures sink.events == old(sink.events) + Admit(sink.limit, |old(sink.events)|,
      EncodeEvents(m, OutputFrames(job), job.output, fps, EncodeTag())
      + (if EncodeSucceeds(m, OutputFrames(job), job.output, fps) then [Progress("Complete!", 1.0)] else []))
    ensures r == match EncodeOutcome(m, OutputFrames(job), job.output, fps, sink.limit, |old(sink.events)|)
      case Raise(e) => Raise(e)
      case Return(ok) =>
        if !ok then Raise(RuntimeError("Video reassembly failed"))
        else if !Fits(sink.limit, |old(sink.events)| + |EncodeEvents(m, OutputFrames(job), job.output, fps, EncodeTag())|, 1) then
          Raise(Interrupted)
        else
          match GetVideoInfo(m.ffprobe, job.output, m.probe)
          case Raise(e) => Raise(e)
          case Return(_) => Return(true)
    ensures fs.files == old(fs.files)
    ensures old(fs.dirs) <= fs.dirs <= old(fs.dirs) + Ancestors(Parent(job.output))
  {
    ghost var e1 := sink.events;
    ghost var enc := EncodeEvents(m, OutputFrames(job), job.output, fps, EncodeTag());
    ghost var tail := if EncodeSucceeds(m, OutputFrames(job), job.output, fps) then [Progress("Complete!", 1.0)] else [];
    var ok, cmd := ReassembleVideo(fs, m, OutputFrames(job), job.output, fps, sink, EncodeTag());
    EncodeOutcomeMeans(m, OutputFrames(job), job.output, fps, EncodeTag(), sink.limit, |e1|);
    AdmitAppend(sink.limit, |e1|, enc, tail);
    if ok.Raise? {
      r := Raise(ok.exc);
    } else if !ok.value {
      r := Raise(RuntimeError("Video reassembly failed"));
    } else {
      var raised := sink.Emit(Progress("Complete!", 1.0));
      if raised {
        r := Raise(Interrupted);
      } else {
        var outInfo := GetVideoInfo(m.ffprobe, job.output, m.probe);
        r := if outInfo.Raise? then Raise(outInfo.exc) else Return(true);
      }
    }
  }

  /** Interpolation then reassembly at `fps`, the first that raises ending the run. */
  method Tail(fs: FileSystem, m: Machine, job: Job, fps: real, sink: Sink<Progress>) returns (r: Outcome<bool>)
    requires sink.Valid()
    modifies fs, sink
    ensures sink.Valid()
    ensures sink.events == old(sink.events) + Admit(sink.limit, |old(sink.events)|, TailReports(m, job, fps))
    ensures r == TailOutcome(m, job, fps, sink.limit, |old(sink.events)|)
    ensures KeepsOutsideTemp(old(fs.files), fs.files, old(fs.dirs), fs.dirs, job.app)
  {
    ghost var e0 := sink.events;
    ghost var rife := RifeReports(m, job);
    ghost var back := if RifeOutcome(m, job, None, 0).Raise? then [] else BackReports(m, job, fps);
    var ok := Rife(fs, m, job, sink);
    RifeLimits(m, job, sink.limit, |e0|);
    if ok.Raise? {
      r := Raise(ok.exc);
      if RifeOutcome(m, job, None, 0).Raise? {
        assert rife + back == rife;
      } else {
        AdmitStopped(sink.limit, e0, sink.events, rife, back);
      }
    } else {
      ghost var e1 := sink.events;
      assert |e1| == After(|e0|, |rife|);
      r := Back(fs, m, job, fps, sink);
      AdmitChain(sink.limit, e0, e1, sink.events, rife, back);
    }
  }

  /** The body of the `try` in `process_video`: the three stages in order, the
      first that raises ending the run. */
  method RunStages(fs: FileSystem, m: Machine, job: Job, sink: Sink<Progress>) returns (r: Outcome<bool>)
    requires sink.Valid()
    modifies fs, sink
    ensures sink.Valid()
    ensures sink.events == old(sink.events) + Admit(sink.limit, |old(sink.events)|, ProcessReports(m, job))
    ensures r == ProcessOutcome(m, job, sink.limit, |old(sink.events)|)
    ensures KeepsOutsideTemp(old(fs.files), fs.files, old(fs.dirs), fs.dirs, job.app)
  {
    ghost var e0 := sink.events;
    ghost var front := FrontReports(m, job);
    ghost var u := FrontOutcome(m, job, None, 0);
    ghost var after := if u.Raise? then [] else TailReports(m, job, u.value.fps);
    assert ProcessReports(m, job) == front + after;
    var info := Front(fs, m, job, sink);
    FrontLimits(m, job, sink.limit, |e0|);
    if info.Raise? {
      r := Raise(info.exc);
      if u.Raise? {
        assert front + after == front;
      } else {
        AdmitStopped(sink.limit, e0, sink.events, front, after);
      }
    } else {
      ghost var e1 := sink.events;
      ghost var f1, d1 := fs.files, fs.dirs;
      assert |e1| == After(|e0|, |front|);
      r := Tail(fs, m, job, info.value.fps, sink);
      AdmitChain(sink.limit, e0, e1, sink.events, front, after);
      KeepsOutsideTempChain(old(fs.files), f1, fs.files, old(fs.dirs), d1, fs.dirs, job.app);
    }
  }

  /** The job's scratch directories lie in the application's scratch directory. */
  lemma JobDirsInTemp(job: Job, q: Path)
    ensures IsUnder(q, InputFrames(job)) ==> IsUnder(q, Config.TempDir(job.app))
    ensures IsUnder(q, OutputFrames(job)) ==> IsUnder(q, Config.TempDir(job.app))
  {
    var t := Config.TempDir(job.app);
    assert InputFrames(job).parts[..|t.parts|] == t.parts;
    assert OutputFrames(job).parts[..|t.parts|] == t.parts;
  }

  /** `process_video`: make the application's directories, run the stages, and
      remove both scratch directories of the job whichever way the stages end.
      Without a callback (`hasCb` false) nothing is reported and nothing can
      interrupt the stages. */
  method ProcessVideo(fs: FileSystem, m: Machine, job: Job, hasCb: bool, sink: Sink<Progress>) returns (r: Outcome<bool>)
    requires sink.Valid()
    modifies fs, sink
    ensures sink.Valid()
    ensures hasCb ==> sink.events == old(sink.events) + Admit(sink.limit, |old(sink.events)|, ProcessReports(m, job))
    ensures !hasCb ==> sink.events == old(sink.events)
    ensures r == if hasCb then ProcessOutcome(m, job, sink.limit, |old(sink.events)|) else ProcessOutcome(m, job, None, 0)
    ensures !fs.Exists(InputFrames(job)) && !fs.Exists(OutputFrames(job))
    ensures forall q :: q in fs.files ==> q in old(fs.files)
    ensures forall q :: q in old(fs.files) && !IsUnder(q, Config.TempDir(job.app)) ==> q in fs.files
    ensures forall q :: q in old(fs.dirs) + Config.ConfigDirs(job.app) && !IsUnder(q, Config.TempDir(job.app))
                        ==> q in fs.dirs
  {
    Config.EnsureDirectories(fs, job.app);
    var cb: Sink<Progress>;
    if hasCb {
      cb := sink;
    } else {
      cb := new Sink<Progress>(None);
    }
    r := RunStages(fs, m, job, cb);
    ghost var staged := fs.files;
    ghost var stagedDirs := fs.dirs;
    if fs.Exists(InputFrames(job)) {
      fs.RemoveTree(InputFrames(job));
    }
    if fs.Exists(OutputFrames(job)) {
      fs.RemoveTree(OutputFrames(job));
    }
    forall q | q in staged && !IsUnder(q, Config.TempDir(job.app))
      ensures q in fs.files
    {
      JobDirsInTemp(job, q);
    }
    forall q | q in stagedDirs && !IsUnder(q, Config.TempDir(job.app))
      ensures q in fs.dirs
    {
      JobDirsInTemp(job, q);
    }
  }

  /** `process_video` never returns False: every failure is raised. */
  lemma ProcessNeverFalse(m: Machine, job: Job, limit: Option<nat>, sofar: nat)
    ensures ProcessOutcome(m, job, limit, sofar) != Return(false)
  {
    match FrontOutcome(m, job, limit, sofar)
    case Raise(_) =>
    case Return(info) =>
      var s1 := After(sofar, |FrontReports(m, job)|);
      match RifeOutcome(m, job, limit, s1)
      case Raise(_) =>
      case Return(_) =>
  }

  /** Without a callback, `process_video` returns True exactly when the input can
      be probed, its frames extracted, every interpolation pass succeeds, the
      encoder exits with 0 and the output can be probed. */
  lemma ProcessSucceedsIff(m: Machine, job: Job)
    ensures ProcessOutcome(m, job, None, 0) == Return(true) <==>
      && GetVideoInfo(m.ffprobe, job.input, m.probe).Return?
      && ExtractSucceeds(m, job.input, InputFrames(job))
      && job.multiplier >= 1 && (m.rife.present || RifeWrapper.FloorLog2(job.multiplier) == 0)
      && (forall i :: 0 <= i < RifeWrapper.FloorLog2(job.multiplier) ==> RifeWrapper.PassSucceeded(m.rifeRuns(i)))
      && EncodeSucceeds(m, OutputFrames(job), job.output, GetVideoInfo(m.ffprobe, job.input, m.probe).value.fps)
      && GetVideoInfo(m.ffprobe, job.output, m.probe).Return?
  {
    var front := FrontOutcome(m, job, None, 0);
    ExtractOutcomeMeans(m, job.input, InputFrames(job), ExtractTag(), None, 2);
    if GetVideoInfo(m.ffprobe, job.input, m.probe).Return? {
      var info := GetVideoInfo(m.ffprobe, job.input, m.probe).value;
      if job.multiplier >= 1 && (m.rife.present || RifeWrapper.FloorLog2(job.multiplier) == 0) {
        RifeWrapper.MultiPassSucceedsIff(m.rife, job.multiplier, m.rifeRuns, RifeTag(job.multiplier),
                                         |FrontReports(m, job)| + 1);
      }
      var s2 := |FrontReports(m, job)| + |RifeReports(m, job)|;
      EncodeOutcomeMeans(m, OutputFrames(job), job.output, info.fps, EncodeTag(), None, s2 + 1);
    }
  }

  /** A run of `process_video` that returns True delivered every report to the
      callback, the last being "Complete!" at 1.0, and every stage succeeded. */
  lemma ProcessTrueMeans(m: Machine, job: Job, limit: Option<nat>, sofar: nat)
    requires ProcessOutcome(m, job, limit, sofar) == Return(true)
    ensures Fits(limit, sofar, |ProcessReports(m, job)|)
    ensures |ProcessReports(m, job)| > 0 && ProcessReports(m, job)[|ProcessReports(m, job)| - 1] == Progress("Complete!", 1.0)
    ensures ProcessOutcome(m, job, None, 0) == Return(true)
  {
    FrontLimits(m, job, limit, sofar);
    var info := FrontOutcome(m, job, limit, sofar).value;
    var s1 := After(sofar, |FrontReports(m, job)|);
    RifeLimits(m, job, limit, s1);
    var s2 := After(s1, |RifeReports(m, job)|);
    var u2 := |FrontReports(m, job)| + |RifeReports(m, job)|;
    EncodeOutcomeMeans(m, OutputFrames(job), job.output, info.fps, EncodeTag(), limit, s2 + 1);
    EncodeOutcomeMeans(m, OutputFrames(job), job.output, info.fps, EncodeTag(), None, u2 + 1);
    assert ProcessReports(m, job) == FrontReports(m, job) + RifeReports(m, job) + BackReports(m, job, info.fps);
  }

  /** Without a callback, an interpolation pass that fails makes `process_video`
      raise RuntimeError once the frames are extracted. */
  lemma ProcessRifeFailure(m: Machine, job: Job, i: nat)
    requires FrontOutcome(m, job, None, 0).Return?
    requires job.multiplier >= 1 && m.rife.present
    requires i < RifeWrapper.FloorLog2(job.multiplier) && !RifeWrapper.PassSucceeded(m.rifeRuns(i))
    ensures ProcessOutcome(m, job, None, 0) == Raise(RuntimeError("RIFE interpolation failed"))
  {
    RifeWrapper.MultiPassSucceedsIff(m.rife, job.multiplier, m.rifeRuns, RifeTag(job.multiplier),
                                     |FrontReports(m, job)| + 1);
  }
}

=== FILE: rife_wrapper.dfy ===
/** The wrapper around the rife-ncnn-vulkan frame-interpolation binary: listing the
    installed models, one interpolation run with its progress parsing, and the
    scheduler that chains doubling passes through scratch directories. */
module RifeWrapper {
  import opened Common

  // ================================================================ model listing

  /** One entry of the models directory. */
  datatype DirEntry = DirEntry(name: string, isDir: bool)

  /** Python's order on strings: code point by code point, a proper prefix first. */
  predicate LexLe(a: string, b: string)
    decreases |a|
  {
    |a| == 0 || (|b| > 0 && (a[0] < b[0] || (a[0] == b[0] && LexLe(a[1..], b[1..]))))
  }

  lemma {:induction false} LexLeTotal(a: string, b: string)
    ensures LexLe(a, b) || LexLe(b, a)
    decreases |a|
  {
    if |a| > 0 && |b| > 0 && a[0] == b[0] {
      LexLeTotal(a[1..], b[1..]);
    }
  }

  lemma {:induction false} LexLeTransitive(a: string, b: string, c: string)
    requires LexLe(a, b) && LexLe(b, c)
    ensures LexLe(a, c)
    decreases |a|
  {
    if |a| > 0 && a[0] == b[0] && b[0] == c[0] {
      LexLeTransitive(a[1..], b[1..], c[1..]);
    }
  }

  predicate Sorted(s: seq<string>) {
    forall i, j :: 0 <= i < j < |s| ==> LexLe(s[i], s[j])
  }

  /** Insert `x` into a sorted sequence. */
  function Insert(x: string, s: seq<string>): seq<string> {
    if |s| == 0 then [x]
    else if LexLe(x, s[0]) then [x] + s
    else [s[0]] + Insert(x, s[1..])
  }

  /** Python's `sorted` on a list of strings (an insertion sort). */
  function SortStrings(s: seq<string>): seq<string> {
    if |s| == 0 then [] else Insert(s[|s| - 1], SortStrings(s[..|s| - 1]))
  }

  lemma {:induction false} InsertPermutes(x: string, s: seq<string>)
    ensures multiset(Insert(x, s)) == multiset(s) + multiset{x}
  {
    if |s| > 0 && !LexLe(x, s[0]) {
      InsertPermutes(x, s[1..]);
      assert s == [s[0]] + s[1..];
    }
  }

  lemma {:induction false} InsertSorted(x: string, s: seq<string>)
    requires Sorted(s)
    ensures Sorted(Insert(x, s))
  {
    if |s| == 0 {
    } else if LexLe(x, s[0]) {
      forall j | 0 <= j < |s| ensures LexLe(x, s[j]) {
        if j > 0 { LexLeTransitive(x, s[0], s[j]); }
      }
    } else {
      LexLeTotal(x, s[0]);
      var rest := Insert(x, s[1..]);
      InsertSorted(x, s[1..]);
      InsertPermutes(x, s[1..]);
      forall j | 0 <= j < |rest| ensures LexLe(s[0], rest[j]) {
        assert rest[j] in multiset(rest);
        if rest[j] != x {
          assert rest[j] in multiset(s[1..]);
          var k :| 0 <= k < |s[1..]| && s[1..][k] == rest[j];
        }
      }
    }
  }

  /** `sorted(s)` is ordered and holds the same names, as often. */
  lemma {:induction false} SortStringsCorrect(s: seq<string>)
    ensures Sorted(SortStrings(s))
    ensures multiset(SortStrings(s)) == multiset(s)
  {
    if |s| > 0 {
      SortStringsCorrect(s[..|s| - 1]);
      InsertSorted(s[|s| - 1], SortStrings(s[..|s| - 1]));
      InsertPermutes(s[|s| - 1], SortStrings(s[..|s| - 1]));
      assert s == s[..|s| - 1] + [s[|s| - 1]];
    }
  }

  /** A model directory: a directory whose name starts with "rife". */
  predicate IsModelDir(e: DirEntry) {
    e.isDir && StartsWith(e.name, "rife")
  }

  /** The names of the model directories, in listing order. */
  function ModelNames(entries: seq<DirEntry>): seq<string> {
    if |entries| == 0 then []
    else ModelNames(entries[..|entries| - 1])
         + (if IsModelDir(entries[|entries| - 1]) then [entries[|entries| - 1].name] else [])
  }

  lemma {:induction false} ModelNamesMembers(entries: seq<DirEntry>, m: string)
    ensures m in ModelNames(entries) <==> exists e :: e in entries && IsModelDir(e) && e.name == m
  {
    if |entries| > 0 {
      var init := entries[..|entries| - 1];
      ModelNamesMembers(init, m);
      assert entries == init + [entries[|entries| - 1]];
      if exists e :: e in entries && IsModelDir(e) && e.name == m {
        var e :| e in entries && IsModelDir(e) && e.name == m;
        if e != entries[|entries| - 1] {
          assert e in init;
        }
      }
    }
  }

  /** `get_available_models`: `entries` is what iterating the models directory
      yields; the result names exactly its "rife*" subdirectories, sorted. */
  method GetAvailableModels(modelsDirExists: bool, entries: seq<DirEntry>) returns (models: seq<string>)
    ensures Sorted(models)
    ensures modelsDirExists ==> multiset(models) == multiset(ModelNames(entries))
    ensures !modelsDirExists ==> models == []
    ensures forall m :: m in models <==>
      modelsDirExists && exists e :: e in entries && IsModelDir(e) && e.name == m
  {
    var found: seq<string> := [];
    if modelsDirExists {
      for i := 0 to |entries|
        invariant found == ModelNames(entries[..i])
      {
        assert entries[..i + 1] == entries[..i] + [entries[i]];
        if entries[i].isDir && StartsWith(entries[i].name, "rife") {
          found := found + [entries[i].name];
        }
      }
      assert entries[..|entries|] == entries;
    }
    models := SortStrings(found);
    SortStringsCorrect(found);
    forall m ensures m in models <==> m in found {
      assert m in models <==> m in multiset(models);
      assert m in found <==> m in multiset(found);
    }
    forall m ensures m in found <==> modelsDirExists && exists e :: e in entries && IsModelDir(e) && e.name == m {
      ModelNamesMembers(entries, m);
    }
  }

  // ================================================================ progress lines

  /** The length of the run of ASCII digits that starts at `i`. */
  function DigitRun(s: string, i: nat): (n: nat)
    requires i <= |s|
    ensures i + n <= |s| && AllDigits(s[i..i + n])
    ensures i + n == |s| || !IsDigit(s[i + n])
    decreases |s| - i
  {
    if i < |s| && IsDigit(s[i]) then
      var m := DigitRun(s, i + 1);
      assert s[i..i + 1 + m] == [s[i]] + s[i + 1..i + 1 + m];
      1 + m
    else 0
  }

  /** `(\d+)/(\d+)` tried at position `i`: both groups greedy, so the first group is
      the whole digit run at `i`, followed by '/' and at least one digit. The
      result is the text of the two groups. */
  function MatchAt(s: string, i: nat): (m: Option<(string, string)>)
    requires i <= |s|
    ensures m.Some? ==> |m.value.0| > 0 && |m.value.1| > 0 && AllDigits(m.value.0) && AllDigits(m.value.1)
  {
    var j := i + DigitRun(s, i);
    if j > i && j + 1 < |s| && s[j] == '/' && IsDigit(s[j + 1]) then
      Some((s[i..j], s[j + 1..j + 1 + DigitRun(s, j + 1)]))
    else None
  }

  function SearchFrom(s: string, i: nat): (m: Option<(string, string)>)
    requires i <= |s|
    ensures m.Some? ==> AllDigits(m.value.0) && AllDigits(m.value.1)
    decreases |s| - i
  {
    if i == |s| then None
    else if MatchAt(s, i).Some? then MatchAt(s, i)
    else SearchFrom(s, i + 1)
  }

  /** `re.search(r"(\d+)/(\d+)", s)`, both groups read by int(). */
  function FindFraction(s: string): Option<(nat, nat)> {
    match SearchFrom(s, 0)
    case Some((x, y)) => Some((DigitsValue(x), DigitsValue(y)))
    case None => None
  }

  lemma {:induction false} SearchFromLeftmost(s: string, i: nat, k: nat)
    requires i <= k <= |s| && MatchAt(s, k).Some?
    requires forall k' :: i <= k' < k ==> MatchAt(s, k').None?
    ensures SearchFrom(s, i) == MatchAt(s, k)
    decreases k - i
  {
    if i < k {
      SearchFromLeftmost(s, i + 1, k);
    }
  }

  lemma {:induction false} SearchFromNone(s: string, i: nat)
    requires i <= |s|
    ensures SearchFrom(s, i).None? <==> forall k :: i <= k <= |s| ==> MatchAt(s, k).None?
    decreases |s| - i
  {
    if i < |s| {
      SearchFromNone(s, i + 1);
    }
  }

  /** The search finds the leftmost position where the pattern matches, and reads
      the two groups found there. */
  lemma FindFractionLeftmost(s: string, k: nat)
    requires k <= |s| && MatchAt(s, k).Some?
    requires forall k' :: 0 <= k' < k ==> MatchAt(s, k').None?
    ensures var m := MatchAt(s, k).value;
      FindFraction(s) == Some((DigitsValue(m.0), DigitsValue(m.1)))
  {
    SearchFromLeftmost(s, 0, k);
  }

  /** The search finds nothing exactly when the pattern matches nowhere. */
  lemma FindFractionNone(s: string)
    ensures FindFraction(s).None? <==> forall k :: 0 <= k <= |s| ==> MatchAt(s, k).None?
  {
    SearchFromNone(s, 0);
  }

  lemma {:induction false} DigitRunExact(s: string, i: nat, n: nat)
    requires i + n <= |s| && AllDigits(s[i..i + n])
    requires i + n == |s| || !IsDigit(s[i + n])
    ensures DigitRun(s, i) == n
    decreases n
  {
    if n > 0 {
      assert IsDigit(s[i..i + n][0]);
      assert s[i + 1..i + 1 + (n - 1)] == s[i..i + n][1..];
      DigitRunExact(s, i + 1, n - 1);
    }
  }

  /** The pattern matches at `i` when a complete digit run of length `a` starts
      there and is followed by '/' and a complete digit run of length `b`. */
  lemma MatchAtFraction(s: string, i: nat, a: nat, b: nat)
    requires a > 0 && b > 0 && i + a + 1 + b <= |s|
    requires AllDigits(s[i..i + a]) && s[i + a] == '/' && AllDigits(s[i + a + 1..i + a + 1 + b])
    requires i + a + 1 + b == |s| || !IsDigit(s[i + a + 1 + b])
    ensures MatchAt(s, i) == Some((s[i..i + a], s[i + a + 1..i + a + 1 + b]))
  {
    DigitRunExact(s, i, a);
    assert IsDigit(s[i + a + 1]) by {
      assert s[i + a + 1..i + a + 1 + b][0] == s[i + a + 1];
    }
    DigitRunExact(s, i + a + 1, b);
    MatchAtRuns(s, i, a, b);
  }

  /** The match at `i` when the digit run there has length `a` and the one after
      the '/' has length `b`. */
  lemma MatchAtRuns(s: string, i: nat, a: nat, b: nat)
    requires a > 0 && i + a + 1 < |s| && DigitRun(s, i) == a && s[i + a] == '/'
    requires IsDigit(s[i + a + 1]) && DigitRun(s, i + a + 1) == b
    ensures MatchAt(s, i) == Some((s[i..i + a], s[i + a + 1..i + a + 1 + b]))
  {
  }

  /** No match starts at a position that holds no digit. */
  lemma NoMatchAtNonDigit(s: string, k: nat)
    requires k < |s| && !IsDigit(s[k])
    ensures MatchAt(s, k).None?
  {
  }

  /** A progress line "<text without digits><a>/<b><rest>" reports (a, b). */
  /** Where the pieces of a five-part concatenation sit. */
  lemma FivePieces<T>(a: seq<T>, b: seq<T>, c: T, d: seq<T>, e: seq<T>)
    ensures var s := a + b + [c] + d + e;
      && |s| == |a| + |b| + 1 + |d| + |e|
      && s[|a|..|a| + |b|] == b
      && s[|a| + |b|] == c
      && s[|a| + |b| + 1..|a| + |b| + 1 + |d|] == d
      && (|e| > 0 ==> s[|a| + |b| + 1 + |d|] == e[0])
  {
    var s := a + b + [c] + d + e;
    assert s == a + (b + ([c] + (d + e)));
  }

  /** The pattern matches right after `pre` in a progress line built from two digit runs. */
  lemma MatchAtProgress(pre: string, sa: string, sb: string, post: string)
    requires |sa| > 0 && |sb| > 0 && AllDigits(sa) && AllDigits(sb)
    requires post == "" || !IsDigit(post[0])
    ensures MatchAt(pre + sa + "/" + sb + post, |pre|) == Some((sa, sb))
  {
    assert pre + sa + "/" + sb + post == pre + sa + ['/'] + sb + post;
    FivePieces(pre, sa, '/', sb, post);
    MatchAtFraction(pre + sa + ['/'] + sb + post, |pre|, |sa|, |sb|);
  }

  lemma FindFractionOfProgress(pre: string, a: nat, b: nat, post: string)
    requires forall k :: 0 <= k < |pre| ==> !IsDigit(pre[k])
    requires post == "" || !IsDigit(post[0])
    ensures FindFraction(pre + NatToString(a) + "/" + NatToString(b) + post) == Some((a, b))
  {
    var sa, sb := NatToString(a), NatToString(b);
    var s := pre + sa + "/" + sb + post;
    var i := |pre|;
    MatchAtProgress(pre, sa, sb, post);
    DigitsValueOfNatToString(a);
    DigitsValueOfNatToString(b);
    forall k' | 0 <= k' < i ensures MatchAt(s, k').None? {
      assert s[k'] == pre[k'];
      NoMatchAtNonDigit(s, k');
    }
    FindFractionLeftmost(s, i);
  }

  /** What one output line contributes: its (current, total) pair when the stripped
      line is not blank and holds a match. */
  function LineReport(line: string): seq<(nat, nat)> {
    var t := Strip(line);
    if t != "" && FindFraction(t).Some? then [FindFraction(t).value] else []
  }

  /** The (current, total) pairs reported for a run's output lines, in order. */
  function LineProgress(lines: seq<string>): seq<(nat, nat)> {
    FlatMap(lines, LineReport)
  }

  /** The callback invocations the pairs `ps` cause. */
  function Tagged<E>(ps: seq<(nat, nat)>, tag: (int, int) -> E): (r: seq<E>)
    ensures |r| == |ps|
  {
    seq(|ps|, i requires 0 <= i < |ps| => tag(ps[i].0, ps[i].1))
  }

  lemma TaggedAppend<E>(p: seq<(nat, nat)>, q: seq<(nat, nat)>, tag: (int, int) -> E)
    ensures Tagged(p + q, tag) == Tagged(p, tag) + Tagged(q, tag)
  {
  }

  /** Once the callback raises on the first report of `b`, after accepting all of
      `a`, the reports of `a + b` do not fit and the callback saw exactly `a`'s. */
  lemma RaiseStopsRun<E>(limit: Option<nat>, sofar: nat, a: seq<(nat, nat)>, b: seq<(nat, nat)>, tag: (int, int) -> E)
    requires |b| > 0 && Fits(limit, sofar, |a|) && !Fits(limit, sofar + |a|, 1)
    ensures !Fits(limit, sofar, |a + b|)
    ensures Admit(limit, sofar, Tagged(a + b, tag)) == Tagged(a, tag)
  {
    TaggedAppend(a, b, tag);
    AdmitAppend(limit, sofar, Tagged(a, tag), Tagged(b, tag));
  }

  /** The callback invocations one run of the binary causes, when none raises. */
  function RunReports<E>(run: ProcessRun, tag: (int, int) -> E): seq<E> {
    if run.Ran? then Tagged(LineProgress(run.lines), tag) else []
  }

  // ================================================================ one run

  /** The argument list of one rife-ncnn-vulkan invocation. */
  function RifeCommand(exe: Path, inputDir: Path, outputDir: Path, model: string, gpuId: int, uhdMode: bool): seq<string> {
    [PathText(exe), "-i", PathText(inputDir), "-o", PathText(outputDir), "-m", model,
     "-g", IntToString(gpuId), "-f", "%08d.png"] + (if uhdMode then ["-x"] else [])
  }

  /** The command names the input, output, model and GPU, fixes the frame-name
      pattern, and ends with "-x" exactly in UHD mode. */
  lemma RifeCommandShape(exe: Path, inputDir: Path, outputDir: Path, model: string, gpuId: int, uhdMode: bool)
    ensures var cmd := RifeCommand(exe, inputDir, outputDir, model, gpuId, uhdMode);
      && |cmd| == (if uhdMode then 12 else 11)
      && cmd[1] == "-i" && cmd[2] == PathText(inputDir)
      && cmd[3] == "-o" && cmd[4] == PathText(outputDir)
      && cmd[5] == "-m" && cmd[6] == model
      && cmd[7] == "-g" && ParseInt(cmd[8]) == Some(gpuId)
      && cmd[9] == "-f" && cmd[10] == "%08d.png"
      && (cmd[|cmd| - 1] == "-x" <==> uhdMode)
  {
    var cmd := RifeCommand(exe, inputDir, outputDir, model, gpuId, uhdMode);
    assert cmd[8] == IntToString(gpuId);
    ParseIntOfIntToString(gpuId);
    assert "%08d.png"[0] != "-x"[0];
  }

  /** A run succeeds when the binary started and exited with status 0. */
  predicate PassSucceeded(run: ProcessRun) {
    run.Ran? && run.exitCode == 0
  }

  /** One output line: strip it and, when it is not blank and holds a match, invoke
      the callback with the two numbers; `raised` says the callback raised. */
  method ForwardLine<E>(line: string, sink: Sink<E>, tag: (int, int) -> E) returns (raised: bool)
    requires sink.Valid()
    modifies sink
    ensures sink.Valid()
    ensures sink.events == old(sink.events) + Admit(sink.limit, |old(sink.events)|, Tagged(LineReport(line), tag))
    ensures raised <==> !Fits(sink.limit, |old(sink.events)|, |LineReport(line)|)
  {
    raised := false;
    var t := Strip(line);
    if t != "" {
      var m := FindFraction(t);
      if m.Some? {
        raised := sink.Emit(tag(m.value.0, m.value.1));
      }
    }
  }

  /** The loop over the process's output lines, up to the first callback that
      raises. */
  method ForwardLines<E>(lines: seq<string>, sink: Sink<E>, tag: (int, int) -> E) returns (raised: bool)
    requires sink.Valid()
    modifies sink
    ensures sink.Valid()
    ensures sink.events == old(sink.events) + Admit(sink.limit, |old(sink.events)|, Tagged(LineProgress(lines), tag))
    ensures raised <==> !Fits(sink.limit, |old(sink.events)|, |LineProgress(lines)|)
  {
    ghost var before := sink.events;
    var i := 0;
    while i < |lines|
      modifies sink
      invariant 0 <= i <= |lines|
      invariant sink.Valid()
      invariant sink.events == before + Tagged(LineProgress(lines[..i]), tag)
      invariant Fits(sink.limit, |before|, |LineProgress(lines[..i])|)
    {
      FlatMapStep(lines, i, LineReport);
      TaggedAppend(LineProgress(lines[..i]), LineReport(lines[i]), tag);
      raised := ForwardLine(lines[i], sink, tag);
      if raised {
        FlatMapSplit(lines, i, LineReport);
        RaiseStopsRun(sink.limit, |before|, LineProgress(lines[..i]), LineReport(lines[i]) + LineProgress(lines[i + 1..]), tag);
        return;
      }
      i := i + 1;
    }
    assert lines[..i] == lines;
    raised := false;
  }

  /** `run_rife`. A missing binary raises FileNotFoundError before anything happens.
      Otherwise the output directory is created, the command launched, each
      non-blank output line with a `digits/digits` match reported to the callback,
      and the result is whether the process exited with 0; a process that cannot
      be started, or a callback that raises, gives False (the exception is caught). */
  method RunRife<E>(fs: FileSystem, rife: Tool, inputDir: Path, outputDir: Path, model: string,
                    gpuId: int, uhdMode: bool, run: ProcessRun, sink: Sink<E>, tag: (int, int) -> E)
    returns (r: Outcome<bool>, cmd: seq<string>)
    requires sink.Valid()
    modifies fs, sink
    ensures sink.Valid()
    ensures !rife.present ==>
      && r == Raise(FileNotFound("RIFE executable")) && cmd == []
      && fs.dirs == old(fs.dirs) && fs.files == old(fs.files) && sink.events == old(sink.events)
    ensures rife.present ==>
      && fs.dirs == old(fs.dirs) + Ancestors(outputDir) && fs.files == old(fs.files)
      && cmd == RifeCommand(rife.path, inputDir, outputDir, model, gpuId, uhdMode)
      && sink.events == old(sink.events) + Admit(sink.limit, |old(sink.events)|, RunReports(run, tag))
      && r == Return(PassSucceeded(run) && Fits(sink.limit, |old(sink.events)|, |RunReports(run, tag)|))
  {
    if !rife.present {
      return Raise(FileNotFound("RIFE executable")), [];
    }
    fs.MakeDirs(outputDir);
    cmd := [PathText(rife.path), "-i", PathText(inputDir), "-o", PathText(outputDir), "-m", model,
            "-g", IntToString(gpuId), "-f", "%08d.png"];
    if uhdMode {
      cmd := cmd + ["-x"];
    }
    if run.SpawnFailed? {
      return Return(false), cmd;
    }
    var raised := ForwardLines(run.lines, sink, tag);
    if raised {
      return Return(false), cmd;
    }
    r := Return(run.exitCode == 0);
  }

  // ================================================================ the scheduler

  function Pow2(n: nat): (p: nat)
    ensures p >= 1
  {
    if n == 0 then 1 else 2 * Pow2(n - 1)
  }

  /** `int(math.log2(m))` computed exactly: the number of halvings down to 1. */
  function FloorLog2(m: nat): nat
    requires m >= 1
  {
    if m == 1 then 0 else 1 + FloorLog2(m / 2)
  }

  /** FloorLog2(m) is the n with 2^n <= m < 2^(n+1). */
  lemma {:induction false} FloorLog2Bounds(m: nat)
    requires m >= 1
    ensures Pow2(FloorLog2(m)) <= m < Pow2(FloorLog2(m) + 1)
  {
    if m > 1 {
      FloorLog2Bounds(m / 2);
    }
  }

  lemma {:induction false} FloorLog2Unique(m: nat, n: nat)
    requires Pow2(n) <= m < Pow2(n + 1)
    ensures FloorLog2(m) == n
  {
    if n > 0 {
      FloorLog2Unique(m / 2, n - 1);
    }
  }

  /** A power of two 2^n needs exactly n passes. */
  lemma FloorLog2OfPow2(n: nat)
    ensures FloorLog2(Pow2(n)) == n
  {
    FloorLog2Unique(Pow2(n), n);
  }

  /** The scratch directory of pass `i`: `output_dir.parent / "temp_pass_{i}"`. */
  function TempPassDir(outputDir: Path, i: nat): Path {
    Join(Parent(outputDir), "temp_pass_" + NatToString(i))
  }

  /** Where pass `i` of `n` writes: the output directory for the last pass, its
      scratch directory before that. */
  function PassOutput(outputDir: Path, n: nat, i: nat): Path {
    if i + 1 == n then outputDir else TempPassDir(outputDir, i)
  }

  /** Where pass `i` of `n` reads: the input directory first, then what the
      previous pass wrote. */
  function PassInput(inputDir: Path, outputDir: Path, n: nat, i: nat): Path {
    if i == 0 then inputDir else PassOutput(outputDir, n, i - 1)
  }

  /** The first `c` scratch directories. */
  function TempDirs(outputDir: Path, c: nat): (ts: seq<Path>)
    ensures |ts| == c
  {
    if c == 0 then [] else TempDirs(outputDir, c - 1) + [TempPassDir(outputDir, c - 1)]
  }

  lemma {:induction false} TempDirsAt(outputDir: Path, c: nat, k: nat)
    requires k < c
    ensures TempDirs(outputDir, c)[k] == TempPassDir(outputDir, k)
  {
    if k < c - 1 {
      TempDirsAt(outputDir, c - 1, k);
    }
  }

  /** The commands of the first `k` of `n` passes. */
  function PassCommands(exe: Path, inputDir: Path, outputDir: Path, n: nat, model: string, gpuId: int, k: nat)
    : (cs: seq<seq<string>>)
    ensures |cs| == k
  {
    if k == 0 then []
    else PassCommands(exe, inputDir, outputDir, n, model, gpuId, k - 1)
         + [RifeCommand(exe, PassInput(inputDir, outputDir, n, k - 1), PassOutput(outputDir, n, k - 1), model, gpuId, false)]
  }

  /** Pass `i` reads what pass `i - 1` wrote and runs without UHD mode. */
  lemma {:induction false} PassCommandsAt(exe: Path, inputDir: Path, outputDir: Path, n: nat, model: string, gpuId: int, k: nat, i: nat)
    requires i < k
    ensures PassCommands(exe, inputDir, outputDir, n, model, gpuId, k)[i]
         == RifeCommand(exe, PassInput(inputDir, outputDir, n, i), PassOutput(outputDir, n, i), model, gpuId, false)
  {
    var prev := PassCommands(exe, inputDir, outputDir, n, model, gpuId, k - 1);
    var last := RifeCommand(exe, PassInput(inputDir, outputDir, n, k - 1), PassOutput(outputDir, n, k - 1), model, gpuId, false);
    var want := RifeCommand(exe, PassInput(inputDir, outputDir, n, i), PassOutput(outputDir, n, i), model, gpuId, false);
    assert PassCommands(exe, inputDir, outputDir, n, model, gpuId, k) == prev + [last];
    if i < k - 1 {
      PassCommandsAt(exe, inputDir, outputDir, n, model, gpuId, k - 1, i);
      IndexBeforeLast(prev, last, i);
    } else {
      assert i == k - 1 && last == want;
      IndexOfLast(prev, last);
    }
  }

  lemma IndexBeforeLast<T>(prev: seq<T>, last: T, i: nat)
    requires i < |prev|
    ensures (prev + [last])[i] == prev[i]
  {
  }

  lemma IndexOfLast<T>(prev: seq<T>, last: T)
    ensures (prev + [last])[|prev|] == last
  {
  }

  /** How many scratch directories exist once `launched` of `n` passes started. */
  function TempCount(n: nat, launched: nat): nat {
    if launched == n && n > 0 then n - 1 else launched
  }

  /** Scratch directories of different passes are different siblings: neither lies
      inside the other. */
  lemma TempDirsIndependent(outputDir: Path, i: nat, j: nat)
    requires i != j
    ensures !IsUnder(TempPassDir(outputDir, i), TempPassDir(outputDir, j))
  {
    var ti, tj := "temp_pass_" + NatToString(i), "temp_pass_" + NatToString(j);
    NatToStringInjective(i, j);
    assert ti[10..] == NatToString(i) && tj[10..] == NatToString(j);
    var a, b := TempPassDir(outputDir, i), TempPassDir(outputDir, j);
    assert |a.parts| == |b.parts|;
    assert a.parts[|a.parts| - 1] == ti && b.parts[|b.parts| - 1] == tj;
  }

  /** A scratch directory is named "temp_pass_<i>" and is a sibling of the output. */
  lemma TempPassDirShape(outputDir: Path, i: nat)
    ensures Parent(TempPassDir(outputDir, i)) == Parent(outputDir)
    ensures StartsWith(Name(TempPassDir(outputDir, i)), "temp_pass_")
    ensures |TempPassDir(outputDir, i).parts| == |Parent(outputDir).parts| + 1
  {
    ParentOfJoin(Parent(outputDir), "temp_pass_" + NatToString(i));
  }

  /** A non-root directory is its parent joined with its name. */
  lemma JoinParentName(q: Path)
    requires |q.parts| > 0
    ensures Join(Parent(q), Name(q)) == q
  {
    assert q.parts[..|q.parts| - 1] + [q.parts[|q.parts| - 1]] == q.parts;
  }

  /** The scratch directory of pass `i` is the output directory exactly when that
      directory is itself named "temp_pass_<i>". */
  lemma TempPassDirIsOutputIff(outputDir: Path, i: nat)
    ensures TempPassDir(outputDir, i) == outputDir <==>
      |outputDir.parts| > 0 && Name(outputDir) == "temp_pass_" + NatToString(i)
  {
    var t := TempPassDir(outputDir, i);
    TempPassDirShape(outputDir, i);
    ParentOfJoin(Parent(outputDir), "temp_pass_" + NatToString(i));
    if |outputDir.parts| > 0 {
      JoinParentName(outputDir);
    } else {
      assert |t.parts| == 1;
    }
  }

  /** Only the last pass writes the output directory, unless that directory is
      itself named like the scratch directory of the pass. */
  lemma OnlyLastPassWritesOutput(outputDir: Path, n: nat, i: nat)
    requires i < n
    ensures PassOutput(outputDir, n, i) == outputDir <==>
      || i + 1 == n
      || (|outputDir.parts| > 0 && Name(outputDir) == "temp_pass_" + NatToString(i))
  {
    TempPassDirIsOutputIff(outputDir, i);
  }

  /** The output directory lies in the tree of one of the first `c` scratch
      directories exactly when it is itself named like one of them. */
  lemma OutputOutsideTemps(outputDir: Path, c: nat)
    ensures UnderSome(outputDir, TempDirs(outputDir, c)) ==>
      |outputDir.parts| > 0 && exists j :: 0 <= j < c && Name(outputDir) == "temp_pass_" + NatToString(j)
    ensures (|outputDir.parts| > 0 && exists j :: 0 <= j < c && Name(outputDir) == "temp_pass_" + NatToString(j)) ==>
      UnderSome(outputDir, TempDirs(outputDir, c))
  {
    forall j | 0 <= j < c
      ensures IsUnder(outputDir, TempDirs(outputDir, c)[j]) <==>
        |outputDir.parts| > 0 && Name(outputDir) == "temp_pass_" + NatToString(j)
    {
      var t := TempPassDir(outputDir, j);
      TempDirsAt(outputDir, c, j);
      TempPassDirShape(outputDir, j);
      TempPassDirIsOutputIff(outputDir, j);
      if |outputDir.parts| > 0 {
        assert |t.parts| == |outputDir.parts|;
        if IsUnder(outputDir, t) {
          assert t.parts == outputDir.parts;
        }
      } else {
        assert !IsUnder(outputDir, t);
      }
    }
    if UnderSome(outputDir, TempDirs(outputDir, c)) {
      var j :| 0 <= j < |TempDirs(outputDir, c)| && IsUnder(outputDir, TempDirs(outputDir, c)[j]);
      assert 0 <= j < c && Name(outputDir) == "temp_pass_" + NatToString(j);
      assert |outputDir.parts| > 0;
    }
    if |outputDir.parts| > 0 && exists j :: 0 <= j < c && Name(outputDir) == "temp_pass_" + NatToString(j) {
      var j :| 0 <= j < c && Name(outputDir) == "temp_pass_" + NatToString(j);
      assert IsUnder(outputDir, TempDirs(outputDir, c)[j]);
      assert UnderSome(outputDir, TempDirs(outputDir, c));
    }
  }

  /** `q` lies in the tree of one of `ts`. */
  predicate UnderSome(q: Path, ts: seq<Path>) {
    exists j :: 0 <= j < |ts| && IsUnder(q, ts[j])
  }

  /** The callback a pass hands to the binary's run: it forwards (current, total)
      with the 1-based pass number in front. */
  function PassTag<E>(tag: (int, int, int) -> E, passNum: int): (int, int) -> E {
    (current: int, total: int) => tag(passNum, current, total)
  }

  /** The first `k` passes all succeed. */
  predicate AllSucceeded(runs: nat -> ProcessRun, k: nat) {
    k == 0 || (AllSucceeded(runs, k - 1) && PassSucceeded(runs(k - 1)))
  }

  lemma {:induction false} AllSucceededIff(runs: nat -> ProcessRun, k: nat)
    ensures AllSucceeded(runs, k) <==> forall i :: 0 <= i < k ==> PassSucceeded(runs(i))
  {
    if k > 0 {
      AllSucceededIff(runs, k - 1);
    }
  }

  /** The pass loop stopped after `c` passes: all before the last succeeded, and the
      last failed or the callback, having accepted `sofar` invocations before the
      loop, raised during it. */
  predicate PassesStopped<E>(runs: nat -> ProcessRun, tag: (int, int, int) -> E, limit: Option<nat>, sofar: nat, c: nat) {
    && 1 <= c
    && AllSucceeded(runs, c - 1)
    && (!PassSucceeded(runs(c - 1)) || !Fits(limit, sofar, |Forwarded(runs, tag, c)|))
  }

  /** The callback invocations of pass `passNum` (1-based). */
  function PassReports<E>(run: ProcessRun, tag: (int, int, int) -> E, passNum: int): seq<E> {
    RunReports(run, PassTag(tag, passNum))
  }

  /** The callback invocations of the first `k` passes. */
  function Forwarded<E>(runs: nat -> ProcessRun, tag: (int, int, int) -> E, k: nat): seq<E> {
    if k == 0 then [] else Forwarded(runs, tag, k - 1) + PassReports(runs(k - 1), tag, k)
  }

  /** Across the first `k` passes the callback sees, pass by pass, every (current,
      total) pair of each run tagged with its 1-based number: the `j`-th pair of the
      run at index `p` is reported, tagged `p + 1`, right after the reports of the `p`
      passes before it. */
  lemma {:induction false} ForwardedNumbered<E>(runs: nat -> ProcessRun, tag: (int, int, int) -> E, k: nat, p: nat, j: nat)
    requires p < k && runs(p).Ran? && j < |LineProgress(runs(p).lines)|
    ensures |Forwarded(runs, tag, p)| + j < |Forwarded(runs, tag, k)|
    ensures Forwarded(runs, tag, k)[|Forwarded(runs, tag, p)| + j]
      == tag(p + 1, LineProgress(runs(p).lines)[j].0, LineProgress(runs(p).lines)[j].1)
  {
    var before := Forwarded(runs, tag, p);
    var own := PassReports(runs(p), tag, p + 1);
    PassReportAt(runs(p), tag, p + 1, j);
    assert Forwarded(runs, tag, p + 1) == before + own;
    ForwardedPrefix(runs, tag, p + 1, k);
    assert Forwarded(runs, tag, k)[|before| + j] == (before + own)[|before| + j];
  }

  /** The `j`-th report of a pass is its run's `j`-th pair, tagged with the pass number. */
  lemma PassReportAt<E>(run: ProcessRun, tag: (int, int, int) -> E, passNum: int, j: nat)
    requires run.Ran? && j < |LineProgress(run.lines)|
    ensures |PassReports(run, tag, passNum)| == |LineProgress(run.lines)|
    ensures PassReports(run, tag, passNum)[j] == tag(passNum, LineProgress(run.lines)[j].0, LineProgress(run.lines)[j].1)
  {
  }

  /** Nothing else is reported: every callback invocation of the first `k` passes is
      the `j`-th pair of some pass's run, tagged with that pass's 1-based number and
      placed right after the reports of the passes before it. */
  lemma {:induction false} ForwardedOnlyPasses<E>(runs: nat -> ProcessRun, tag: (int, int, int) -> E, k: nat, i: nat)
    requires i < |Forwarded(runs, tag, k)|
    ensures exists p, j ::
      && 0 <= p < k && runs(p).Ran? && 0 <= j < |LineProgress(runs(p).lines)|
      && i == |Forwarded(runs, tag, p)| + j
      && Forwarded(runs, tag, k)[i] == tag(p + 1, LineProgress(runs(p).lines)[j].0, LineProgress(runs(p).lines)[j].1)
  {
    var prev := Forwarded(runs, tag, k - 1);
    var last := PassReports(runs(k - 1), tag, k);
    assert Forwarded(runs, tag, k) == prev + last;
    if i < |prev| {
      ForwardedOnlyPasses(runs, tag, k - 1, i);
      var p, j :|
        && 0 <= p < k - 1 && runs(p).Ran? && 0 <= j < |LineProgress(runs(p).lines)|
        && i == |Forwarded(runs, tag, p)| + j
        && prev[i] == tag(p + 1, LineProgress(runs(p).lines)[j].0, LineProgress(runs(p).lines)[j].1);
      assert Forwarded(runs, tag, k)[i] == prev[i];
    } else {
      var ps := LineProgress(runs(k - 1).lines);
      var j := i - |prev|;
      assert last == Tagged(ps, PassTag(tag, k));
      assert Forwarded(runs, tag, k)[i] == last[j] == tag(k, ps[j].0, ps[j].1);
    }
  }

  lemma EachUnderItself(ts: seq<Path>)
    ensures forall q :: q in ts ==> UnderSome(q, ts)
  {
    forall q | q in ts ensures UnderSome(q, ts) {
      var j :| 0 <= j < |ts| && ts[j] == q;
      assert IsUnder(q, ts[j]);
    }
  }

  /** The cleanup loop: remove each scratch directory that exists. */
  method RemoveTemps(fs: FileSystem, temps: seq<Path>)
    requires forall t :: t in temps ==> t in fs.dirs
    requires forall i, j :: 0 <= i < j < |temps| ==> !IsUnder(temps[j], temps[i])
    modifies fs
    ensures forall q :: q in fs.dirs <==> q in old(fs.dirs) && !UnderSome(q, temps)
    ensures forall q :: q in fs.files <==> q in old(fs.files) && !UnderSome(q, temps)
  {
    for k := 0 to |temps|
      invariant forall q :: q in fs.dirs <==> q in old(fs.dirs) && !UnderSome(q, temps[..k])
      invariant forall q :: q in fs.files <==> q in old(fs.files) && !UnderSome(q, temps[..k])
    {
      assert forall q :: UnderSome(q, temps[..k + 1]) <==> UnderSome(q, temps[..k]) || IsUnder(q, temps[k]) by {
        forall q ensures UnderSome(q, temps[..k + 1]) <==> UnderSome(q, temps[..k]) || IsUnder(q, temps[k]) {
          if UnderSome(q, temps[..k + 1]) {
            var j :| 0 <= j < k + 1 && IsUnder(q, temps[..k + 1][j]);
            if j < k { assert temps[..k][j] == temps[j]; }
          }
          if UnderSome(q, temps[..k]) {
            var j :| 0 <= j < k && IsUnder(q, temps[..k][j]);
            assert temps[..k + 1][j] == temps[j];
          }
          if IsUnder(q, temps[k]) {
            assert temps[..k + 1][k] == temps[k];
          }
        }
      }
      if fs.Exists(temps[k]) {
        fs.RemoveTree(temps[k]);
      }
    }
    assert temps[..|temps|] == temps;
  }

  /** Directories a pass may create lie on the output directory's path or are its
      own scratch directory. */
  lemma PassDirsBounded(outputDir: Path, n: nat, i: nat)
    ensures TempPassDir(outputDir, i) in Ancestors(TempPassDir(outputDir, i))
    ensures Ancestors(TempPassDir(outputDir, i)) <= Ancestors(outputDir) + {TempPassDir(outputDir, i)}
    ensures Ancestors(PassOutput(outputDir, n, i)) <= Ancestors(outputDir) + {TempPassDir(outputDir, i)}
  {
    var t := TempPassDir(outputDir, i);
    TempPassDirShape(outputDir, i);
    AncestorsOfParent(t);
    AncestorsOfParent(outputDir);
  }

  lemma PassCommandsStep(exe: Path, inputDir: Path, outputDir: Path, n: nat, model: string, gpuId: int, k: nat,
                         cs: seq<seq<string>>, cmd: seq<string>)
    requires cs == PassCommands(exe, inputDir, outputDir, n, model, gpuId, k)
    requires cmd == RifeCommand(exe, PassInput(inputDir, outputDir, n, k), PassOutput(outputDir, n, k), model, gpuId, false)
    ensures cs + [cmd] == PassCommands(exe, inputDir, outputDir, n, model, gpuId, k + 1)
  {
  }

  /** One more pass adds its scratch directory, unless it is the last. */
  lemma TempDirsStep(outputDir: Path, n: nat, k: nat)
    requires k < n
    ensures TempDirs(outputDir, TempCount(n, k + 1))
         == TempDirs(outputDir, TempCount(n, k)) + (if k + 1 < n then [TempPassDir(outputDir, k)] else [])
  {
    if k + 1 == n {
      assert TempDirs(outputDir, TempCount(n, k)) + [] == TempDirs(outputDir, TempCount(n, k));
    }
  }

  lemma UnionStep<T>(a: set<T>, b: set<T>, c: set<T>, d: set<T>)
    requires d == a + b + c
    ensures d == a + (b + c)
  {
  }

  /** One iteration of the pass loop: create the scratch directory unless this is
      the last pass, then run the binary from `currentInput` into the pass's output.
      `events0` and `dirs0` are what the callback had seen and which directories
      existed before the loop; the contract restates the loop's state after pass
      `passNum`. */
  method RunPass<E>(fs: FileSystem, rife: Tool, inputDir: Path, currentInput: Path, outputDir: Path, n: nat,
                    passNum: nat, model: string, gpuId: int, runs: nat -> ProcessRun, sink: Sink<E>,
                    tag: (int, int, int) -> E, ghost events0: seq<E>, ghost dirs0: set<Path>)
    returns (ok: Outcome<bool>, cmd: seq<string>)
    requires passNum < n && sink.Valid()
    requires currentInput == PassInput(inputDir, outputDir, n, passNum)
    requires sink.events == events0 + Forwarded(runs, tag, passNum)
    requires Fits(sink.limit, |events0|, |Forwarded(runs, tag, passNum)|)
    requires fs.dirs == dirs0 + DirsMade(outputDir, n, passNum)
    modifies fs, sink
    ensures sink.Valid()
    ensures fs.files == old(fs.files)
    ensures ok.Raise? ==> !rife.present && ok == Raise(FileNotFound("RIFE executable"))
                          && sink.events == old(sink.events)
                          && fs.dirs == old(fs.dirs) + (if passNum + 1 < n then Ancestors(TempPassDir(outputDir, passNum)) else {})
    ensures ok.Return? ==>
      && rife.present
      && cmd == RifeCommand(rife.path, currentInput, PassOutput(outputDir, n, passNum), model, gpuId, false)
      && fs.dirs == dirs0 + DirsMade(outputDir, n, passNum + 1)
      && sink.events == events0 + Admit(sink.limit, |events0|, Forwarded(runs, tag, passNum + 1))
      && (ok.value ==> PassSucceeded(runs(passNum)) && Fits(sink.limit, |events0|, |Forwarded(runs, tag, passNum + 1)|)
                       && sink.events == events0 + Forwarded(runs, tag, passNum + 1))
      && (!ok.value ==> AllSucceeded(runs, passNum) ==> PassesStopped(runs, tag, sink.limit, |events0|, passNum + 1))
  {
    var currentOutput: Path;
    if passNum == n - 1 {
      currentOutput := outputDir;
    } else {
      var tempOutput := TempPassDir(outputDir, passNum);
      fs.MakeDirs(tempOutput);
      currentOutput := tempOutput;
    }
    ok, cmd := RunRife(fs, rife, currentInput, currentOutput, model, gpuId, false, runs(passNum), sink, PassTag(tag, passNum + 1));
    if ok.Return? {
      ghost var done, next := Forwarded(runs, tag, passNum), PassReports(runs(passNum), tag, passNum + 1);
      AdmitNext(sink.limit, events0, done, next, sink.events, ok.value, PassSucceeded(runs(passNum)));
      assert Forwarded(runs, tag, passNum + 1) == done + next;
      UnionStep(dirs0, DirsMade(outputDir, n, passNum), Ancestors(PassOutput(outputDir, n, passNum)), fs.dirs);
    }
  }

  /** The directories the first `k` passes create: every ancestor of each pass's
      output directory. */
  function DirsMade(outputDir: Path, n: nat, k: nat): set<Path> {
    if k == 0 then {} else DirsMade(outputDir, n, k - 1) + Ancestors(PassOutput(outputDir, n, k - 1))
  }

  /** What the passes create lies on the output directory's path or inside a
      scratch directory of one of them. */
  lemma {:induction false} DirsMadeBounded(outputDir: Path, n: nat, k: nat)
    requires k <= n
    ensures forall q :: q in DirsMade(outputDir, n, k) ==>
      q in Ancestors(outputDir) || UnderSome(q, TempDirs(outputDir, TempCount(n, k)))
  {
    if k > 0 {
      DirsMadeBounded(outputDir, n, k - 1);
      PassDirsBounded(outputDir, n, k - 1);
      var ts, ts' := TempDirs(outputDir, TempCount(n, k - 1)), TempDirs(outputDir, TempCount(n, k));
      assert forall q :: UnderSome(q, ts) ==> UnderSome(q, ts') by {
        forall q | UnderSome(q, ts) ensures UnderSome(q, ts') {
          var j :| 0 <= j < |ts| && IsUnder(q, ts[j]);
          TempDirsAt(outputDir, TempCount(n, k - 1), j);
          TempDirsAt(outputDir, TempCount(n, k), j);
        }
      }
      if k < n {
        TempDirsAt(outputDir, k, k - 1);
        assert IsUnder(TempPassDir(outputDir, k - 1), ts'[k - 1]);
      }
    }
  }

  /** Every scratch directory of the first `k` passes is among what they created. */
  lemma {:induction false} TempsMade(outputDir: Path, n: nat, k: nat)
    requires k <= n
    ensures forall t :: t in TempDirs(outputDir, TempCount(n, k)) ==> t in DirsMade(outputDir, n, k)
  {
    if k > 0 {
      TempsMade(outputDir, n, k - 1);
      PassDirsBounded(outputDir, n, k - 1);
      var ts, ts' := TempDirs(outputDir, TempCount(n, k - 1)), TempDirs(outputDir, TempCount(n, k));
      forall t | t in ts' ensures t in DirsMade(outputDir, n, k) {
        var j :| 0 <= j < |ts'| && ts'[j] == t;
        TempDirsAt(outputDir, TempCount(n, k), j);
        if j < k - 1 {
          TempDirsAt(outputDir, TempCount(n, k - 1), j);
        } else {
          PassDirsBounded(outputDir, n, j);
        }
      }
    }
  }

  /** The last pass creates the output directory. */
  lemma OutputMade(outputDir: Path, n: nat)
    requires n > 0 && |outputDir.parts| > 0
    ensures outputDir in DirsMade(outputDir, n, n)
  {
    AncestorsOfParent(outputDir);
  }

  /** The pass loop of `interpolate_multi_pass`, up to the return or the raise.
      It stops at the first pass that fails; `tempDirs` are the scratch
      directories it created. */
  method RunPasses<E>(fs: FileSystem, rife: Tool, inputDir: Path, outputDir: Path, n: nat,
                      model: string, gpuId: int, runs: nat -> ProcessRun, sink: Sink<E>,
                      tag: (int, int, int) -> E)
    returns (r: Outcome<bool>, tempDirs: seq<Path>, ghost cmds: seq<seq<string>>)
    requires sink.Valid()
    modifies fs, sink
    ensures sink.Valid()
    ensures |cmds| <= n
    ensures cmds == PassCommands(rife.path, inputDir, outputDir, n, model, gpuId, |cmds|)
    ensures sink.events == old(sink.events) + Admit(sink.limit, |old(sink.events)|, Forwarded(runs, tag, |cmds|))
    ensures r == Return(true) ==> |cmds| == n && AllSucceeded(runs, n)
    ensures r == Return(true) ==> Fits(sink.limit, |old(sink.events)|, |Forwarded(runs, tag, n)|)
    ensures |cmds| > 0 ==> rife.present
    ensures r == Return(false) ==> PassesStopped(runs, tag, sink.limit, |old(sink.events)|, |cmds|)
    ensures r.Raise? ==>
      && !rife.present && n >= 1 && r == Raise(FileNotFound("RIFE executable")) && cmds == []
      && fs.dirs == old(fs.dirs) + (if n >= 2 then Ancestors(TempPassDir(outputDir, 0)) else {})
    ensures r.Return? ==>
      && tempDirs == TempDirs(outputDir, TempCount(n, |cmds|))
      && fs.dirs == old(fs.dirs) + DirsMade(outputDir, n, |cmds|)
    ensures fs.files == old(fs.files)
  {
    var currentInput := inputDir;
    tempDirs := [];
    cmds := [];
    ghost var events0 := sink.events;
    var passNum := 0;
    while passNum < n
      invariant 0 <= passNum <= n
      invariant |cmds| == passNum
      invariant tempDirs == TempDirs(outputDir, TempCount(n, passNum))
      invariant currentInput == PassInput(inputDir, outputDir, n, passNum)
      invariant cmds == PassCommands(rife.path, inputDir, outputDir, n, model, gpuId, passNum)
      invariant AllSucceeded(runs, passNum)
      invariant sink.events == events0 + Forwarded(runs, tag, passNum)
      invariant Fits(sink.limit, |events0|, |Forwarded(runs, tag, passNum)|)
      invariant sink.Valid()
      invariant fs.files == old(fs.files)
      invariant fs.dirs == old(fs.dirs) + DirsMade(outputDir, n, passNum)
      invariant passNum > 0 ==> rife.present
    {
      var ok, cmd := RunPass(fs, rife, inputDir, currentInput, outputDir, n, passNum, model, gpuId, runs, sink, tag,
                             events0, old(fs.dirs));
      TempDirsStep(outputDir, n, passNum);
      tempDirs := tempDirs + if passNum + 1 < n then [TempPassDir(outputDir, passNum)] else [];
      if ok.Raise? {
        return ok, tempDirs, cmds;
      }
      ghost var cmdsBefore := cmds;
      cmds := cmds + [cmd];
      PassCommandsStep(rife.path, inputDir, outputDir, n, model, gpuId, passNum, cmdsBefore, cmd);
      if !ok.value {
        assert |cmds| == passNum + 1;
        return Return(false), tempDirs, cmds;
      }
      currentInput := PassOutput(outputDir, n, passNum);
      passNum := passNum + 1;
    }
    r := Return(true);
  }

  /** How many passes run from pass `k` on when the callback never raises: up to
      and including the first that fails. */
  function Launched(runs: nat -> ProcessRun, n: nat, k: nat): (c: nat)
    ensures k <= n ==> k <= c <= n
    decreases n - k
  {
    if k >= n then n
    else if !PassSucceeded(runs(k)) then k + 1
    else Launched(runs, n, k + 1)
  }

  /** A run that got through `c - 1` passes launched at least `c`, and exactly `c`
      when pass `c - 1` failed; when all `n` succeed, all `n` are launched. */
  lemma {:induction false} LaunchedAfter(runs: nat -> ProcessRun, n: nat, k: nat, c: nat)
    requires k < c <= n && forall i :: k <= i < c - 1 ==> PassSucceeded(runs(i))
    ensures c <= Launched(runs, n, k)
    ensures !PassSucceeded(runs(c - 1)) ==> Launched(runs, n, k) == c
    decreases c - k
  {
    if k < c - 1 {
      LaunchedAfter(runs, n, k + 1, c);
    }
  }

  lemma {:induction false} LaunchedAll(runs: nat -> ProcessRun, n: nat, k: nat)
    requires k <= n && forall i :: k <= i < n ==> PassSucceeded(runs(i))
    ensures Launched(runs, n, k) == n
    decreases n - k
  {
    if k < n {
      LaunchedAll(runs, n, k + 1);
    }
  }

  /** The reports of more passes extend those of fewer. */
  lemma {:induction false} ForwardedPrefix<E>(runs: nat -> ProcessRun, tag: (int, int, int) -> E, c: nat, d: nat)
    requires c <= d
    ensures Forwarded(runs, tag, c) <= Forwarded(runs, tag, d)
    decreases d - c
  {
    if c < d {
      ForwardedPrefix(runs, tag, c, d - 1);
      var prev := Forwarded(runs, tag, d - 1);
      assert Forwarded(runs, tag, d) == prev + PassReports(runs(d - 1), tag, d);
      PrefixOfAppend(Forwarded(runs, tag, c), prev, PassReports(runs(d - 1), tag, d));
    }
  }

  /** The callback invocations of `interpolate_multi_pass` when none raises. */
  function MultiPassReports<E>(rife: Tool, multiplier: int, runs: nat -> ProcessRun, tag: (int, int, int) -> E): seq<E> {
    if multiplier < 1 then []
    else
      var n := FloorLog2(multiplier);
      if !rife.present && n >= 1 then [] else Forwarded(runs, tag, Launched(runs, n, 0))
  }

  /** What `interpolate_multi_pass` returns or raises, the callback having accepted
      `sofar` invocations of at most `limit`: True exactly when every pass succeeds
      and the callback never raises. */
  function MultiPassOutcome<E>(rife: Tool, multiplier: int, runs: nat -> ProcessRun, tag: (int, int, int) -> E,
                               limit: Option<nat>, sofar: nat): Outcome<bool>
  {
    if multiplier < 1 then Raise(ValueError("math domain error"))
    else
      var n := FloorLog2(multiplier);
      if !rife.present && n >= 1 then Raise(FileNotFound("RIFE executable"))
      else Return(AllSucceeded(runs, n) && Fits(limit, sofar, |MultiPassReports(rife, multiplier, runs, tag)|))
  }

  /** The closed form of what the pass loop delivered and returned, from the facts
      the loop establishes about the `c` passes it launched. */
  lemma MultiPassClosedForm<E>(runs: nat -> ProcessRun, tag: (int, int, int) -> E, n: nat,
                               limit: Option<nat>, sofar: nat, c: nat, ok: bool)
    requires c <= n
    requires ok ==> c == n && AllSucceeded(runs, n) && Fits(limit, sofar, |Forwarded(runs, tag, n)|)
    requires !ok ==> PassesStopped(runs, tag, limit, sofar, c)
    ensures var l := Launched(runs, n, 0);
      && Admit(limit, sofar, Forwarded(runs, tag, c)) == Admit(limit, sofar, Forwarded(runs, tag, l))
      && ok == (AllSucceeded(runs, n) && Fits(limit, sofar, |Forwarded(runs, tag, l)|))
  {
    AllSucceededIff(runs, n);
    if ok {
      LaunchedAll(runs, n, 0);
    } else {
      AllSucceededIff(runs, c - 1);
      LaunchedAfter(runs, n, 0, c);
      var l := Launched(runs, n, 0);
      ForwardedPrefix(runs, tag, c, l);
      var a := Forwarded(runs, tag, c);
      var b := Forwarded(runs, tag, l)[|a|..];
      assert Forwarded(runs, tag, l) == a + b;
      AdmitAppend(limit, sofar, a, b);
    }
  }

  /** The passes launched from pass `k` on all succeed but the last, and the last
      one failed unless all `n` ran. */
  lemma {:induction false} LaunchedShape(runs: nat -> ProcessRun, n: nat, k: nat)
    requires k <= n
    ensures var c := Launched(runs, n, k);
      && (forall i :: k <= i < c - 1 ==> PassSucceeded(runs(i)))
      && (k < n ==> k < c)
      && (c < n ==> !PassSucceeded(runs(c - 1)))
    decreases n - k
  {
    if k < n && PassSucceeded(runs(k)) {
      LaunchedShape(runs, n, k + 1);
    }
  }

  /** Without a callback that raises, the scheduler reports True exactly when
      every one of its passes succeeds. */
  lemma MultiPassSucceedsIff<E>(rife: Tool, multiplier: int, runs: nat -> ProcessRun, tag: (int, int, int) -> E, sofar: nat)
    requires multiplier >= 1 && (rife.present || FloorLog2(multiplier) == 0)
    ensures MultiPassOutcome(rife, multiplier, runs, tag, None, sofar)
         == Return(forall i :: 0 <= i < FloorLog2(multiplier) ==> PassSucceeded(runs(i)))
  {
    AllSucceededIff(runs, FloorLog2(multiplier));
  }

  /** The callback hears from the passes up to and including the first that
      fails, in order, each tagged with its 1-based number. */
  lemma MultiPassReportsUpToFailure<E>(rife: Tool, multiplier: int, runs: nat -> ProcessRun, tag: (int, int, int) -> E)
    requires multiplier >= 1 && rife.present
    ensures var n := FloorLog2(multiplier);
      var c := Launched(runs, n, 0);
      && MultiPassReports(rife, multiplier, runs, tag) == Forwarded(runs, tag, c)
      && c <= n && (n > 0 ==> c > 0)
      && (forall i :: 0 <= i < c - 1 ==> PassSucceeded(runs(i)))
      && (c < n ==> !PassSucceeded(runs(c - 1)))
  {
    LaunchedShape(runs, FloorLog2(multiplier), 0);
  }

  /** True means every pass succeeded and the callback accepted every report. */
  lemma MultiPassTrueMeans<E>(rife: Tool, multiplier: int, runs: nat -> ProcessRun, tag: (int, int, int) -> E,
                              limit: Option<nat>, sofar: nat)
    requires MultiPassOutcome(rife, multiplier, runs, tag, limit, sofar) == Return(true)
    ensures multiplier >= 1
    ensures forall i :: 0 <= i < FloorLog2(multiplier) ==> PassSucceeded(runs(i))
    ensures MultiPassReports(rife, multiplier, runs, tag) == Forwarded(runs, tag, FloorLog2(multiplier))
    ensures Fits(limit, sofar, |Forwarded(runs, tag, FloorLog2(multiplier))|)
  {
    var n := FloorLog2(multiplier);
    AllSucceededIff(runs, n);
    LaunchedAll(runs, n, 0);
  }

  /** The body of `interpolate_multi_pass` once the pass count `n` is known: the
      pass loop, then the removal of the scratch directories it created. */
  method RunPassesAndClean<E>(fs: FileSystem, rife: Tool, inputDir: Path, outputDir: Path, n: nat,
                              model: string, gpuId: int, runs: nat -> ProcessRun, sink: Sink<E>,
                              tag: (int, int, int) -> E)
    returns (r: Outcome<bool>, ghost cmds: seq<seq<string>>)
    requires sink.Valid()
    modifies fs, sink
    ensures sink.Valid()
    ensures |cmds| <= n
    ensures cmds == PassCommands(rife.path, inputDir, outputDir, n, model, gpuId, |cmds|)
    ensures r.Raise? ==>
      && !rife.present && n >= 1 && r == Raise(FileNotFound("RIFE executable")) && cmds == []
      && sink.events == old(sink.events)
      && fs.dirs == old(fs.dirs) + (if n >= 2 then Ancestors(TempPassDir(outputDir, 0)) else {})
      && fs.files == old(fs.files)
    ensures r.Return? ==>
      var temps := TempDirs(outputDir, TempCount(n, |cmds|));
      var reports := Forwarded(runs, tag, Launched(runs, n, 0));
      && (rife.present || n == 0)
      && sink.events == old(sink.events) + Admit(sink.limit, |old(sink.events)|, reports)
      && r.value == (AllSucceeded(runs, n) && Fits(sink.limit, |old(sink.events)|, |reports|))
      && (forall q :: q in fs.dirs ==> !UnderSome(q, temps))
      && (forall q :: q in old(fs.dirs) && !UnderSome(q, temps) ==> q in fs.dirs)
      && (forall q :: q in fs.files <==> q in old(fs.files) && !UnderSome(q, temps))
      && fs.dirs <= old(fs.dirs) + Ancestors(outputDir)
      && (r.value && n >= 1 && |outputDir.parts| > 0 && !UnderSome(outputDir, temps) ==> outputDir in fs.dirs)
  {
    var tempDirs;
    r, tempDirs, cmds := RunPasses(fs, rife, inputDir, outputDir, n, model, gpuId, runs, sink, tag);
    if r.Raise? {
      return;
    }
    MultiPassClosedForm(runs, tag, n, sink.limit, |old(sink.events)|, |cmds|, r.value);
    RemoveTempsOfPasses(fs, outputDir, tempDirs, n, |cmds|, old(fs.dirs));
  }

  /** `interpolate_multi_pass`. With `n = FloorLog2(multiplier)` passes (a warning,
      nothing more, when the multiplier is not a power of two), pass `i` runs the
      binary from `PassInput` into `PassOutput`; the scratch directory of every
      pass but the last is created first. The first failing pass stops the loop.
      On both exits every scratch directory created is removed and nothing outside
      them is; only a missing binary, which raises, leaves the first one behind.
      Callback invocations are forwarded unchanged with the 1-based pass number. */
  method InterpolateMultiPass<E>(fs: FileSystem, rife: Tool, inputDir: Path, outputDir: Path,
                                 multiplier: int, model: string, gpuId: int,
                                 runs: nat -> ProcessRun, sink: Sink<E>, tag: (int, int, int) -> E)
    returns (r: Outcome<bool>, warned: bool, ghost cmds: seq<seq<string>>)
    requires sink.Valid()
    modifies fs, sink
    ensures sink.Valid()
    ensures sink.events == old(sink.events) + Admit(sink.limit, |old(sink.events)|, MultiPassReports(rife, multiplier, runs, tag))
    ensures r == MultiPassOutcome(rife, multiplier, runs, tag, sink.limit, |old(sink.events)|)
    ensures multiplier < 1 ==> cmds == [] && fs.dirs == old(fs.dirs) && fs.files == old(fs.files)
    ensures multiplier >= 1 ==>
      var n := FloorLog2(multiplier);
      var temps := TempDirs(outputDir, TempCount(n, |cmds|));
      && warned == (Pow2(n) != multiplier)
      && |cmds| <= n
      && cmds == PassCommands(rife.path, inputDir, outputDir, n, model, gpuId, |cmds|)
      && (r.Raise? ==>
            && cmds == []
            && fs.dirs == old(fs.dirs) + (if n >= 2 then Ancestors(TempPassDir(outputDir, 0)) else {})
            && fs.files == old(fs.files))
      && (r.Return? ==>
            && (forall q :: q in fs.dirs ==> !UnderSome(q, temps))
            && (forall q :: q in old(fs.dirs) && !UnderSome(q, temps) ==> q in fs.dirs)
            && (forall q :: q in fs.files <==> q in old(fs.files) && !UnderSome(q, temps))
            && fs.dirs <= old(fs.dirs) + Ancestors(outputDir)
            && (r.value && n >= 1 && |outputDir.parts| > 0 && !UnderSome(outputDir, temps) ==> outputDir in fs.dirs))
  {
    if multiplier < 1 {
      return Raise(ValueError("math domain error")), false, [];
    }
    var n := FloorLog2(multiplier);
    warned := false;
    if Pow2(n) != multiplier {
      warned := true;
      n := FloorLog2(multiplier);
    }
    r, cmds := RunPassesAndClean(fs, rife, inputDir, outputDir, n, model, gpuId, runs, sink, tag);
  }

  /** The cleanup step of the scheduler, after `launched` passes that created
      `DirsMade` on top of `dirs0`: it removes exactly the scratch trees, so what
      remains of the new directories lies on the output directory's path. */
  method RemoveTempsOfPasses(fs: FileSystem, outputDir: Path, tempDirs: seq<Path>,
                             ghost n: nat, ghost launched: nat, ghost dirs0: set<Path>)
    requires launched <= n
    requires tempDirs == TempDirs(outputDir, TempCount(n, launched))
    requires fs.dirs == dirs0 + DirsMade(outputDir, n, launched)
    modifies fs
    ensures forall q :: q in fs.dirs ==> !UnderSome(q, tempDirs)
    ensures forall q :: q in dirs0 && !UnderSome(q, tempDirs) ==> q in fs.dirs
    ensures forall q :: q in fs.files <==> q in old(fs.files) && !UnderSome(q, tempDirs)
    ensures fs.dirs <= dirs0 + Ancestors(outputDir)
    ensures launched == n && n >= 1 && |outputDir.parts| > 0 && !UnderSome(outputDir, tempDirs) ==> outputDir in fs.dirs
  {
    TempsMade(outputDir, n, launched);
    DirsMadeBounded(outputDir, n, launched);
    if launched == n && n >= 1 && |outputDir.parts| > 0 {
      OutputMade(outputDir, n);
    }
    forall i, j | 0 <= i < j < |tempDirs| ensures !IsUnder(tempDirs[j], tempDirs[i]) {
      TempDirsAt(outputDir, |tempDirs|, i);
      TempDirsAt(outputDir, |tempDirs|, j);
      TempDirsIndependent(outputDir, j, i);
    }
    RemoveTemps(fs, tempDirs);
  }
}

=== FILE: runpod_client.dfy ===
/** The RunPod client for CogVideoX continuation: credential check, job submission,
    the status poll loop, and the choice of how to store the job's answer. The remote
    service, the image encoder and the file writer are oracles fixed in advance. */
module RunPodClient {
  import opened Common

  // ================================================================ records

  /** ContinuationConfig. The field defaults come from a table of config.py that is
      not part of this model, except for the two prompts below. */
  datatype ContinuationConfig = ContinuationConfig(
    prompt: string,
    negativePrompt: string,
    numFrames: int,
    numInferenceSteps: int,
    guidanceScale: real)

  const DefaultPrompt: string := ""
  const DefaultNegativePrompt: string := "blurry, low quality, distorted, inconsistent"

  /** ContinuationResult without its wall-clock `generation_time`. */
  datatype ContinuationResult = ContinuationResult(
    success: bool,
    videoPath: Option<Path>,
    errorMessage: Option<string>)

  function Failure(msg: string): ContinuationResult {
    ContinuationResult(false, None, Some(msg))
  }

  /** What an external step yields: a value, or an exception whose str() is `text`. */
  datatype Attempt<T> = Ok(value: T) | Failed(text: string)

  /** Where the job's answer says the video is. */
  datatype Payload = Url(url: Json) | Inline(data: Json)

  /** What `_save_video_result` does with an answer: store a payload, or raise a
      ValueError with message `msg` before writing anything. */
  datatype Saving = Save(payload: Payload) | Unusable(msg: string)

  /** The remote service and the local effects around it, fixed in advance. */
  datatype Remote = Remote(
    connect: Effect,                      // runpod.Endpoint(endpoint_id)
    encode: Path -> Attempt<string>,      // reading an image and base64-encoding it
    submit: map<string, Json> -> Effect,  // endpoint.run(input)
    status: nat -> string,                // the answer of the k-th job.status() call, k from 0
    output: Json,                         // job.output()
    store: (Payload, Path) -> Effect,     // downloading or decoding a payload into a file
    repr: Json -> string,                 // str() of lists, dicts and floats
    keys: map<string, Json> -> string)    // str(result.keys())

  /** One interaction with the remote side, in the order the client makes them. */
  datatype Call =
    | Connect
    | Encode(image: Path)
    | Submit(input: map<string, Json>)
    | Status(poll: nat)
    | Output
    | Store(payload: Payload, target: Path)

  /** The `input` part of the job request. */
  function JobInput(image: string, config: ContinuationConfig): (m: map<string, Json>)
    ensures m.Keys == {"image", "prompt", "negative_prompt", "num_frames", "num_inference_steps", "guidance_scale"}
    ensures m["image"] == JStr(image) && m["prompt"] == JStr(config.prompt)
    ensures m["negative_prompt"] == JStr(config.negativePrompt)
    ensures m["num_frames"] == JInt(config.numFrames)
    ensures m["num_inference_steps"] == JInt(config.numInferenceSteps)
    ensures m["guidance_scale"] == JFloat(config.guidanceScale)
  {
    map["image" := JStr(image),
        "prompt" := JStr(config.prompt),
        "negative_prompt" := JStr(config.negativePrompt),
        "num_frames" := JInt(config.numFrames),
        "num_inference_steps" := JInt(config.numInferenceSteps),
        "guidance_scale" := JFloat(config.guidanceScale)]
  }

  // ================================================================ the poll loop

  predicate IsTerminal(s: string) {
    s == "COMPLETED" || s == "FAILED" || s == "CANCELLED"
  }

  /** How many polls fit before the timeout: one at each elapsed = 0, 2, 4, ... below
      `timeout`, that is ceil(timeout / 2). */
  function PollBudget(timeout: int): nat
    decreases timeout
  {
    if timeout <= 0 then 0 else 1 + PollBudget(timeout - 2)
  }

  /** Poll `k` (at elapsed = 2k) happens exactly when it lies within the budget. */
  lemma {:induction false} PollBudgetAt(timeout: int, k: nat)
    ensures k < PollBudget(timeout) <==> 2 * k < timeout
    decreases timeout
  {
    if timeout > 0 && k > 0 {
      PollBudgetAt(timeout - 2, k - 1);
    }
  }

  /** The budget is ceil(timeout / 2) status queries. */
  lemma {:induction false} PollBudgetValue(timeout: int)
    ensures PollBudget(timeout) == if timeout <= 0 then 0 else (timeout + 1) / 2
    decreases timeout
  {
    if timeout > 0 {
      PollBudgetValue(timeout - 2);
    }
  }

  /** The first poll from `k` on, within the budget, whose status is terminal. */
  function FirstTerminal(status: nat -> string, budget: nat, k: nat): (r: Option<nat>)
    ensures r.Some? ==> k <= r.value < budget && IsTerminal(status(r.value))
    ensures r.Some? ==> forall i :: k <= i < r.value ==> !IsTerminal(status(i))
    ensures r.None? ==> forall i :: k <= i < budget ==> !IsTerminal(status(i))
    decreases budget - k
  {
    if k >= budget then None
    else if IsTerminal(status(k)) then Some(k)
    else FirstTerminal(status, budget, k + 1)
  }

  /** The estimate shown while the job runs: min(0.85, 0.15 + elapsed / 120 * 0.70). */
  function Estimate(elapsed: int): (p: real)
    ensures elapsed >= 0 ==> 0.15 <= p <= 0.85
  {
    var e := 0.15 + (elapsed as real / 120.0) * 0.70;
    if e < 0.85 then e else 0.85
  }

  /** The estimate never decreases as time passes. */
  lemma EstimateMonotone(a: int, b: int)
    requires a <= b
    ensures Estimate(a) <= Estimate(b)
  {
  }

  function GeneratingStage(status: string): string {
    "Generating (" + status + ")..."
  }

  lemma GeneratingStageInjective(s: string, t: string)
    requires GeneratingStage(s) == GeneratingStage(t)
    ensures s == t
  {
    var a, b := GeneratingStage(s), GeneratingStage(t);
    assert s == a[12..|a| - 4] && t == b[12..|b| - 4];
  }

  /** The progress reports of the polls from `k` on, `last` being the status reported
      last: a poll that is not terminal reports when there is a callback and its
      status differs from `last`. */
  function PollReports(status: nat -> string, budget: nat, hasCb: bool, k: nat, last: string): seq<Progress>
    decreases budget - k
  {
    if k >= budget || IsTerminal(status(k)) then []
    else
      var changed := hasCb && status(k) != last;
      Note(changed, GeneratingStage(status(k)), Estimate(2 * k))
      + PollReports(status, budget, hasCb, k + 1, if changed then status(k) else last)
  }

  /** The status queries of the first `n` polls. */
  function Queries(n: nat): (cs: seq<Call>)
    ensures |cs| == n && forall i {:trigger cs[i]} :: 0 <= i < n ==> cs[i] == Status(i)
  {
    seq(n, (i: nat) => Status(i))
  }

  /** The remote calls of the poll loop: a status query per poll up to the first
      terminal one (or the budget), then the output fetch after COMPLETED or FAILED. */
  function PollCalls(status: nat -> string, budget: nat): seq<Call> {
    match FirstTerminal(status, budget, 0)
    case None => Queries(budget)
    case Some(j) => Queries(j + 1) + OutputCalls(status(j))
  }

  /** How many statuses the loop queries: up to the first terminal one, or the budget. */
  function Polled(status: nat -> string, budget: nat): nat {
    match FirstTerminal(status, budget, 0)
    case None => budget
    case Some(j) => j + 1
  }

  /** The first terminal status within the budget, if any. */
  function TerminalStatus(status: nat -> string, budget: nat): (r: Option<string>)
    ensures r.Some? ==> IsTerminal(r.value)
  {
    match FirstTerminal(status, budget, 0)
    case None => None
    case Some(j) => Some(status(j))
  }

  /** COMPLETED and FAILED fetch the job's output; CANCELLED does not. */
  function OutputCalls(s: string): seq<Call> {
    if s == "CANCELLED" then [] else [Output]
  }

  /** The message of a failed job: the answer's "error" field (default "Unknown
      error") when it is a dict, its str() otherwise. */
  function FailureText(output: Json, repr: Json -> string): string {
    match output
    case JDict(f) => Str(Get(f, "error", JStr("Unknown error")), repr)
    case _ => Str(output, repr)
  }

  /** What a terminal status makes the loop do. */
  function TerminalResult(s: string, output: Json, repr: Json -> string): (r: Outcome<Json>)
    requires IsTerminal(s)
  {
    if s == "COMPLETED" then Return(output)
    else if s == "FAILED" then Raise(JobFailed("Job failed: " + FailureText(output, repr)))
    else Raise(JobFailed("Job was cancelled"))
  }

  /** How the poll loop ends when the callback never raises. */
  function PollResult(status: nat -> string, output: Json, repr: Json -> string, timeout: int): Outcome<Json> {
    match FirstTerminal(status, PollBudget(timeout), 0)
    case None => Raise(JobTimeout)
    case Some(j) => TerminalResult(status(j), output, repr)
  }

  /** The loop times out exactly when no status within the budget is terminal, and
      otherwise ends as the first terminal status says. */
  lemma PollResultCases(status: nat -> string, output: Json, repr: Json -> string, timeout: int)
    ensures var r := PollResult(status, output, repr, timeout);
      && (r == Raise(JobTimeout) <==> forall k :: 0 <= k < PollBudget(timeout) ==> !IsTerminal(status(k)))
      && (r.Return? <==> exists j :: 0 <= j < PollBudget(timeout) && status(j) == "COMPLETED"
                                    && forall i :: 0 <= i < j ==> !IsTerminal(status(i)))
      && (r.Return? ==> r.value == output)
      && (r.Raise? ==> r.exc == JobTimeout || r.exc.JobFailed?)
  {
    var ft := FirstTerminal(status, PollBudget(timeout), 0);
    if ft.Some? {
      var j := ft.value;
      assert !(forall k :: 0 <= k < PollBudget(timeout) ==> !IsTerminal(status(k)));
      if status(j) != "COMPLETED" {
        forall j' | 0 <= j' < PollBudget(timeout) && status(j') == "COMPLETED"
          ensures exists i :: 0 <= i < j' && IsTerminal(status(i))
        {
          assert j' != j;
          assert j < j';
        }
      }
    }
  }

  /** The status is queried for consecutive polls from the first on and never beyond
      the budget; the output is fetched at most once, last, and only after a status. */
  lemma PollCallsShape(status: nat -> string, budget: nat)
    ensures var cs := PollCalls(status, budget);
      forall i :: 0 <= i < |cs| ==> (cs[i] == Status(i) && i < budget) || (i == |cs| - 1 && i > 0 && cs[i] == Output)
  {
  }

  /** Polling reports lie between the estimate of their start and 0.85 and never
      decrease; without a callback there are none. */
  lemma {:induction false} PollReportsProgress(status: nat -> string, budget: nat, hasCb: bool, k: nat, last: string)
    ensures var rs := PollReports(status, budget, hasCb, k, last);
      && Climbs(rs, Estimate(2 * k), 0.85)
      && (!hasCb ==> rs == [])
    decreases budget - k
  {
    if k < budget && !IsTerminal(status(k)) {
      var s := status(k);
      var changed := hasCb && s != last;
      var next := if changed then s else last;
      var note := Note(changed, GeneratingStage(s), Estimate(2 * k));
      EstimateMonotone(2 * k, 2 * (k + 1));
      PollReportsProgress(status, budget, hasCb, k + 1, next);
      assert Climbs(note, Estimate(2 * k), Estimate(2 * k));
      ClimbsAppend(note, PollReports(status, budget, hasCb, k + 1, next),
                   Estimate(2 * k), Estimate(2 * k), Estimate(2 * (k + 1)), 0.85);
    }
  }

  /** A polling report names a status other than the one reported before it (none,
      at first, which reads as the empty status). */
  lemma {:induction false} PollReportsChangeOnly(status: nat -> string, budget: nat, hasCb: bool, k: nat, last: string)
    ensures var rs := PollReports(status, budget, hasCb, k, last);
      && (|rs| > 0 ==> rs[0].stage != GeneratingStage(last))
      && forall i :: 0 < i < |rs| ==> rs[i - 1].stage != rs[i].stage
    decreases budget - k
  {
    if k < budget && !IsTerminal(status(k)) {
      var s := status(k);
      if hasCb && s != last {
        var rest := PollReports(status, budget, hasCb, k + 1, s);
        PollReportsChangeOnly(status, budget, hasCb, k + 1, s);
        if GeneratingStage(s) == GeneratingStage(last) {
          GeneratingStageInjective(s, last);
        }
        var rs := [Progress(GeneratingStage(s), Estimate(2 * k))] + rest;
        assert PollReports(status, budget, hasCb, k, last) == rs;
        forall i | 0 < i < |rs| ensures rs[i - 1].stage != rs[i].stage {
          if i == 1 {
            assert rs[1] == rest[0];
          } else {
            assert rs[i - 1] == rest[i - 2] && rs[i] == rest[i - 1];
          }
        }
      } else {
        PollReportsChangeOnly(status, budget, hasCb, k + 1, last);
        assert PollReports(status, budget, hasCb, k, last) == PollReports(status, budget, hasCb, k + 1, last);
      }
    }
  }

  /** Unrolling the loop state by one non-terminal poll. */
  lemma PollStep(status: nat -> string, budget: nat, hasCb: bool, k: nat, last: string)
    requires k < budget && !IsTerminal(status(k))
    ensures var changed := hasCb && status(k) != last;
      PollReports(status, budget, hasCb, k, last)
        == Note(changed, GeneratingStage(status(k)), Estimate(2 * k))
           + PollReports(status, budget, hasCb, k + 1, if changed then status(k) else last)
    ensures FirstTerminal(status, budget, k) == FirstTerminal(status, budget, k + 1)
  {
  }

  /** Poll `k`, before which no status was terminal, is the last one when its status
      is terminal, and is followed by another query otherwise. */
  lemma PollsStep(status: nat -> string, budget: nat, k: nat)
    requires k < budget
    requires FirstTerminal(status, budget, 0) == FirstTerminal(status, budget, k)
    ensures IsTerminal(status(k)) ==> Polled(status, budget) == k + 1 && TerminalStatus(status, budget) == Some(status(k))
    ensures !IsTerminal(status(k)) ==> k + 1 <= Polled(status, budget)
  {
  }

  /** Fewer queries are a prefix of more. */
  lemma QueriesPrefix(m: nat, n: nat)
    requires m <= n
    ensures Queries(m) <= Queries(n)
  {
    assert Queries(m) == Queries(n)[..m];
  }

  /** The loop of `_poll_job_status`: a status query every 2 seconds of `elapsed` until
      a terminal status or the timeout, reporting each change of status to the callback
      through `wrap`. It stops early when the callback raises. */
  method AwaitTerminal(status: nat -> string, timeout: int, hasCb: bool, sink: Sink<Progress>,
                       wrap: Progress -> Progress)
    returns (terminal: Option<string>, raised: bool, polls: nat)
    requires sink.Valid()
    modifies sink
    ensures sink.Valid()
    ensures var budget := PollBudget(timeout);
      var reports := Mapped(PollReports(status, budget, hasCb, 0, ""), wrap);
      && sink.events == old(sink.events) + Admit(sink.limit, |old(sink.events)|, reports)
      && (raised <==> !Fits(sink.limit, |old(sink.events)|, |reports|))
      && polls <= Polled(status, budget)
      && (!raised ==> terminal == TerminalStatus(status, budget) && polls == Polled(status, budget))
  {
    var budget := PollBudget(timeout);
    ghost var before := sink.events;
    ghost var full := PollReports(status, budget, hasCb, 0, "");
    ghost var done: seq<Progress> := [];
    var k: nat := 0;  // the number of status queries so far
    var elapsed := 0;
    var lastStatus := "";
    while elapsed < timeout
      modifies sink
      invariant elapsed == 2 * k && k <= budget
      invariant sink.Valid()
      invariant full == done + PollReports(status, budget, hasCb, k, lastStatus)
      invariant sink.events == before + Mapped(done, wrap)
      invariant Fits(sink.limit, |before|, |done|)
      invariant FirstTerminal(status, budget, 0) == FirstTerminal(status, budget, k)
      decreases timeout - elapsed
    {
      PollBudgetAt(timeout, k);
      var s := status(k);
      PollsStep(status, budget, k);
      if IsTerminal(s) {
        Delivered(sink.limit, before, done, full, wrap);
        return Some(s), false, k + 1;
      }
      PollStep(status, budget, hasCb, k, lastStatus);
      var changed := hasCb && s != lastStatus;
      ghost var note := Note(changed, GeneratingStage(s), Estimate(2 * k));
      ghost var rest := PollReports(status, budget, hasCb, k + 1, if changed then s else lastStatus);
      raised := Report(changed, sink, Progress(GeneratingStage(s), Estimate(elapsed)), wrap);
      if raised {
        Interrupt(sink.limit, before, done, note, rest, full, wrap);
        return None, true, k + 1;
      }
      Continue(sink.limit, before, done, note, rest, full, wrap);
      done := done + note;
      if changed {
        lastStatus := s;
      }
      elapsed := elapsed + 2;
      k := k + 1;
    }
    PollBudgetAt(timeout, k);
    Delivered(sink.limit, before, done, full, wrap);
    terminal, raised, polls := None, false, k;
  }

  /** `_poll_job_status`: waits for a terminal status, then returns the job's output
      (COMPLETED) or raises JobFailedError (FAILED, CANCELLED); JobTimeoutError when
      no status within the timeout is terminal. A callback that raises ends the call
      with its exception. */
  method PollJobStatus(status: nat -> string, output: Json, repr: Json -> string, timeout: int,
                       hasCb: bool, sink: Sink<Progress>, wrap: Progress -> Progress)
    returns (r: Outcome<Json>, calls: seq<Call>)
    requires sink.Valid()
    modifies sink
    ensures sink.Valid()
    ensures var reports := Mapped(PollReports(status, PollBudget(timeout), hasCb, 0, ""), wrap);
      && sink.events == old(sink.events) + Admit(sink.limit, |old(sink.events)|, reports)
      && r == (if Fits(sink.limit, |old(sink.events)|, |reports|) then PollResult(status, output, repr, timeout)
               else Raise(Interrupted))
      && calls <= PollCalls(status, PollBudget(timeout))
      && (Fits(sink.limit, |old(sink.events)|, |reports|) ==> calls == PollCalls(status, PollBudget(timeout)))
  {
    var terminal, raised, polls := AwaitTerminal(status, timeout, hasCb, sink, wrap);
    ghost var budget := PollBudget(timeout);
    QueriesPrefix(polls, Polled(status, budget));
    calls := Queries(polls);
    if raised {
      r := Raise(Interrupted);
    } else if terminal.None? {
      r := Raise(JobTimeout);
    } else {
      calls := calls + OutputCalls(terminal.value);
      r := TerminalResult(terminal.value, output, repr);
    }
  }

  /** The callback accepted all of `done`, which is the whole trace `full`. */
  lemma Delivered(limit: Option<nat>, before: seq<Progress>, done: seq<Progress>, full: seq<Progress>,
                  wrap: Progress -> Progress)
    requires Fits(limit, |before|, |done|) && full == done
    ensures Fits(limit, |before|, |Mapped(full, wrap)|)
    ensures before + Mapped(done, wrap) == before + Admit(limit, |before|, Mapped(full, wrap))
  {
  }

  /** The callback accepted `done` and then `step`: the whole of both is delivered. */
  lemma Continue(limit: Option<nat>, before: seq<Progress>, done: seq<Progress>, step: seq<Progress>,
                 rest: seq<Progress>, full: seq<Progress>, wrap: Progress -> Progress)
    requires Fits(limit, |before|, |done|) && full == done + (step + rest)
    requires Fits(limit, |before| + |Mapped(done, wrap)|, |Mapped(step, wrap)|)
    ensures Fits(limit, |before|, |done + step|) && full == (done + step) + rest
    ensures before + Mapped(done, wrap) + Admit(limit, |before| + |Mapped(done, wrap)|, Mapped(step, wrap))
         == before + Mapped(done + step, wrap)
  {
    MappedAppend(done, step, wrap);
  }

  /** The callback raised inside `step` after accepting `done`: the whole trace
      `done + step + rest` does not fit and what was delivered is its admitted part. */
  lemma Interrupt(limit: Option<nat>, before: seq<Progress>, done: seq<Progress>, step: seq<Progress>,
                  rest: seq<Progress>, full: seq<Progress>, wrap: Progress -> Progress)
    requires Fits(limit, |before|, |done|) && full == done + (step + rest)
    requires !Fits(limit, |before| + |Mapped(done, wrap)|, |Mapped(step, wrap)|)
    ensures !Fits(limit, |before|, |Mapped(full, wrap)|)
    ensures before + Mapped(done, wrap) + Admit(limit, |before| + |Mapped(done, wrap)|, Mapped(step, wrap))
         == before + Admit(limit, |before|, Mapped(full, wrap))
  {
    assert full == done + step + rest;
    MappedAppend(done + step, rest, wrap);
    MappedAppend(done, step, wrap);
    AdmitPrefix(limit, |before|, Mapped(done, wrap), Mapped(step, wrap), Mapped(rest, wrap));
  }

  // ================================================================ storing the answer

  /** The shape check of `_save_video_result`, in its order of priority. */
  function Classify(result: Json, keys: map<string, Json> -> string): Saving {
    match result
    case JDict(f) =>
      if "video_url" in f then Save(Url(f["video_url"]))
      else if "video" in f then Save(Inline(f["video"]))
      else if "output" in f then
        (match f["output"]
         case JStr(_) => Save(Inline(f["output"]))
         case JDict(g) =>
           if "video" in g then Save(Inline(g["video"]))
           else Unusable("Unexpected output format: " + TypeName(f["output"]))
         case _ => Unusable("Unexpected output format: " + TypeName(f["output"])))
      else Unusable("Unknown response format. Keys: " + keys(f))
    case JStr(_) => Save(Inline(result))
    case _ => Unusable("Unexpected result type: " + TypeName(result))
  }

  /** Where a usable answer keeps its video, if anywhere. */
  predicate HasVideo(result: Json) {
    || result.JStr?
    || (result.JDict? && (
         || "video_url" in result.fields
         || "video" in result.fields
         || ("output" in result.fields && result.fields["output"].JStr?)
         || ("output" in result.fields && result.fields["output"].JDict? && "video" in result.fields["output"].fields)))
  }

  /** A URL wins over every other key. Without one, the inline payload is exactly
      the top-level string, else "video", else the string "output", else "output"'s
      "video"; the answer is refused exactly when it carries none of these. */
  lemma ClassifyPriority(result: Json, keys: map<string, Json> -> string)
    ensures var c := Classify(result, keys);
      && (c.Unusable? <==> !HasVideo(result))
      && (result.JDict? && "video_url" in result.fields ==> c == Save(Url(result.fields["video_url"])))
      && (c.Save? && c.payload.Url? ==> result.JDict? && "video_url" in result.fields)
      && (result.JStr? ==> c == Save(Inline(result)))
      && (result.JDict? && "video_url" !in result.fields && "video" in result.fields ==>
            c == Save(Inline(result.fields["video"])))
      && (result.JDict? && "video_url" !in result.fields && "video" !in result.fields
          && "output" in result.fields && result.fields["output"].JStr? ==>
            c == Save(Inline(result.fields["output"])))
      && (result.JDict? && "video_url" !in result.fields && "video" !in result.fields
          && "output" in result.fields && result.fields["output"].JDict? && "video" in result.fields["output"].fields ==>
            c == Save(Inline(result.fields["output"].fields["video"])))
  {
  }


  // ================================================================ the client

  /** What one `generate_continuation` call is asked to do. */
  datatype Request = Request(image: Path, config: ContinuationConfig, outputPath: Path)

  /** Where `generate_continuation` stops when no progress callback raises. */
  datatype Stop =
    | BadCredentials(msg: string)
    | EncodeFailed(text: string)
    | SubmitFailed(text: string)
    | PollFailed(exc: Exc)
    | SaveFailed(text: string)
    | Finished

  /** `validate_credentials` as a value: the (success, message) pair. */
  function Validation(apiKey: string, endpointId: string, connect: Effect): (bool, string) {
    if apiKey == "" then (false, "RunPod API key is not set")
    else if endpointId == "" then (false, "RunPod endpoint ID is not set")
    else match connect
      case Done => (true, "Credentials validated")
      case Fails(t) => (false, "Failed to connect to endpoint: " + t)
  }

  /** The stop, from the save stage on, given the job's answer. */
  function StopAtSave(answer: Json, req: Request, remote: Remote): Stop {
    match Classify(answer, remote.keys)
    case Unusable(msg) => SaveFailed(msg)
    case Save(payload) =>
      match remote.store(payload, req.outputPath)
      case Fails(t) => SaveFailed(t)
      case Done => Finished
  }

  /** The stop, from the poll stage on. */
  function StopAtPoll(req: Request, remote: Remote, timeout: int): Stop {
    match PollResult(remote.status, remote.output, remote.repr, timeout)
    case Raise(e) => PollFailed(e)
    case Return(answer) => StopAtSave(answer, req, remote)
  }

  /** The stop, from the submission of the encoded image `b64` on. */
  function StopAtSubmit(b64: string, req: Request, remote: Remote, timeout: int): Stop {
    match remote.submit(JobInput(b64, req.config))
    case Fails(t) => SubmitFailed(t)
    case Done => StopAtPoll(req, remote, timeout)
  }

  /** The stop, from the encoding stage on. */
  function StopAtEncode(req: Request, remote: Remote, timeout: int): Stop {
    match remote.encode(req.image)
    case Failed(t) => EncodeFailed(t)
    case Ok(b64) => StopAtSubmit(b64, req, remote, timeout)
  }

  function ClientStop(apiKey: string, endpointId: string, req: Request, remote: Remote, timeout: int): Stop {
    var (valid, message) := Validation(apiKey, endpointId, remote.connect);
    if valid then StopAtEncode(req, remote, timeout) else BadCredentials(message)
  }

  /** The result `generate_continuation` returns at a stop. */
  function ClientResult(stop: Stop, outputPath: Path, timeout: int): ContinuationResult {
    match stop
    case BadCredentials(msg) => Failure(msg)
    case EncodeFailed(t) => Failure("Failed to encode image: " + t)
    case SubmitFailed(t) => Failure("Failed to submit job: " + t)
    case PollFailed(e) =>
      (match e
       case JobFailed(m) => Failure(m)
       case _ => Failure("Job timed out after " + IntToString(timeout) + " seconds"))
    case SaveFailed(t) => Failure("Failed to save video: " + t)
    case Finished => ContinuationResult(true, Some(outputPath), None)
  }

  /** One report, made only when there is a callback. */
  function Note(hasCb: bool, stage: string, value: real): seq<Progress> {
    if hasCb then [Progress(stage, value)] else []
  }

  function ReportsAtSave(answer: Json, hasCb: bool, req: Request, remote: Remote): seq<Progress> {
    Note(hasCb, "Downloading result...", 0.90)
    + (if StopAtSave(answer, req, remote) == Finished then Note(hasCb, "Complete!", 1.0) else [])
  }

  function ReportsAtPoll(hasCb: bool, req: Request, remote: Remote, timeout: int): seq<Progress> {
    PollReports(remote.status, PollBudget(timeout), hasCb, 0, "")
    + match PollResult(remote.status, remote.output, remote.repr, timeout)
      case Raise(_) => []
      case Return(answer) => ReportsAtSave(answer, hasCb, req, remote)
  }

  function ReportsAtSubmit(b64: string, hasCb: bool, req: Request, remote: Remote, timeout: int): seq<Progress> {
    Note(hasCb, "Submitting to RunPod...", 0.10)
    + match remote.submit(JobInput(b64, req.config))
      case Fails(_) => []
      case Done => ReportsAtPoll(hasCb, req, remote, timeout)
  }

  function ReportsAtEncode(hasCb: bool, req: Request, remote: Remote, timeout: int): seq<Progress> {
    Note(hasCb, "Encoding image...", 0.05)
    + match remote.encode(req.image)
      case Failed(_) => []
      case Ok(b64) => ReportsAtSubmit(b64, hasCb, req, remote, timeout)
  }

  /** The reports of a call whose callback never raises. */
  function ClientReports(apiKey: string, endpointId: string, hasCb: bool, req: Request, remote: Remote,
                         timeout: int): seq<Progress>
  {
    if Validation(apiKey, endpointId, remote.connect).0 then ReportsAtEncode(hasCb, req, remote, timeout) else []
  }

  function CallsAtSave(answer: Json, req: Request, remote: Remote): seq<Call> {
    match Classify(answer, remote.keys)
    case Unusable(_) => []
    case Save(payload) => [Store(payload, req.outputPath)]
  }

  function CallsAtPoll(req: Request, remote: Remote, timeout: int): seq<Call> {
    PollCalls(remote.status, PollBudget(timeout))
    + match PollResult(remote.status, remote.output, remote.repr, timeout)
      case Raise(_) => []
      case Return(answer) => CallsAtSave(answer, req, remote)
  }

  function CallsAtSubmit(b64: string, req: Request, remote: Remote, timeout: int): seq<Call> {
    [Submit(JobInput(b64, req.config))]
    + match remote.submit(JobInput(b64, req.config))
      case Fails(_) => []
      case Done => CallsAtPoll(req, remote, timeout)
  }

  function CallsAtEncode(req: Request, remote: Remote, timeout: int): seq<Call> {
    [Encode(req.image)]
    + match remote.encode(req.image)
      case Failed(_) => []
      case Ok(b64) => CallsAtSubmit(b64, req, remote, timeout)
  }

  /** The remote calls of a call whose callback never raises. */
  function ClientCalls(apiKey: string, endpointId: string, req: Request, remote: Remote, timeout: int): seq<Call> {
    (if apiKey != "" && endpointId != "" then [Connect] else [])
    + (if Validation(apiKey, endpointId, remote.connect).0 then CallsAtEncode(req, remote, timeout) else [])
  }

  // ---------------------------------------------------------------- what the client promises

  /** The credential check comes first and the first failing stage decides the result:
      a success stores the video at the requested path, a failure carries only the
      failing stage's message. */
  lemma ClientStopCases(apiKey: string, endpointId: string, req: Request, remote: Remote, timeout: int)
    ensures var stop := ClientStop(apiKey, endpointId, req, remote, timeout);
      var res := ClientResult(stop, req.outputPath, timeout);
      && (apiKey == "" ==> res == Failure("RunPod API key is not set"))
      && (apiKey != "" && endpointId == "" ==> res == Failure("RunPod endpoint ID is not set"))
      && (res.success <==> stop == Finished)
      && (res.success ==> res.videoPath == Some(req.outputPath) && res.errorMessage.None?)
      && (!res.success ==> res.videoPath.None? && res.errorMessage.Some?)
      && (stop == Finished <==>
            && Validation(apiKey, endpointId, remote.connect).0
            && remote.encode(req.image).Ok?
            && remote.submit(JobInput(remote.encode(req.image).value, req.config)).Done?
            && PollResult(remote.status, remote.output, remote.repr, timeout).Return?
            && StopAtSave(PollResult(remote.status, remote.output, remote.repr, timeout).value, req, remote) == Finished)
      && (stop.PollFailed? && stop.exc == JobTimeout ==>
            res == Failure("Job timed out after " + IntToString(timeout) + " seconds"))
  {
  }

  /** A successful save classified the answer as a payload and stored it. */
  lemma SaveFinished(answer: Json, req: Request, remote: Remote)
    ensures StopAtSave(answer, req, remote) == Finished <==>
      HasVideo(answer) && remote.store(Classify(answer, remote.keys).payload, req.outputPath).Done?
  {
    ClassifyPriority(answer, remote.keys);
  }

  lemma {:induction false} ReportsAtSaveProgress(answer: Json, hasCb: bool, req: Request, remote: Remote)
    ensures var rs := ReportsAtSave(answer, hasCb, req, remote);
      var done := StopAtSave(answer, req, remote) == Finished;
      && Climbs(rs, 0.90, 1.0)
      && (!done ==> Climbs(rs, 0.90, 0.90))
      && (hasCb && done ==> |rs| > 0 && rs[|rs| - 1] == Progress("Complete!", 1.0))
  {
    var rs := ReportsAtSave(answer, hasCb, req, remote);
    if !hasCb {
      assert rs == [];
    } else if StopAtSave(answer, req, remote) == Finished {
      assert rs == [Progress("Downloading result...", 0.90), Progress("Complete!", 1.0)];
    } else {
      assert rs == [Progress("Downloading result...", 0.90)];
    }
  }

  lemma {:induction false} ReportsAtPollProgress(hasCb: bool, req: Request, remote: Remote, timeout: int)
    ensures var rs := ReportsAtPoll(hasCb, req, remote, timeout);
      var done := StopAtPoll(req, remote, timeout) == Finished;
      && Climbs(rs, 0.15, 1.0)
      && (!done ==> Climbs(rs, 0.15, 0.90))
      && (hasCb && done ==> |rs| > 0 && rs[|rs| - 1] == Progress("Complete!", 1.0))
  {
    var ps := PollReports(remote.status, PollBudget(timeout), hasCb, 0, "");
    PollReportsProgress(remote.status, PollBudget(timeout), hasCb, 0, "");
    assert Estimate(0) == 0.15;
    var pr := PollResult(remote.status, remote.output, remote.repr, timeout);
    if pr.Return? {
      var tail := ReportsAtSave(pr.value, hasCb, req, remote);
      ReportsAtSaveProgress(pr.value, hasCb, req, remote);
      assert ReportsAtPoll(hasCb, req, remote, timeout) == ps + tail;
      ClimbsAppend(ps, tail, 0.15, 0.85, 0.90, 1.0);
      if StopAtSave(pr.value, req, remote) != Finished {
        ClimbsAppend(ps, tail, 0.15, 0.85, 0.90, 0.90);
      } else if hasCb {
        assert (ps + tail)[|ps + tail| - 1] == tail[|tail| - 1];
      }
    } else {
      assert ReportsAtPoll(hasCb, req, remote, timeout) == ps;
      ClimbsWiden(ps, 0.15, 0.85, 0.15, 1.0);
      ClimbsWiden(ps, 0.15, 0.85, 0.15, 0.90);
    }
  }

  lemma {:induction false} ReportsAtSubmitProgress(b64: string, hasCb: bool, req: Request, remote: Remote, timeout: int)
    ensures var rs := ReportsAtSubmit(b64, hasCb, req, remote, timeout);
      var done := StopAtSubmit(b64, req, remote, timeout) == Finished;
      && Climbs(rs, 0.10, 1.0)
      && (!done ==> Climbs(rs, 0.10, 0.90))
      && (hasCb && done ==> |rs| > 0 && rs[|rs| - 1] == Progress("Complete!", 1.0))
  {
    var head := Note(hasCb, "Submitting to RunPod...", 0.10);
    assert Climbs(head, 0.10, 0.10);
    if remote.submit(JobInput(b64, req.config)).Done? {
      var tail := ReportsAtPoll(hasCb, req, remote, timeout);
      ReportsAtPollProgress(hasCb, req, remote, timeout);
      assert ReportsAtSubmit(b64, hasCb, req, remote, timeout) == head + tail;
      ClimbsAppend(head, tail, 0.10, 0.10, 0.15, 1.0);
      if StopAtPoll(req, remote, timeout) != Finished {
        ClimbsAppend(head, tail, 0.10, 0.10, 0.15, 0.90);
      } else if hasCb {
        assert (head + tail)[|head + tail| - 1] == tail[|tail| - 1];
      }
    } else {
      assert ReportsAtSubmit(b64, hasCb, req, remote, timeout) == head;
      ClimbsWiden(head, 0.10, 0.10, 0.10, 1.0);
      ClimbsWiden(head, 0.10, 0.10, 0.10, 0.90);
    }
  }

  lemma {:induction false} ReportsAtEncodeProgress(hasCb: bool, req: Request, remote: Remote, timeout: int)
    ensures var rs := ReportsAtEncode(hasCb, req, remote, timeout);
      var done := StopAtEncode(req, remote, timeout) == Finished;
      && Climbs(rs, 0.05, 1.0)
      && (!done ==> Climbs(rs, 0.05, 0.90))
      && (hasCb && done ==> |rs| > 0 && rs[|rs| - 1] == Progress("Complete!", 1.0))
  {
    var head := Note(hasCb, "Encoding image...", 0.05);
    assert Climbs(head, 0.05, 0.05);
    match remote.encode(req.image)
    case Ok(b64) =>
      var tail := ReportsAtSubmit(b64, hasCb, req, remote, timeout);
      ReportsAtSubmitProgress(b64, hasCb, req, remote, timeout);
      assert ReportsAtEncode(hasCb, req, remote, timeout) == head + tail;
      ClimbsAppend(head, tail, 0.05, 0.05, 0.10, 1.0);
      if StopAtSubmit(b64, req, remote, timeout) != Finished {
        ClimbsAppend(head, tail, 0.05, 0.05, 0.10, 0.90);
      } else if hasCb {
        assert (head + tail)[|head + tail| - 1] == tail[|tail| - 1];
      }
    case Failed(_) =>
      assert ReportsAtEncode(hasCb, req, remote, timeout) == head;
      ClimbsWiden(head, 0.05, 0.05, 0.05, 1.0);
      ClimbsWiden(head, 0.05, 0.05, 0.05, 0.90);
  }

  /** The client's reports, 0.05, 0.10, the polling estimates, 0.90, 1.0, never
      decrease and stay within [0.05, 1.0]; 1.0 is reported exactly when the call
      succeeds (with a callback), as the last report. */
  lemma ClientReportsProgress(apiKey: string, endpointId: string, hasCb: bool, req: Request, remote: Remote,
                              timeout: int)
    ensures var rs := ClientReports(apiKey, endpointId, hasCb, req, remote, timeout);
      var done := ClientStop(apiKey, endpointId, req, remote, timeout) == Finished;
      && Climbs(rs, 0.05, 1.0)
      && (hasCb && done ==> |rs| > 0 && rs[|rs| - 1] == Progress("Complete!", 1.0))
      && (forall i :: 0 <= i < |rs| && rs[i].value == 1.0 ==> done)
  {
    ReportsAtEncodeProgress(hasCb, req, remote, timeout);
  }

  /** A store, if any, is the last call and targets `target`. */
  predicate StoresLast(cs: seq<Call>, target: Path) {
    forall i :: 0 <= i < |cs| && cs[i].Store? ==> i == |cs| - 1 && cs[i].target == target
  }

  predicate NoStore(cs: seq<Call>) {
    forall i :: 0 <= i < |cs| ==> !cs[i].Store?
  }

  lemma StoresLastAppend(a: seq<Call>, b: seq<Call>, target: Path)
    requires NoStore(a) && StoresLast(b, target)
    ensures StoresLast(a + b, target)
  {
    var ab := a + b;
    assert forall j :: 0 <= j < |a| ==> ab[j] == a[j];
    assert forall j :: |a| <= j < |ab| ==> ab[j] == b[j - |a|];
  }

  /** The payload the job's answer offers for storing, if the job completes and its
      answer has one. */
  function AnswerPayload(remote: Remote, timeout: int): Option<Payload> {
    match PollResult(remote.status, remote.output, remote.repr, timeout)
    case Raise(_) => None
    case Return(answer) =>
      match Classify(answer, remote.keys)
      case Unusable(_) => None
      case Save(payload) => Some(payload)
  }

  /** The store a finished call makes: the answer's payload, at the requested path. */
  predicate StoresAnswer(cs: seq<Call>, req: Request, remote: Remote, timeout: int) {
    && |cs| > 0 && AnswerPayload(remote, timeout).Some?
    && cs[|cs| - 1] == Store(AnswerPayload(remote, timeout).value, req.outputPath)
  }

  lemma CallsAtPollShape(req: Request, remote: Remote, timeout: int)
    ensures var cs := CallsAtPoll(req, remote, timeout);
      && StoresLast(cs, req.outputPath)
      && (StopAtPoll(req, remote, timeout) == Finished ==> StoresAnswer(cs, req, remote, timeout))
  {
    var pr := PollResult(remote.status, remote.output, remote.repr, timeout);
    var ps := PollCalls(remote.status, PollBudget(timeout));
    PollCallsShape(remote.status, PollBudget(timeout));
    assert NoStore(ps);
    var tail := if pr.Return? then CallsAtSave(pr.value, req, remote) else [];
    assert CallsAtPoll(req, remote, timeout) == ps + tail;
    StoresLastAppend(ps, tail, req.outputPath);
  }

  lemma CallsAtSubmitShape(b64: string, req: Request, remote: Remote, timeout: int)
    ensures var cs := CallsAtSubmit(b64, req, remote, timeout);
      var stop := StopAtSubmit(b64, req, remote, timeout);
      && |cs| > 0 && cs[0] == Submit(JobInput(b64, req.config))
      && (stop.SubmitFailed? ==> |cs| == 1)
      && StoresLast(cs, req.outputPath)
      && (stop == Finished ==> StoresAnswer(cs, req, remote, timeout))
  {
    var head := [Submit(JobInput(b64, req.config))];
    if remote.submit(JobInput(b64, req.config)).Done? {
      var tail := CallsAtPoll(req, remote, timeout);
      CallsAtPollShape(req, remote, timeout);
      StoresLastAppend(head, tail, req.outputPath);
    }
  }

  lemma CallsAtEncodeShape(req: Request, remote: Remote, timeout: int)
    ensures var cs := CallsAtEncode(req, remote, timeout);
      var stop := StopAtEncode(req, remote, timeout);
      && |cs| > 0 && cs[0] == Encode(req.image)
      && (stop.EncodeFailed? ==> |cs| == 1)
      && (stop.SubmitFailed? ==> |cs| == 2 && cs[1].Submit?)
      && StoresLast(cs, req.outputPath)
      && (stop == Finished ==> StoresAnswer(cs, req, remote, timeout))
  {
    var head := [Encode(req.image)];
    match remote.encode(req.image)
    case Ok(b64) =>
      var tail := CallsAtSubmit(b64, req, remote, timeout);
      CallsAtSubmitShape(b64, req, remote, timeout);
      StoresLastAppend(head, tail, req.outputPath);
    case Failed(_) =>
  }

  /** The remote calls keep the stage order and stop at the first failure: nothing is
      called without credentials, a failed encoding submits nothing, and a video is
      stored at most once, as the last call and at the requested path. */
  lemma ClientCallsOrder(apiKey: string, endpointId: string, req: Request, remote: Remote, timeout: int)
    ensures var stop := ClientStop(apiKey, endpointId, req, remote, timeout);
      var cs := ClientCalls(apiKey, endpointId, req, remote, timeout);
      && (apiKey == "" || endpointId == "" ==> cs == [])
      && (stop.BadCredentials? && apiKey != "" && endpointId != "" ==> cs == [Connect])
      && (stop.EncodeFailed? ==> cs == [Connect, Encode(req.image)])
      && (stop.SubmitFailed? ==> |cs| == 3 && cs[2].Submit?)
      && StoresLast(cs, req.outputPath)
      && (stop == Finished ==> StoresAnswer(cs, req, remote, timeout))
  {
    if Validation(apiKey, endpointId, remote.connect).0 {
      var tail := CallsAtEncode(req, remote, timeout);
      CallsAtEncodeShape(req, remote, timeout);
      StoresLastAppend([Connect], tail, req.outputPath);
    }
  }

  // ---------------------------------------------------------------- the stages

  /** The save stage: report 0.90, store the answer as its shape says, report 1.0. */
  method SaveStage(answer: Json, req: Request, remote: Remote, timeout: int, hasCb: bool,
                   sink: Sink<Progress>, wrap: Progress -> Progress)
    returns (r: Outcome<ContinuationResult>, calls: seq<Call>)
    requires sink.Valid()
    modifies sink
    ensures sink.Valid()
    ensures var reports := Mapped(ReportsAtSave(answer, hasCb, req, remote), wrap);
      var fits := Fits(sink.limit, |old(sink.events)|, |reports|);
      && sink.events == old(sink.events) + Admit(sink.limit, |old(sink.events)|, reports)
      && r == (if fits then Return(ClientResult(StopAtSave(answer, req, remote), req.outputPath, timeout)) else Raise(Interrupted))
      && calls <= CallsAtSave(answer, req, remote)
      && (fits ==> calls == CallsAtSave(answer, req, remote))
  {
    ghost var e0 := sink.events;
    var head := Note(hasCb, "Downloading result...", 0.90);
    var raised := Report(hasCb, sink, Progress("Downloading result...", 0.90), wrap);
    var tail := if StopAtSave(answer, req, remote) == Finished then Note(hasCb, "Complete!", 1.0) else [];
    MappedAppend(head, tail, wrap);
    if raised {
      AdmitStopped(sink.limit, e0, sink.events, Mapped(head, wrap), Mapped(tail, wrap));
      return Raise(Interrupted), [];
    }
    var saving := Classify(answer, remote.keys);
    if saving.Unusable? {
      return Return(Failure("Failed to save video: " + saving.msg)), [];
    }
    calls := [Store(saving.payload, req.outputPath)];
    var stored := remote.store(saving.payload, req.outputPath);
    if stored.Fails? {
      return Return(Failure("Failed to save video: " + stored.text)), calls;
    }
    ghost var e1 := sink.events;
    raised := Report(hasCb, sink, Progress("Complete!", 1.0), wrap);
    AdmitChain(sink.limit, e0, e1, sink.events, Mapped(head, wrap), Mapped(tail, wrap));
    if raised {
      return Raise(Interrupted), calls;
    }
    r := Return(ContinuationResult(true, Some(req.outputPath), None));
  }

  /** The poll stage: wait for the job, then save its answer. */
  method PollStage(req: Request, remote: Remote, timeout: int, hasCb: bool,
                   sink: Sink<Progress>, wrap: Progress -> Progress)
    returns (r: Outcome<ContinuationResult>, calls: seq<Call>)
    requires sink.Valid()
    modifies sink
    ensures sink.Valid()
    ensures var reports := Mapped(ReportsAtPoll(hasCb, req, remote, timeout), wrap);
      var fits := Fits(sink.limit, |old(sink.events)|, |reports|);
      && sink.events == old(sink.events) + Admit(sink.limit, |old(sink.events)|, reports)
      && r == (if fits then Return(ClientResult(StopAtPoll(req, remote, timeout), req.outputPath, timeout)) else Raise(Interrupted))
      && calls <= CallsAtPoll(req, remote, timeout)
      && (fits ==> calls == CallsAtPoll(req, remote, timeout))
  {
    ghost var e0 := sink.events;
    ghost var head := PollReports(remote.status, PollBudget(timeout), hasCb, 0, "");
    ghost var pr := PollResult(remote.status, remote.output, remote.repr, timeout);
    ghost var tail := if pr.Return? then ReportsAtSave(pr.value, hasCb, req, remote) else [];
    ghost var callTail := if pr.Return? then CallsAtSave(pr.value, req, remote) else [];
    MappedAppend(head, tail, wrap);
    var polled, pollCalls := PollJobStatus(remote.status, remote.output, remote.repr, timeout, hasCb, sink, wrap);
    if polled == Raise(Interrupted) {
      AdmitStopped(sink.limit, e0, sink.events, Mapped(head, wrap), Mapped(tail, wrap));
      return Raise(Interrupted), pollCalls;
    }
    match polled
    case Raise(e) =>
      assert sink.events == e0 + Admit(sink.limit, |e0|, Mapped(head + tail, wrap));
      return Return(ClientResult(PollFailed(e), req.outputPath, timeout)), pollCalls;
    case Return(answer) =>
      ghost var e1 := sink.events;
      var more;
      r, more := SaveStage(answer, req, remote, timeout, hasCb, sink, wrap);
      AdmitChain(sink.limit, e0, e1, sink.events, Mapped(head, wrap), Mapped(tail, wrap));
      calls := pollCalls + more;
  }

  /** The submit stage: report 0.10, submit the job, then poll. */
  method SubmitStage(b64: string, req: Request, remote: Remote, timeout: int, hasCb: bool,
                     sink: Sink<Progress>, wrap: Progress -> Progress)
    returns (r: Outcome<ContinuationResult>, calls: seq<Call>)
    requires sink.Valid()
    modifies sink
    ensures sink.Valid()
    ensures var reports := Mapped(ReportsAtSubmit(b64, hasCb, req, remote, timeout), wrap);
      var fits := Fits(sink.limit, |old(sink.events)|, |reports|);
      && sink.events == old(sink.events) + Admit(sink.limit, |old(sink.events)|, reports)
      && r == (if fits then Return(ClientResult(StopAtSubmit(b64, req, remote, timeout), req.outputPath, timeout)) else Raise(Interrupted))
      && calls <= CallsAtSubmit(b64, req, remote, timeout)
      && (fits ==> calls == CallsAtSubmit(b64, req, remote, timeout))
  {
    ghost var e0 := sink.events;
    var input := JobInput(b64, req.config);
    ghost var head := Note(hasCb, "Submitting to RunPod...", 0.10);
    ghost var tail := if remote.submit(input).Done? then ReportsAtPoll(hasCb, req, remote, timeout) else [];
    MappedAppend(head, tail, wrap);
    var raised := Report(hasCb, sink, Progress("Submitting to RunPod...", 0.10), wrap);
    if raised {
      AdmitStopped(sink.limit, e0, sink.events, Mapped(head, wrap), Mapped(tail, wrap));
      return Raise(Interrupted), [];
    }
    var submitted := remote.submit(input);
    if submitted.Fails? {
      return Return(Failure("Failed to submit job: " + submitted.text)), [Submit(input)];
    }
    ghost var e1 := sink.events;
    var more;
    r, more := PollStage(req, remote, timeout, hasCb, sink, wrap);
    AdmitChain(sink.limit, e0, e1, sink.events, Mapped(head, wrap), Mapped(tail, wrap));
    calls := [Submit(input)] + more;
  }

  /** The encode stage: report 0.05, encode the image, then submit it. */
  method EncodeStage(req: Request, remote: Remote, timeout: int, hasCb: bool,
                     sink: Sink<Progress>, wrap: Progress -> Progress)
    returns (r: Outcome<ContinuationResult>, calls: seq<Call>)
    requires sink.Valid()
    modifies sink
    ensures sink.Valid()
    ensures var reports := Mapped(ReportsAtEncode(hasCb, req, remote, timeout), wrap);
      var fits := Fits(sink.limit, |old(sink.events)|, |reports|);
      && sink.events == old(sink.events) + Admit(sink.limit, |old(sink.events)|, reports)
      && r == (if fits then Return(ClientResult(StopAtEncode(req, remote, timeout), req.outputPath, timeout)) else Raise(Interrupted))
      && calls <= CallsAtEncode(req, remote, timeout)
      && (fits ==> calls == CallsAtEncode(req, remote, timeout))
  {
    ghost var e0 := sink.events;
    ghost var head := Note(hasCb, "Encoding image...", 0.05);
    ghost var tail := match remote.encode(req.image)
      case Failed(_) => []
      case Ok(b64) => ReportsAtSubmit(b64, hasCb, req, remote, timeout);
    MappedAppend(head, tail, wrap);
    var raised := Report(hasCb, sink, Progress("Encoding image...", 0.05), wrap);
    if raised {
      AdmitStopped(sink.limit, e0, sink.events, Mapped(head, wrap), Mapped(tail, wrap));
      return Raise(Interrupted), [];
    }
    var encoded := remote.encode(req.image);
    if encoded.Failed? {
      return Return(Failure("Failed to encode image: " + encoded.text)), [Encode(req.image)];
    }
    ghost var e1 := sink.events;
    var more;
    r, more := SubmitStage(encoded.value, req, remote, timeout, hasCb, sink, wrap);
    AdmitChain(sink.limit, e0, e1, sink.events, Mapped(head, wrap), Mapped(tail, wrap));
    calls := [Encode(req.image)] + more;
  }

  /** `if progress_callback: progress_callback(stage, value)`, through `wrap`. */
  method Report(hasCb: bool, sink: Sink<Progress>, p: Progress, wrap: Progress -> Progress) returns (raised: bool)
    requires sink.Valid()
    modifies sink
    ensures sink.Valid()
    ensures var es := Mapped(Note(hasCb, p.stage, p.value), wrap);
      && sink.events == old(sink.events) + Admit(sink.limit, |old(sink.events)|, es)
      && (raised <==> !Fits(sink.limit, |old(sink.events)|, |es|))
  {
    raised := false;
    if hasCb {
      raised := sink.Emit(wrap(p));
      assert Mapped(Note(hasCb, p.stage, p.value), wrap) == [wrap(p)];
    }
  }

  // ---------------------------------------------------------------- the client object

  /** The client: its credentials, its timeout in seconds, and whether it holds an
      endpoint. */
  class RunPodCogVideoClient {
    const apiKey: string
    const endpointId: string
    const timeout: int
    var connected: bool

    constructor (apiKey: string, endpointId: string, timeout: int)
      ensures this.apiKey == apiKey && this.endpointId == endpointId && this.timeout == timeout
      ensures !connected
    {
      this.apiKey := apiKey;
      this.endpointId := endpointId;
      this.timeout := timeout;
      connected := false;
    }

    /** `validate_credentials`: the API key is checked before the endpoint ID, then the
        endpoint is created; only a successful connection records it. */
    method ValidateCredentials(connect: Effect) returns (ok: bool, message: string)
      modifies this
      ensures (ok, message) == Validation(apiKey, endpointId, connect)
      ensures ok <==> apiKey != "" && endpointId != "" && connect.Done?
      ensures connected == (old(connected) || ok)
    {
      if apiKey == "" {
        return false, "RunPod API key is not set";
      }
      if endpointId == "" {
        return false, "RunPod endpoint ID is not set";
      }
      match connect
      case Done =>
        connected := true;
        return true, "Credentials validated";
      case Fails(t) =>
        return false, "Failed to connect to endpoint: " + t;
    }

    /** `generate_continuation`: validate, encode, submit, poll, save, reporting to the
        callback when there is one. A callback that raises ends the call with its
        exception; otherwise the first failing stage decides the result. */
    method GenerateContinuation(req: Request, remote: Remote, hasCb: bool, sink: Sink<Progress>,
                                wrap: Progress -> Progress)
      returns (r: Outcome<ContinuationResult>, calls: seq<Call>)
      requires sink.Valid()
      modifies this, sink
      ensures sink.Valid()
      ensures connected == (old(connected) || Validation(apiKey, endpointId, remote.connect).0)
      ensures var reports := Mapped(ClientReports(apiKey, endpointId, hasCb, req, remote, timeout), wrap);
        var fits := Fits(sink.limit, |old(sink.events)|, |reports|);
        var stop := ClientStop(apiKey, endpointId, req, remote, timeout);
        && sink.events == old(sink.events) + Admit(sink.limit, |old(sink.events)|, reports)
        && r == (if fits then Return(ClientResult(stop, req.outputPath, timeout)) else Raise(Interrupted))
        && calls <= ClientCalls(apiKey, endpointId, req, remote, timeout)
        && (fits ==> calls == ClientCalls(apiKey, endpointId, req, remote, timeout))
    {
      calls := if apiKey != "" && endpointId != "" then [Connect] else [];
      var valid, message := ValidateCredentials(remote.connect);
      if !valid {
        return Return(Failure(message)), calls;
      }
      var more;
      r, more := EncodeStage(req, remote, timeout, hasCb, sink, wrap);
      calls := calls + more;
    }
  }
}
